=== FILE: README.md ===
# Graph partitioning solvers, modelled in Dafny

This project models the core of a small C++ collection of graph partitioning
solvers. All of them work on an undirected weighted graph stored as adjacency
lists, where `add_undirected` appends an entry at both endpoints. Each solver
returns a `PartitionResult` made of labels, a separator, a cut weight and a
score. The solvers modelled are:

- **Minimum bisection**: a Kernighan–Lin style heuristic. It starts from a
  split by internal degree and makes repeated best-pair exchanges
  (`MinimumBisectionSolver`).
- **k-way partition**: recursive bisection of the largest block
  (`KWayPartitionSolver`).
- **Multilevel k-way partition**: coarsening by heavy-edge matching, then a
  k-way partition of the coarsest graph, then projection back up with greedy
  balanced refinement at every level (`MultilevelKWayPartitionSolver`).
- **Vertex separator**: the boundary of a bisection (`VertexSeparatorSolver`).
- **Global minimum cut**: Stoer–Wagner maximum-adjacency phases with cluster
  merging (`GlobalMinCutSolver`).
- **s-t minimum cut**: Dinic's maximum flow on a residual network with paired
  arcs, with the s side taken as the vertices still reachable from s
  (`STMinCutSolver`).

## How the model is organised

- The graph is a datatype `Graph(n, adj)`. Lists are `seq`s and weights are
  unbounded `int`s.
- The cut weight is defined once, in `Cuts`, exactly as `cut_weight_undirected`
  walks the lists: an entry u→v counts when u < v and the labels differ.
- Two facts tie that definition to pairwise sums over all vertex pairs:
  - `Cuts.CutAsPairs` turns the cut into a double sum over vertex pairs.
  - `Cuts.CutOneWay` does the same for the one-way weight from side 0 to side 1.
- Every solver's result is stated in terms of that one definition.
- Each loop of the C++ code becomes a `method` whose loop invariants carry the
  proof. The solver-level methods (`*.Solve`) state what the solver returns.

Modules:

| module | file | models |
|---|---|---|
| `Sums` | sums.dfy | sums and double sums over index ranges: the arithmetic the cut proofs rest on |
| `Graphs` | graphs.dfy | `WeightedGraph`, `add_undirected`, `degrees`, `PartitionResult` |
| `Cuts` | cuts.dfy | `cut_weight_undirected` |
| `Ordering` | ordering.dfy | `order_by_internal_degree` and the comparator sort it uses |
| `Subsets` | subsets.dfy | `compute_D`, the `wuv` lookup, and the cut restricted to a vertex subset |
| `Bisection` | bisection.dfy | `bisection_on_subset`, `MinimumBisectionSolver::solve` |
| `KWay` | kway.dfy | `KWayPartitionSolver::solve` |
| `Coarsen` | coarsen.dfy | `coarsen_graph` |
| `Refine` | refine.dfy | `refine_partition` |
| `Multilevel` | multilevel.dfy | `MultilevelKWayPartitionSolver::solve` |
| `Separator` | separator.dfy | `VertexSeparatorSolver::solve` |
| `GlobalMinCut` | globalmincut.dfy | `GlobalMinCutSolver::solve` |
| `STMinCut` | stmincut.dfy | `STMinCutSolver::solve` with its `Dinic` helper |

## Model

| member | source | states |
|---|---|---|
| Graphs.NewGraph | GraphUtils.h:25-28 | The graph with n vertices has n empty adjacency lists. |
| Graphs.AddUndirected | GraphUtils.h:30-38 | An out-of-range endpoint is `OutOfRange`; otherwise a negative weight is `InvalidArgument`. On success (v,w) is appended to u's list and (u,w) to v's list; a self-loop gets both entries in its own list; no other list changes. |
| Graphs.AddUndirectedWellFormed | GraphUtils.h:30-38 | A successful insertion keeps every entry in range with non-negative weight. |
| Graphs.AddUndirectedUndirected | GraphUtils.h:36-37 | Insertion keeps the weight from x to y equal to the weight from y to x for every pair. This is the symmetry the cut arguments use. |
| Graphs.AddUndirectedMultisetSymmetric | GraphUtils.h:36-37 | Insertion keeps the adjacency symmetric as a multiset of (endpoint, weight) entries. |
| Graphs.Degrees | GraphUtils.h:40-50 | deg[u] is the total weight of u's list, and it is non-negative. |
| Graphs.DegreeIsRowWeight | GraphUtils.h:40-50 | A degree equals the sum over all vertices v of u's weight towards v. |
| Cuts.CutNonneg | GraphUtils.h:62-73 | With non-negative weights the cut is non-negative. |
| Cuts.CutAsPairs | GraphUtils.h:62-73 | Twice the cut is the sum of the crossing weights over all ordered vertex pairs. This links the list walk to a function of pairwise weights. |
| Cuts.CutOneWay | GraphUtils.h:62-73 | On an undirected graph with labels 0/1, the cut equals the weight the lists of side 0 carry to side 1. |
| Cuts.CutSameCrossing | GraphUtils.h:62-73 | The cut depends only on which pairs of vertices share a label. |
| Cuts.CutRenameInvariant | GraphUtils.h:62-73 | Renaming labels injectively leaves the cut unchanged. |
| Cuts.CutUniform | GraphUtils.h:62-73 | A labelling that gives every vertex the same label has cut 0. |
| Cuts.CutNoEdges | GraphUtils.h:62-73 | A graph without entries has cut 0 under every labelling. |
| Cuts.CutAddEdge | GraphUtils.h:30-38 | After a successful `add_undirected(u,v,w)` the cut grows by w exactly when u and v are labelled differently. This covers self-loops, which never count. |
| Ordering.SortByKey | GraphUtils.h:90-94 | The result is a permutation of the input. It is ordered by descending key, with ties broken by ascending vertex. |
| Ordering.SortedUnique | GraphUtils.h:90-94 | Two permutations that are both sorted under this total comparator are equal. So every correct sort, including `std::sort`, yields the modelled order. |
| Ordering.OrderByInternalDegree | GraphUtils.h:75-100 | The output is a permutation of the given vertices. Vertices with more weight towards the given set come first, ties by ascending index. |
| Ordering.AllVertices | MinimumBisectionSolver.cpp:35-36 | `iota`: each of 0..n-1 appears once. |
| Subsets.Induced | MinimumBisectionSolver.cpp:89-91 | The subgraph seen by the pass loop. The weight between x and y is kept when both are in the subset and is 0 otherwise. |
| Subsets.RestrictedCutAll | MinimumBisectionSolver.cpp:60-141 | Over the whole vertex set, the cut restricted to the subset is the cut. |
| Subsets.RestrictedCutOutside | MinimumBisectionSolver.cpp:137-139 | The restricted cut ignores the labels of vertices outside the subset. This is why the final relabelling of outside vertices to 0 is harmless. |
| Subsets.ComputeD | MinimumBisectionSolver.cpp:83-100 | D[u] is 0 outside the subset. Inside, it is the sum over all vertices y in the subset of ±w(u,y): plus when the labels differ, minus when they agree. |
| Subsets.FirstWeight | MinimumBisectionSolver.cpp:113-118 | `wuv` is the weight of the first entry of u's list pointing at v, or 0 when there is none. |
| Subsets.FirstWeightIsWeight | MinimumBisectionSolver.cpp:113-118 | Without parallel entries, that first weight is the whole weight between u and v. |
| Subsets.SwapGain | MinimumBisectionSolver.cpp:119 | On a simple undirected graph, exchanging a label-0 vertex a with a label-1 vertex b lowers the restricted cut by exactly D[a] + D[b] - 2·w(a,b). |
| Bisection.SplitByOrder | MinimumBisectionSolver.cpp:73-81 | Walking the order, the first t distinct vertices get label 0 and the rest get 1. Vertices not in the order keep their labels. |
| Bisection.InitialSplitProperties | MinimumBisectionSolver.cpp:68-81 | Before the passes, vertices outside the subset have label -1, the subset's labels are 0 or 1, and exactly ceil(s/2) of them are 0. |
| Bisection.BestSwap | MinimumBisectionSolver.cpp:106-126 | The scan returns the first pair in scan order with the largest gain, when that gain is positive. It returns -1 exactly when no (0,1) pair has a positive gain. |
| Bisection.Exchange | MinimumBisectionSolver.cpp:129 | `std::swap` exchanges the two labels and changes nothing else. |
| Bisection.SwapLabels | MinimumBisectionSolver.cpp:128-131 | An exchange keeps the subset's labels in {0,1} and keeps the number of zeros. |
| Bisection.SwapCut | MinimumBisectionSolver.cpp:128-131 | On a simple graph, an exchange lowers the restricted cut by the pair's gain. |
| Bisection.Passes | MinimumBisectionSolver.cpp:102-135 | The passes keep the balance and the labels outside the subset. If they stop early, no exchange has a positive gain. On a simple graph, each exchange lowers the restricted cut by at least 1. |
| Bisection.BisectionOnSubset | MinimumBisectionSolver.cpp:60-141 | Vertices outside the subset get 0 and the subset gets 0/1. A duplicate-free subset is split ceil(s/2)/floor(s/2). The passes make `swaps` improving swaps, at most max_passes. When fewer than max_passes are made, no improving swap is left on the subset. On a simple graph every swap lowers the cut within the subset by at least 1 below the initial split's. |
| Bisection.Solve | MinimumBisectionSolver.cpp:29-39 | An empty graph gives the empty result. Otherwise the labels are 0/1 with ceil(n/2) zeros and the reported cut is the cut of the labels. When the passes stop before max_passes, no improving swap remains. On a simple graph the cut plus the number of swaps is at most the initial split's cut. |
| KWay.LargestBlock | KWayPartitionSolver.cpp:48-51 | The picked block is the largest, and the earliest one on ties. |
| KWay.SplitOff | KWayPartitionSolver.cpp:59-63 | A receives exactly the label-0 vertices of the block and B the others. Together they are a permutation of the block. |
| KWay.SplitHalves | KWayPartitionSolver.cpp:56-66 | A duplicate-free block of at least 2 vertices splits into halves of ceil(s/2) and floor(s/2). So neither half is empty and the early exit on an empty half is never taken. |
| KWay.SplitKeepsBlocks | KWayPartitionSolver.cpp:68-69 | Replacing the block by A and appending B keeps the blocks a partition of the vertex set. |
| KWay.SplitOnce | KWayPartitionSolver.cpp:56-69 | One iteration adds a block and keeps the partition. Block idx becomes the 0-side of a bisection of it, as Bisection.BisectionOnSubset describes, and the new last block becomes its 1-side. Every other block is unchanged. The kept half has ceil(s/2) vertices and the new block floor(s/2). |
| KWay.SplitBlocks | KWayPartitionSolver.cpp:43-70 | The loop ends with exactly min(k, n) blocks that partition the vertex set. The ghost history leads from the single block of all vertices to the result. At each step the history records the split block: it is the largest block, the earliest on ties, with at least two vertices. That block keeps the 0-side of its subset bisection, made with `passes` passes as Bisection.BisectionOnSubset describes. The 1-side becomes a new last block, and no other block changes. |
| KWay.SplitNext | KWayPartitionSolver.cpp:47-69 | One iteration either stops, which happens only when every block has a single vertex, or makes one recorded split of the largest block and keeps the partition. |
| KWay.LabelBlocks | KWayPartitionSolver.cpp:72-75 | Every vertex gets the index of the block that holds it. |
| KWay.Solve | KWayPartitionSolver.cpp:31-78 | An empty graph gives the empty result, and k ≤ 1 gives all zeros with cut 0. Otherwise the labels lie in 0..min(k,n)-1, every label is used, and the reported cut is the cut of the labels. For k > 1 the labels are the block indices at the end of the split history that KWay.SplitBlocks describes. |
| Coarsen.DegreeOrder | MultilevelKWayPartitionSolver.cpp:10-17 | The visiting order is a permutation of all vertices, by descending degree with ties by smaller index. |
| Coarsen.HeaviestFree | MultilevelKWayPartitionSolver.cpp:25-35 | The result is the target of the first unmatched entry of maximal weight in u's list, or -1 exactly when every entry points at a matched vertex. |
| Coarsen.MatchVertex | MultilevelKWayPartitionSolver.cpp:22-44 | u is marked first. Its partner is then the target of the first free entry of maximal weight in u's list, or -1 when no entry is free. u and the partner take the fresh id, and no other vertex's id or flag changes. |
| Coarsen.Match | MultilevelKWayPartitionSolver.cpp:19-45 | The map sends every vertex to a coarse id below cn and uses every id. Two vertices share an id only when an entry links them, and no three share one. So cn ≤ n ≤ 2·cn. Id c was opened by the first vertex of the order not matched before turn c, that is, not carrying an id below c. Besides that vertex, exactly one other vertex carries c: the first heaviest free neighbour the scan returns for the vertices then matched. If no neighbour is free, none does. |
| Coarsen.AddPair | MultilevelKWayPartitionSolver.cpp:57-58 | The stored weight between a and b grows by w in both directions; no other cell changes. |
| Coarsen.CoarseWeights | MultilevelKWayPartitionSolver.cpp:47-61 | Take any coarse labelling, and sum the stored weights x<y across labels. The result is the cut of the fine graph under the composed labelling. |
| Coarsen.BuildCoarse | MultilevelKWayPartitionSolver.cpp:62-68 | The coarse graph is undirected. Its cut under any labelling is the stored cross-label weight. |
| Coarsen.CoarsenGraph | MultilevelKWayPartitionSolver.cpp:6-70 | The coarse graph is undirected and has between n/2 and n vertices. The map is the greedy heavy-edge matching along the descending-degree order. For every coarse labelling, its cut equals the fine cut of the projected labelling. |
| Coarsen.Compose | MultilevelKWayPartitionSolver.cpp:193-195 | The projected label of fine vertex u is the coarse label of map[u]. |
| Refine.LabelWeights | MultilevelKWayPartitionSolver.cpp:97-102 | weights[q] is u's total weight towards vertices labelled q, for each q in 0..k-1. |
| Refine.ComputeSizes | MultilevelKWayPartitionSolver.cpp:84-87 | sizes[l] is the number of vertices labelled l, for each l in 0..k-1. |
| Refine.MoveGain | MultilevelKWayPartitionSolver.cpp:111-118 | On an undirected graph, moving u from p to q lowers the cut by weights[q] - weights[p] plus u's self-loop weight. |
| Refine.BestTarget | MultilevelKWayPartitionSolver.cpp:103-116 | The chosen target is the first label with room and the largest positive gain. When no gain is positive the result is p with gain 0. |
| Refine.TryMove | MultilevelKWayPartitionSolver.cpp:90-123 | The vertex moves exactly when an improving admissible move exists. The target is the lowest label of largest weight towards it among the improving ones. The sizes stay the true counts. |
| Refine.MoveKeeps | MultilevelKWayPartitionSolver.cpp:117-122 | An improving move keeps every block size within the window [n/k, ceil(n/k)], or no further outside it than where it started. |
| Refine.RefinePass | MultilevelKWayPartitionSolver.cpp:83-125 | A pass keeps labels in range and sizes balanced. On an undirected graph each move lowers the cut by at least 1. A pass without moves certifies that no improving move exists. |
| Refine.RefinePartition | MultilevelKWayPartitionSolver.cpp:72-127 | k ≤ 1 changes nothing. Otherwise labels stay in range and sizes balanced, and the cut never grows on an undirected graph. Convergence means no improving move remains; otherwise every one of the passes moved something. |
| Multilevel.Clamp | MultilevelKWayPartitionSolver.cpp:167 | k is clamped to 1..n. |
| Multilevel.BuildLevels | MultilevelKWayPartitionSolver.cpp:174-185 | Each level is the greedy heavy-edge coarsening of the level above, taken only while that graph had more than min_coarse vertices, and kept only when it shrank. It preserves every cut. There are at most max_levels levels. Building stops at max_levels levels, at min_coarse vertices or fewer, or when stalled. Stalled means the greedy heavy-edge matching of the last graph paired no vertices. |
| Multilevel.Uncoarsen | MultilevelKWayPartitionSolver.cpp:191-198 | Projection and refinement keep labels in 0..k-1 with every label used. On an undirected input the final cut is at most the coarsest partition's cut. The ghost levels record the labels of every level, from base at the coarsest to the result at the input. Each level's labels are the refinement of the projection of the labels above, as refine_partition promises: labels in range, block sizes within the window, the cut lowered by the moves, and either no improving move left or every pass made a move. |
| Multilevel.Project | MultilevelKWayPartitionSolver.cpp:192-197 | One level: the projection through the map, refined, keeps every label in use, is a refinement of the projection as above, and on an undirected level cuts no more than the coarse labels did. |
| Multilevel.Solve | MultilevelKWayPartitionSolver.cpp:162-202 | An empty graph gives the empty result, and clamped k = 1 gives cut 0. Otherwise the hierarchy starts at the input with min_coarse = max(2k, 20), and base is a k-way labelling of its coarsest graph that uses every label. baseCut is the cut of base on that coarsest graph. Each level is the greedy heavy-edge coarsening of the one above. Coarsening ends at max_levels levels, at min_coarse vertices or fewer, or at a graph whose greedy matching pairs no two vertices. base is the outcome of recursive bisection on the coarsest graph, as KWay.Solve states it. The ghost levels record each level's labels; each is the refinement of the projection of the labels above, and the input's are the result. The result's labels lie in 0..k-1, every label is used, and the reported cut is the cut of the labels. On an undirected graph that cut is at most baseCut. |
| Separator.MarkBoundary | VertexSeparatorSolver.cpp:42-51 | A vertex is marked exactly when it is an endpoint of an entry whose endpoints have different labels. |
| Separator.Collect | VertexSeparatorSolver.cpp:54-56 | The separator lists exactly the marked vertices, in ascending order. |
| Separator.Solve | VertexSeparatorSolver.cpp:32-59 | The result has the bisection's labels and cut, and the boundary vertices in ascending order with their count as score. With the separator removed, no list entry joins the two sides. The bisection's outcome carries over as in Bisection.Solve. |
| GlobalMinCut.BuildMatrix | GlobalMinCutSolver.cpp:34-41 | w[x][y] is the weight between x and y as the cut reads it, and the matrix is symmetric. |
| GlobalMinCut.SelectMax | GlobalMinCutSolver.cpp:60-65 | The selected vertex is the first not-yet-added vertex of largest dist. |
| GlobalMinCut.Relax | GlobalMinCutSolver.cpp:70-73 | Every vertex not yet added gains its weight to the selected one; the others keep their dist. |
| GlobalMinCut.Phase | GlobalMinCutSolver.cpp:53-78 | The phase adds the active vertices in a maximum-adjacency order, each at most once. Each vertex added is the first of those not yet added with the largest weight into the added ones. s and t are the last two vertices of that order. The reported weight is t's total weight to all the other active vertices. |
| GlobalMinCut.PhaseCut | GlobalMinCutSolver.cpp:76-83 | The phase weight is the cut between t's cluster and the rest of the graph. |
| GlobalMinCut.MergeRows | GlobalMinCutSolver.cpp:85-92 | Row and column vs absorb vt for every other active vertex. |
| GlobalMinCut.MergeKeeps | GlobalMinCutSolver.cpp:85-97 | The merge keeps the invariant: the matrix between active vertices holds the weight between their clusters, and the clusters partition the vertices. |
| GlobalMinCut.UpdateRecord | GlobalMinCutSolver.cpp:80-83 | The record is taken on the first phase or on a strictly smaller cut, so a tie keeps the earlier phase. The record is the least phase cut so far. |
| GlobalMinCut.LabelSide | GlobalMinCutSolver.cpp:100-102 | Vertices of the best cluster get 0 and every other vertex gets 1. |
| GlobalMinCut.RunPhase | GlobalMinCutSolver.cpp:53-97 | One iteration of the main loop. It runs a maximum-adjacency phase whose cut is the cut of the last vertex's cluster. It merges the last vertex into the one added before it, keeps the loop state, and updates the record only on the first phase or a strictly smaller cut. |
| GlobalMinCut.Solve | GlobalMinCutSolver.cpp:22-104 | n = 0 and n = 1 give the source's fixed results. Otherwise there are n-1 phases, each the cut of a proper non-empty side. The ghost trace starts at the edge-weight matrix and singleton clusters. Each step of the trace is one phase: its maximum-adjacency order of the active vertices, its cut (the cut of the last vertex's cluster), and the merge of the last vertex into the one before it. The trace ends at one active vertex. The reported cut is the cut of the 0/1 labels, uses both labels, and is the least phase cut. The labels put the cluster cut off by the first cheapest phase on side 0. |
| STMinCut.AddEdge | STMinCutSolver.cpp:57-63 | The forward arc with capacity c and the reverse arc with capacity 0 are appended, each naming the other's index. A self-loop puts both in one list. |
| STMinCut.AddEdgeKeeps | STMinCutSolver.cpp:57-63 | add_edge keeps the arcs paired and capacities non-negative. It adds c to u's leaving capacity and leaves the others as they were. |
| STMinCut.BuildNet | STMinCutSolver.cpp:135-140 | The network is paired and non-negative. The capacity leaving u is the total weight of u's list. |
| STMinCut.Levels | STMinCutSolver.cpp:65-81 | lvl[v] ≥ 0 exactly when v is reachable from s through positive arcs. lvl[s] = 0, and every other reached vertex is entered from one level below. |
| STMinCut.ReachableFrom | STMinCutSolver.cpp:116-132 | vis[v] is true exactly when v is reachable from s through arcs of positive residual capacity. |
| STMinCut.PushKeeps | STMinCutSolver.cpp:92-95 | Pushing p along an admissible arc keeps the network a residual of the original. It moves p units of leaving capacity from u to the arc's head and touches no other vertex. |
| STMinCut.Dfs | STMinCutSolver.cpp:83-99 | The search pushes 0..f units from u to t. It pushes 0 exactly when no admissible path remains, and then the network is unchanged. Cursors only advance, and passed arcs lead nowhere. |
| STMinCut.Augment | STMinCutSolver.cpp:105-111 | Within one level graph, the repeated searches keep a residual network with conserved flow and push a positive amount. |
| STMinCut.MaxFlow | STMinCutSolver.cpp:101-114 | The result is a residual network of the built one, with flow units leaving s and arriving at t. The flow is between 0 and s's capacity, and t is no longer reachable from s. |
| STMinCut.FlowIsCut | STMinCutSolver.cpp:142-148 | The flow equals the capacity of the entries from the reachable side to the rest. |
| STMinCut.Solve | STMinCutSolver.cpp:29-149 | An empty graph gives the empty result, and a bad s or t is `InvalidArgument`. Otherwise the final network is a residual of the network built from the graph: the same arcs, non-negative capacities, and every arc pair's total kept. The flow leaves s and reaches t with every other vertex conserved. part[v] = 0 exactly for the vertices reachable from s in that residual, with s on side 0 and t on side 1. The reported flow is the one-way cut of those labels, and on an undirected graph it is their cut. |

## Left out

- Output and presentation are not modelled: `print`, `name`, `statement`, `complexity`, and main.cpp.
- Exceptions are modelled as values. `add_undirected`'s `out_of_range`/`invalid_argument` and `STMinCutSolver`'s "bad s,t" become `Err(OutOfRange)` and `Err(InvalidArgument)`.
- 64-bit overflow of `Weight` (`long long`) is not modelled; weights are unbounded integers. The push bound `LLONG_MAX / 4` of Dinic's searches is kept as the constant `Inf`.
- `GlobalMinCut.Solve`: the `LLONG_MAX` start value of `best` is modelled as "no phase yet". The first phase always sets the record, which is what the sentinel achieves for any cut below `LLONG_MAX`.
- The `double` score is modelled as an integer. Only the separator size is ever stored there.
- `std::sort` is modelled as insertion sort. Both comparators are total orders, and `Ordering.SortedUnique` shows the sorted order is unique, so any correct sort gives the same sequence.
- `coarsen_graph`'s `unordered_map` iteration order is modelled as ascending. This changes the order of the coarse adjacency lists, and so possibly the tie-breaks of later matchings. The coarse cut under every labelling does not depend on it and is proved.
- Bisection.Passes: the cut decrease is proved only for simple graphs. On other graphs the `wuv` lookup reads only the first entry towards v, and the computed gain need not be the true change. The source does not promise a decrease there.
- Bisection.BisectionOnSubset: the bound against the initial split likewise needs a simple graph. The balance holds for any duplicate-free subset.
- Refine.RefinePartition: the cut bound needs the graph to be undirected. That is always the case for graphs built by `add_undirected` and for coarse levels.
- Multilevel.Solve: the bound against the base cut needs an undirected input, for the same reason.
- KWay.Solve: the empty-half exit (KWayPartitionSolver.cpp:65-66) is proved unreachable by `KWay.SplitHalves`, so it does not appear in the model.
- GlobalMinCut.Solve: the result is proved to be the least of the n-1 phase cuts, each the cut of the last vertex's cluster in a maximum-adjacency phase of the recorded trace. The Stoer–Wagner theorem, that the least phase cut is a global minimum cut, is not proved.
- STMinCut.Solve: the flow is proved to equal the cut of the reported side, with t unreachable. The weak-duality half of max-flow/min-cut, that no s-t cut is lighter than any flow, is not proved.
- STMinCut.Levels: the levels are proved to be a breadth-first parent structure from s. That they are shortest distances is not proved, and the flow argument does not need it.
- The models return extra values so that the solvers' behaviour can be stated:
  - Bisection.Passes: swaps
  - Bisection.BisectionOnSubset, Bisection.Solve and Separator.Solve: swaps (ghost)
  - KWay.SplitOnce: the bisection of the split block and its swaps (ghost)
  - Multilevel.BuildLevels: stalled, plus the stalled matching (ghost)
  - Multilevel.Solve: baseCut, plus the hierarchy, the base labelling and every level's labels (ghost)
  - Multilevel.Uncoarsen: every level's labels, moves and converged flags (ghost)
  - GlobalMinCut.Solve: phases, plus the phase trace and the cheapest phase (ghost)
  - GlobalMinCut.RunPhase: the phase's maximum-adjacency order (ghost)
  - Refine.RefinePartition: moves and converged
  - STMinCut.Solve: residual
  - KWay.SplitBlocks and KWay.SplitNext: the block owners and the split history (ghost)
  - KWay.Solve: the split history (ghost)

  The source keeps these internally.

=== FILE: bisection.dfy ===
/** `MinimumBisectionSolver` (MinimumBisectionSolver.cpp): a balanced split of a
    vertex subset seeded by the internal-degree order, then Kernighan-Lin style
    passes that each exchange the best label-0/label-1 pair while that lowers
    the cut among the subset. */
module Bisection {
  import opened Graphs
  import opened Cuts
  import opened Ordering
  import opened Subsets

  // ---------------------------------------------------------------- counting

  /** How many entries of xs carry label lab. */
  function CountLabel(part: seq<int>, xs: seq<int>, lab: int): nat
    requires AllIn(xs, |part|)
  {
    if xs == [] then 0 else (if part[xs[0]] == lab then 1 else 0) + CountLabel(part, xs[1..], lab)
  }

  lemma {:induction false} CountAppend(part: seq<int>, a: seq<int>, b: seq<int>, lab: int)
    requires AllIn(a, |part|) && AllIn(b, |part|)
    ensures AllIn(a + b, |part|)
    ensures CountLabel(part, a + b, lab) == CountLabel(part, a, lab) + CountLabel(part, b, lab)
  {
    if a == [] {
      assert a + b == b;
    } else {
      assert (a + b)[1..] == a[1..] + b;
      assert (a + b)[0] == a[0];
      CountAppend(part, a[1..], b, lab);
    }
  }

  /** The count does not depend on the order of the entries. */
  lemma {:induction false} CountPermutation(part: seq<int>, xs: seq<int>, ys: seq<int>, lab: int)
    requires AllIn(xs, |part|) && AllIn(ys, |part|)
    requires multiset(xs) == multiset(ys)
    ensures CountLabel(part, xs, lab) == CountLabel(part, ys, lab)
    decreases |xs|
  {
    if xs == [] {
      assert |ys| == |multiset(ys)| == 0;
    } else {
      assert xs[0] in multiset(ys);
      var i :| 0 <= i < |ys| && ys[i] == xs[0];
      var ys' := CountRemove(part, ys, i, lab);
      RemoveMultiset(xs, ys, i);
      CountPermutation(part, xs[1..], ys', lab);
    }
  }

  lemma RemoveMultiset(xs: seq<int>, ys: seq<int>, i: int)
    requires xs != [] && 0 <= i < |ys| && ys[i] == xs[0] && multiset(xs) == multiset(ys)
    ensures multiset(xs[1..]) == multiset(ys[..i] + ys[i + 1..])
  {
    assert ys == ys[..i] + [ys[i]] + ys[i + 1..];
    assert xs == [xs[0]] + xs[1..];
    assert multiset(ys[..i] + ys[i + 1..]) == multiset(ys) - multiset{xs[0]};
  }

  /** Taking out the entry at position i takes out its contribution. */
  lemma CountRemove(part: seq<int>, ys: seq<int>, i: int, lab: int) returns (ys': seq<int>)
    requires AllIn(ys, |part|) && 0 <= i < |ys|
    ensures ys' == ys[..i] + ys[i + 1..] && AllIn(ys', |part|)
    ensures CountLabel(part, ys, lab) == CountLabel(part, ys', lab) + (if part[ys[i]] == lab then 1 else 0)
  {
    ys' := ys[..i] + ys[i + 1..];
    assert ys == ys[..i] + [ys[i]] + ys[i + 1..];
    CountAppend(part, ys[..i], [ys[i]], lab);
    CountAppend(part, ys[..i] + [ys[i]], ys[i + 1..], lab);
    CountAppend(part, ys[..i], ys[i + 1..], lab);
  }

  /** With labels 0 and 1 only, the two counts add up to the length. */
  lemma {:induction false} CountBoth(part: seq<int>, xs: seq<int>)
    requires AllIn(xs, |part|)
    requires forall i :: 0 <= i < |xs| ==> part[xs[i]] == 0 || part[xs[i]] == 1
    ensures CountLabel(part, xs, 0) + CountLabel(part, xs, 1) == |xs|
  {
    if xs != [] {
      CountBoth(part, xs[1..]);
    }
  }

  /** Labels 0 exactly on the first t positions give t zeros. */
  lemma {:induction false} CountPrefix(part: seq<int>, xs: seq<int>, t: int)
    requires AllIn(xs, |part|) && 0 <= t <= |xs|
    requires forall i :: 0 <= i < |xs| ==> (part[xs[i]] == 0 <==> i < t)
    ensures CountLabel(part, xs, 0) == t
  {
    if xs != [] {
      CountPrefix(part, xs[1..], if t > 0 then t - 1 else 0);
    }
  }

  /** Exchanging a label-0 and a label-1 vertex of a duplicate-free list
      keeps the number of zeros. */
  lemma {:induction false} CountSwap(part: seq<int>, xs: seq<int>, a: int, b: int)
    requires AllIn(xs, |part|) && Distinct(xs)
    requires 0 <= a < |part| && 0 <= b < |part| && part[a] == 0 && part[b] == 1
    ensures CountLabel(part[a := 1][b := 0], xs, 0)
         == CountLabel(part, xs, 0) - (if a in xs then 1 else 0) + (if b in xs then 1 else 0)
  {
    if xs != [] {
      assert Distinct(xs[1..]);
      CountSwap(part, xs[1..], a, b);
      assert xs == [xs[0]] + xs[1..];
      assert xs[0] !in xs[1..];
    }
  }

  // ---------------------------------------------------------------- initial split

  /** Walking `order`, label a vertex 0 while fewer than t have been labelled 0,
      and 1 afterwards (a vertex listed twice keeps its last label). */
  function SplitByOrder(p: seq<int>, order: seq<int>, t: int): (r: seq<int>)
    requires AllIn(order, |p|)
    decreases |order|
    ensures |r| == |p|
    ensures forall v :: 0 <= v < |p| && v !in order ==> r[v] == p[v]
    ensures forall i :: 0 <= i < |order| ==> r[order[i]] == 0 || r[order[i]] == 1
    ensures Distinct(order) ==> forall i :: 0 <= i < |order| ==> (r[order[i]] == 0 <==> i < t)
  {
    if order == [] then p
    else
      var v := order[0];
      var r := SplitByOrder(p[v := if t > 0 then 0 else 1], order[1..], if t > 0 then t - 1 else t);
      SplitStep(p, order, t, r);
      r
  }

  /** Labelling the head of the order first and the rest after keeps the
      walk's promises. */
  lemma SplitStep(p: seq<int>, order: seq<int>, t: int, r: seq<int>)
    requires AllIn(order, |p|) && |order| > 0
    requires var p', tail, t' := p[order[0] := if t > 0 then 0 else 1], order[1..], if t > 0 then t - 1 else t;
      && |r| == |p'|
      && (forall v :: 0 <= v < |p'| && v !in tail ==> r[v] == p'[v])
      && (forall i :: 0 <= i < |tail| ==> r[tail[i]] == 0 || r[tail[i]] == 1)
      && (Distinct(tail) ==> forall i :: 0 <= i < |tail| ==> (r[tail[i]] == 0 <==> i < t'))
    ensures |r| == |p|
    ensures forall v :: 0 <= v < |p| && v !in order ==> r[v] == p[v]
    ensures forall i :: 0 <= i < |order| ==> r[order[i]] == 0 || r[order[i]] == 1
    ensures Distinct(order) ==> forall i :: 0 <= i < |order| ==> (r[order[i]] == 0 <==> i < t)
  {
    var v := order[0];
    assert forall i :: 1 <= i < |order| ==> order[1..][i - 1] == order[i];
    assert Distinct(order) ==> v !in order[1..] && Distinct(order[1..]);
  }

  /** The labelling before the passes: the first ceil(s/2) vertices of the
      internal-degree order get 0, the rest 1, every other vertex -1. */
  function InitialSplit(g: Graph, vs: seq<int>): (p: seq<int>)
    requires WellFormed(g) && AllIn(vs, g.n)
    ensures |p| == g.n
  {
    SplitByOrder(seq(g.n, _ => -1), OrderByInternalDegree(g, vs), (|vs| + 1) / 2)
  }

  lemma InitialSplitProperties(g: Graph, vs: seq<int>)
    requires WellFormed(g) && AllIn(vs, g.n)
    ensures forall v :: 0 <= v < g.n && v !in vs ==> InitialSplit(g, vs)[v] == -1
    ensures forall i :: 0 <= i < |vs| ==> InitialSplit(g, vs)[vs[i]] == 0 || InitialSplit(g, vs)[vs[i]] == 1
    ensures Distinct(vs) ==> CountLabel(InitialSplit(g, vs), vs, 0) == (|vs| + 1) / 2
  {
    var order := OrderByInternalDegree(g, vs);
    var p := InitialSplit(g, vs);
    forall v | 0 <= v < g.n && v !in vs
      ensures p[v] == -1
    {
      assert v !in multiset(vs);
    }
    forall i | 0 <= i < |vs|
      ensures p[vs[i]] == 0 || p[vs[i]] == 1
    {
      assert vs[i] in multiset(order);
    }
    if Distinct(vs) {
      PermutationDistinct(vs, order);
      CountPrefix(p, order, (|vs| + 1) / 2);
      CountPermutation(p, order, vs, 0);
    }
  }

  // ---------------------------------------------------------------- the pair scan

  /** Positions i, j of the subset list hold a label-0 and a label-1 vertex. */
  predicate Candidate(part: seq<int>, vs: seq<int>, i: int, j: int)
    requires AllIn(vs, |part|) && 0 <= i < |vs| && 0 <= j < |vs|
  {
    part[vs[i]] == 0 && part[vs[j]] == 1
  }

  /** (i1, j1) is scanned before (i2, j2): outer loop over u, inner over v. */
  predicate ScannedBefore(i1: int, j1: int, i2: int, j2: int)
  {
    i1 < i2 || (i1 == i2 && j1 < j2)
  }

  /** The scan state after every pair before (i, j): best is the largest
      positive gain met so far (0 if none), first met at (bi, bj). */
  ghost predicate ScanState(g: Graph, vs: seq<int>, part: seq<int>, d: seq<int>, i: int, j: int, best: int, bi: int, bj: int)
    requires WellFormed(g) && AllIn(vs, g.n) && |part| == g.n && |d| == g.n
  {
    && best >= 0
    && (bi == -1 ==> best == 0 && bj == -1)
    && (bi != -1 ==>
          && 0 <= bi < |vs| && 0 <= bj < |vs| && Candidate(part, vs, bi, bj)
          && Gain(g, d, vs[bi], vs[bj]) == best && best > 0
          && ScannedBefore(bi, bj, i, j))
    && (forall i', j' :: 0 <= i' < |vs| && 0 <= j' < |vs| && ScannedBefore(i', j', i, j) && Candidate(part, vs, i', j')
          ==> Gain(g, d, vs[i'], vs[j']) <= best)
    && (forall i', j' :: 0 <= i' < |vs| && 0 <= j' < |vs| && bi != -1 && ScannedBefore(i', j', bi, bj) && Candidate(part, vs, i', j')
          ==> Gain(g, d, vs[i'], vs[j']) < best)
  }

  /** The scan for the pair to exchange: the first pair in scan order with
      the largest gain, when that gain is positive; bi = bj = -1 otherwise. */
  method BestSwap(g: Graph, vs: seq<int>, part: seq<int>, d: seq<int>) returns (best: int, bi: int, bj: int)
    requires WellFormed(g) && AllIn(vs, g.n) && |part| == g.n && |d| == g.n
    ensures best >= 0
    ensures bi == -1 <==> forall i, j :: 0 <= i < |vs| && 0 <= j < |vs| && Candidate(part, vs, i, j) ==> Gain(g, d, vs[i], vs[j]) <= 0
    ensures bi == -1 ==> best == 0 && bj == -1
    ensures bi != -1 ==> 0 <= bi < |vs| && 0 <= bj < |vs| && Candidate(part, vs, bi, bj) && Gain(g, d, vs[bi], vs[bj]) == best > 0
    ensures forall i, j :: 0 <= i < |vs| && 0 <= j < |vs| && Candidate(part, vs, i, j) ==> Gain(g, d, vs[i], vs[j]) <= best
    ensures bi != -1 ==>
      forall i, j :: 0 <= i < |vs| && 0 <= j < |vs| && ScannedBefore(i, j, bi, bj) && Candidate(part, vs, i, j) ==> Gain(g, d, vs[i], vs[j]) < best
  {
    best, bi, bj := 0, -1, -1;
    var i := 0;
    while i < |vs|
      invariant 0 <= i <= |vs|
      invariant ScanState(g, vs, part, d, i, 0, best, bi, bj)
    {
      if part[vs[i]] == 0 {
        best, bi, bj := ScanRow(g, vs, part, d, i, best, bi, bj);
        ScanNextRow(g, vs, part, d, i, |vs|, best, bi, bj);
      } else {
        ScanNextRow(g, vs, part, d, i, 0, best, bi, bj);
      }
      i := i + 1;
    }
    ScanDone(g, vs, part, d, best, bi, bj);
  }

  /** The inner scan over the partners j of a label-0 vertex vs[i]. */
  method ScanRow(g: Graph, vs: seq<int>, part: seq<int>, d: seq<int>, i: int, best0: int, bi0: int, bj0: int)
    returns (best: int, bi: int, bj: int)
    requires WellFormed(g) && AllIn(vs, g.n) && |part| == g.n && |d| == g.n
    requires 0 <= i < |vs| && part[vs[i]] == 0 && ScanState(g, vs, part, d, i, 0, best0, bi0, bj0)
    ensures ScanState(g, vs, part, d, i, |vs|, best, bi, bj)
  {
    best, bi, bj := best0, bi0, bj0;
    var j := 0;
    while j < |vs|
      invariant 0 <= j <= |vs|
      invariant ScanState(g, vs, part, d, i, j, best, bi, bj)
    {
      if part[vs[j]] == 1 {
        var wuv := FirstWeight(g.adj[vs[i]], vs[j]);
        var gain := d[vs[i]] + d[vs[j]] - 2 * wuv;
        if gain > best {
          ScanImprove(g, vs, part, d, i, j, best, bi, bj);
          best, bi, bj := gain, i, j;
        } else {
          ScanKeep(g, vs, part, d, i, j, best, bi, bj);
        }
      } else {
        ScanKeep(g, vs, part, d, i, j, best, bi, bj);
      }
      j := j + 1;
    }
  }

  lemma ScanKeep(g: Graph, vs: seq<int>, part: seq<int>, d: seq<int>, i: int, j: int, best: int, bi: int, bj: int)
    requires WellFormed(g) && AllIn(vs, g.n) && |part| == g.n && |d| == g.n
    requires 0 <= i < |vs| && 0 <= j < |vs| && ScanState(g, vs, part, d, i, j, best, bi, bj)
    requires Candidate(part, vs, i, j) ==> Gain(g, d, vs[i], vs[j]) <= best
    ensures ScanState(g, vs, part, d, i, j + 1, best, bi, bj)
  {
  }

  lemma ScanImprove(g: Graph, vs: seq<int>, part: seq<int>, d: seq<int>, i: int, j: int, best: int, bi: int, bj: int)
    requires WellFormed(g) && AllIn(vs, g.n) && |part| == g.n && |d| == g.n
    requires 0 <= i < |vs| && 0 <= j < |vs| && ScanState(g, vs, part, d, i, j, best, bi, bj)
    requires Candidate(part, vs, i, j) && Gain(g, d, vs[i], vs[j]) > best
    ensures ScanState(g, vs, part, d, i, j + 1, Gain(g, d, vs[i], vs[j]), i, j)
  {
  }

  lemma ScanNextRow(g: Graph, vs: seq<int>, part: seq<int>, d: seq<int>, i: int, j: int, best: int, bi: int, bj: int)
    requires WellFormed(g) && AllIn(vs, g.n) && |part| == g.n && |d| == g.n
    requires 0 <= i < |vs| && ScanState(g, vs, part, d, i, j, best, bi, bj)
    requires j == |vs| || (j == 0 && part[vs[i]] != 0)
    ensures ScanState(g, vs, part, d, i + 1, 0, best, bi, bj)
  {
  }

  lemma ScanDone(g: Graph, vs: seq<int>, part: seq<int>, d: seq<int>, best: int, bi: int, bj: int)
    requires WellFormed(g) && AllIn(vs, g.n) && |part| == g.n && |d| == g.n
    requires ScanState(g, vs, part, d, |vs|, 0, best, bi, bj)
    ensures bi == -1 <==> forall i, j :: 0 <= i < |vs| && 0 <= j < |vs| && Candidate(part, vs, i, j) ==> Gain(g, d, vs[i], vs[j]) <= 0
  {
    if bi != -1 {
      assert Candidate(part, vs, bi, bj) && Gain(g, d, vs[bi], vs[bj]) > 0;
    }
  }

  // ---------------------------------------------------------------- the passes

  /** No label-0/label-1 pair of the subset has a positive gain. */
  ghost predicate NoImprovingSwap(g: Graph, vs: seq<int>, part: seq<int>)
    requires WellFormed(g) && AllIn(vs, g.n) && |part| == g.n
  {
    var d := ComputeD(g, Members(vs), part);
    forall i, j :: 0 <= i < |vs| && 0 <= j < |vs| && Candidate(part, vs, i, j) ==> Gain(g, d, vs[i], vs[j]) <= 0
  }

  /** The passes: each one recomputes D, scans for the best pair and exchanges
      it if its gain is positive, and otherwise ends the loop. */
  method Passes(g: Graph, vs: seq<int>, part0: seq<int>, maxPasses: int) returns (part: seq<int>, swaps: nat)
    requires WellFormed(g) && AllIn(vs, g.n) && |part0| == g.n
    requires forall i :: 0 <= i < |vs| ==> part0[vs[i]] == 0 || part0[vs[i]] == 1
    ensures |part| == g.n
    ensures forall v :: 0 <= v < g.n && v !in vs ==> part[v] == part0[v]
    ensures forall i :: 0 <= i < |vs| ==> part[vs[i]] == 0 || part[vs[i]] == 1
    ensures swaps <= maxPasses || swaps == 0
    ensures swaps < maxPasses ==> NoImprovingSwap(g, vs, part)
    ensures Distinct(vs) ==> CountLabel(part, vs, 0) == CountLabel(part0, vs, 0)
    ensures Simple(g) ==> RestrictedCut(g, Members(vs), part) + swaps <= RestrictedCut(g, Members(vs), part0)
  {
    var S := Members(vs);
    part, swaps := part0, 0;
    var stop := false;
    while swaps < maxPasses && !stop
      invariant |part| == g.n
      invariant forall v :: 0 <= v < g.n && v !in vs ==> part[v] == part0[v]
      invariant forall i :: 0 <= i < |vs| ==> part[vs[i]] == 0 || part[vs[i]] == 1
      invariant swaps <= maxPasses || swaps == 0
      invariant stop ==> NoImprovingSwap(g, vs, part)
      invariant Distinct(vs) ==> CountLabel(part, vs, 0) == CountLabel(part0, vs, 0)
      invariant Simple(g) ==> RestrictedCut(g, S, part) + swaps <= RestrictedCut(g, S, part0)
      decreases maxPasses - swaps, if stop then 0 else 1
    {
      var d := ComputeD(g, S, part);
      var best, bi, bj := BestSwap(g, vs, part, d);
      if best > 0 && bi != -1 {
        var u, v := vs[bi], vs[bj];
        SwapLabels(g, vs, part, bi, bj);
        if Simple(g) {
          SwapCut(g, vs, part, bi, bj);
        }
        part := Exchange(part, u, v);
        swaps := swaps + 1;
      } else {
        stop := true;
      }
    }
  }

  /** `std::swap` of the labels of u and v. */
  function Exchange(part: seq<int>, u: int, v: int): (q: seq<int>)
    requires 0 <= u < |part| && 0 <= v < |part|
    ensures |q| == |part| && q[u] == part[v] && q[v] == part[u]
    ensures forall x :: 0 <= x < |part| && x != u && x != v ==> q[x] == part[x]
  {
    part[u := part[v]][v := part[u]]
  }

  /** One exchange keeps the labels of the subset in {0, 1} and the number of
      zeros. */
  lemma SwapLabels(g: Graph, vs: seq<int>, part: seq<int>, i: int, j: int)
    requires WellFormed(g) && AllIn(vs, g.n) && |part| == g.n
    requires forall k :: 0 <= k < |vs| ==> part[vs[k]] == 0 || part[vs[k]] == 1
    requires 0 <= i < |vs| && 0 <= j < |vs| && Candidate(part, vs, i, j)
    ensures forall v :: 0 <= v < g.n && v !in vs ==> Exchange(part, vs[i], vs[j])[v] == part[v]
    ensures forall k :: 0 <= k < |vs| ==> Exchange(part, vs[i], vs[j])[vs[k]] == 0 || Exchange(part, vs[i], vs[j])[vs[k]] == 1
    ensures Distinct(vs) ==> CountLabel(Exchange(part, vs[i], vs[j]), vs, 0) == CountLabel(part, vs, 0)
  {
    var u, v := vs[i], vs[j];
    assert Exchange(part, u, v) == part[u := 1][v := 0];
    if Distinct(vs) {
      CountSwap(part, vs, u, v);
    }
  }

  /** On a simple graph one exchange lowers the cut among the subset by the
      gain of the pair. */
  lemma SwapCut(g: Graph, vs: seq<int>, part: seq<int>, i: int, j: int)
    requires WellFormed(g) && AllIn(vs, g.n) && |part| == g.n && Simple(g)
    requires forall k :: 0 <= k < |vs| ==> part[vs[k]] == 0 || part[vs[k]] == 1
    requires 0 <= i < |vs| && 0 <= j < |vs| && Candidate(part, vs, i, j)
    ensures RestrictedCut(g, Members(vs), Exchange(part, vs[i], vs[j]))
         == RestrictedCut(g, Members(vs), part) - Gain(g, ComputeD(g, Members(vs), part), vs[i], vs[j])
  {
    var u, v := vs[i], vs[j];
    var S := Members(vs);
    assert Exchange(part, u, v) == part[u := 1][v := 0];
    forall x | 0 <= x < g.n && x in S
      ensures part[x] == 0 || part[x] == 1
    {
      var k :| 0 <= k < |vs| && vs[k] == x;
    }
    SwapGain(g, S, part, u, v);
  }

  /** What `bisection_on_subset` promises of its labels part: 0 outside the
      subset, 0 or 1 on it, the first ceil(s/2) of the subset's size labelled 0,
      and the outcome of the passes. swaps exchanges were made, no more
      than maxPasses. Unless that budget ran out, no label-0/label-1 pair of
      the subset has a positive gain. On a simple graph each exchange
      lowered the cut among the subset below the initial split's. */
  /** Labels 0/1 on the subset, 0 elsewhere, and the subset's halves sized
      as the initial split sized them. */
  ghost predicate SubsetSplit(g: Graph, vs: seq<int>, part: seq<int>)
    requires AllIn(vs, g.n)
  {
    && |part| == g.n
    && (forall v :: 0 <= v < g.n && v !in vs ==> part[v] == 0)
    && (forall i :: 0 <= i < |vs| ==> part[vs[i]] == 0 || part[vs[i]] == 1)
    && (Distinct(vs) ==> CountLabel(part, vs, 0) == (|vs| + 1) / 2 && CountLabel(part, vs, 1) == |vs| / 2)
  }

  ghost predicate Bisected(g: Graph, vs: seq<int>, maxPasses: int, part: seq<int>, swaps: nat)
    requires WellFormed(g) && AllIn(vs, g.n)
  {
    && SubsetSplit(g, vs, part)
    && (swaps <= maxPasses || swaps == 0)
    && (swaps < maxPasses ==> NoImprovingSwap(g, vs, part))
    && (Simple(g) ==> RestrictedCut(g, Members(vs), part) + swaps <= RestrictedCut(g, Members(vs), InitialSplit(g, vs)))
  }

  /** `bisection_on_subset`: the initial split of the subset improved by the
      passes, with 0 for every vertex outside the subset. */
  method BisectionOnSubset(g: Graph, vs: seq<int>, maxPasses: int) returns (part: seq<int>, ghost swaps: nat)
    requires WellFormed(g) && AllIn(vs, g.n)
    ensures SubsetSplit(g, vs, part)
    ensures Simple(g) ==> RestrictedCut(g, Members(vs), part) <= RestrictedCut(g, Members(vs), InitialSplit(g, vs))
    ensures Bisected(g, vs, maxPasses, part, swaps)
  {
    var S := Members(vs);
    var p0 := InitialSplit(g, vs);
    InitialSplitProperties(g, vs);
    var p;
    p, swaps := Passes(g, vs, p0, maxPasses);
    part := seq(g.n, u requires 0 <= u < g.n => if u in S then p[u] else 0);
    assert forall i :: 0 <= i < |vs| ==> part[vs[i]] == p[vs[i]];
    if Distinct(vs) {
      CountSame(part, p, vs);
      CountBoth(part, vs);
    }
    if Simple(g) {
      RestrictedCutOutside(g, S, part, p);
    }
    if swaps < maxPasses {
      NoSwapSame(g, vs, p, part);
    }
  }

  /** A vertex's D value reads only its own label and those of the subset. */
  lemma {:induction false} SignedWeightSame(p: seq<int>, q: seq<int>, u: int, S: set<int>, es: seq<Edge>)
    requires 0 <= u < |p| && |p| == |q| && EntriesIn(es, |p|) && p[u] == q[u]
    requires forall v :: 0 <= v < |p| && v in S ==> p[v] == q[v]
    ensures SignedWeight(p, u, S, es) == SignedWeight(q, u, S, es)
  {
    if es != [] {
      assert EntriesIn(es[1..], |p|);
      SignedWeightSame(p, q, u, S, es[1..]);
    }
  }

  /** Whether an improving pair exists depends only on the subset's labels. */
  lemma NoSwapSame(g: Graph, vs: seq<int>, p: seq<int>, q: seq<int>)
    requires WellFormed(g) && AllIn(vs, g.n) && |p| == g.n && |q| == g.n
    requires forall i :: 0 <= i < |vs| ==> p[vs[i]] == q[vs[i]]
    requires NoImprovingSwap(g, vs, p)
    ensures NoImprovingSwap(g, vs, q)
  {
    var S := Members(vs);
    forall v | 0 <= v < g.n && v in S
      ensures p[v] == q[v]
    {
      var i :| 0 <= i < |vs| && vs[i] == v;
    }
    forall u | 0 <= u < g.n && u in S
      ensures SignedWeight(p, u, S, g.adj[u]) == SignedWeight(q, u, S, g.adj[u])
    {
      assert EntriesIn(g.adj[u], g.n);
      SignedWeightSame(p, q, u, S, g.adj[u]);
    }
    assert ComputeD(g, S, p) == ComputeD(g, S, q);
    forall i, j | 0 <= i < |vs| && 0 <= j < |vs| && Candidate(q, vs, i, j)
      ensures Candidate(p, vs, i, j)
    {
    }
  }

  lemma {:induction false} CountSame(p: seq<int>, q: seq<int>, xs: seq<int>)
    requires AllIn(xs, |p|) && |p| == |q|
    requires forall i :: 0 <= i < |xs| ==> p[xs[i]] == q[xs[i]]
    ensures CountLabel(p, xs, 0) == CountLabel(q, xs, 0)
  {
    if xs != [] {
      CountSame(p, q, xs[1..]);
    }
  }

  /** The bisection of the subset holding every vertex, read as a bisection
      of the whole graph. */
  lemma WholeGraph(g: Graph, maxPasses: int, part: seq<int>, swaps: nat)
    requires WellFormed(g) && Bisected(g, AllVertices(g.n), maxPasses, part, swaps)
    ensures forall v :: 0 <= v < g.n ==> part[v] == 0 || part[v] == 1
    ensures CountLabel(part, AllVertices(g.n), 0) == (g.n + 1) / 2
    ensures Simple(g) ==> CutWeight(g, part) + swaps <= CutWeight(g, InitialSplit(g, AllVertices(g.n)))
  {
    var all := AllVertices(g.n);
    forall v | 0 <= v < g.n
      ensures part[v] == 0 || part[v] == 1
    {
      assert all[v] == v;
    }
    WholeMembers(g.n);
    if Simple(g) {
      RestrictedCutAll(g, Members(all), part);
      RestrictedCutAll(g, Members(all), InitialSplit(g, all));
    }
  }

  /** Every vertex is a member of the list of all vertices. */
  lemma WholeMembers(n: nat)
    ensures forall v :: 0 <= v < n ==> v in Members(AllVertices(n))
  {
  }

  /** `solve`: the bisection of the whole vertex set and its cut. swaps is
      the number of exchanges the passes made. */
  method Solve(g: Graph, maxPasses: int) returns (res: PartitionResult, ghost swaps: nat)
    requires WellFormed(g)
    ensures g.n == 0 ==> res == EmptyResult
    ensures g.n > 0 ==> |res.part| == g.n && forall v :: 0 <= v < g.n ==> res.part[v] == 0 || res.part[v] == 1
    ensures g.n > 0 ==> CountLabel(res.part, AllVertices(g.n), 0) == (g.n + 1) / 2
    ensures g.n > 0 ==> res.cutWeight == CutWeight(g, res.part) && res.separator == [] && res.score == 0
    ensures swaps <= maxPasses || swaps == 0
    ensures g.n > 0 && swaps < maxPasses ==> NoImprovingSwap(g, AllVertices(g.n), res.part)
    ensures g.n > 0 && Simple(g) ==> res.cutWeight + swaps <= CutWeight(g, InitialSplit(g, AllVertices(g.n)))
  {
    if g.n == 0 {
      return EmptyResult, 0;
    }
    var all := AllVertices(g.n);
    var part;
    part, swaps := BisectionOnSubset(g, all, maxPasses);
    WholeGraph(g, maxPasses, part, swaps);
    res := PartitionResult(part, [], CutWeight(g, part), 0);
  }
}

=== FILE: coarsen.dfy ===
/** `coarsen_graph` (MultilevelKWayPartitionSolver.cpp): heavy-edge matching
    in descending-degree order, then the coarse graph whose edge between two
    coarse vertices carries the total weight of the fine edges between their
    preimages. The coarse graph sees exactly the cuts of the fine graph that
    keep each matched pair together. */
module Coarsen {
  import opened Graphs
  import opened Cuts
  import opened Ordering

  // ---------------------------------------------------------------- degree order

  /** Each vertex's total incident weight. */
  function DegreeKey(g: Graph): (deg: seq<int>)
    requires WellFormed(g)
    ensures |deg| == g.n
  {
    seq(g.n, u requires 0 <= u < g.n => ListTotal(g.adj[u]))
  }

  /** The visiting order of the matching: all vertices, heavier degree
      first, ties by smaller index. */
  method DegreeOrder(g: Graph) returns (order: seq<int>)
    requires WellFormed(g)
    ensures AllIn(order, g.n) && multiset(order) == multiset(AllVertices(g.n))
    ensures forall i, j :: 0 <= i < j < |order| ==> !Precedes(DegreeKey(g), order[j], order[i])
  {
    var deg := Degrees(g);
    assert deg == DegreeKey(g);
    order := SortByKey(deg, AllVertices(g.n));
  }

  // ---------------------------------------------------------------- matching

  /** Entry i of u's list points at a vertex not yet matched. */
  predicate Free(g: Graph, matched: seq<bool>, u: int, i: int)
    requires WellFormed(g) && |matched| == g.n && 0 <= u < g.n && 0 <= i < |g.adj[u]|
  {
    !matched[g.adj[u][i].to]
  }

  /** The partner scan: the first free entry of maximal weight in u's list,
      or -1 when every entry points at a matched vertex. */
  method HeaviestFree(g: Graph, matched: seq<bool>, u: int) returns (best: int)
    requires WellFormed(g) && |matched| == g.n && 0 <= u < g.n
    ensures best == -1 <==> forall i :: 0 <= i < |g.adj[u]| ==> !Free(g, matched, u, i)
    ensures best != -1 ==> exists i :: (0 <= i < |g.adj[u]| && Free(g, matched, u, i) && g.adj[u][i].to == best
      && (forall j :: 0 <= j < |g.adj[u]| && Free(g, matched, u, j) ==> g.adj[u][j].w <= g.adj[u][i].w)
      && (forall j :: 0 <= j < i && Free(g, matched, u, j) ==> g.adj[u][j].w < g.adj[u][i].w))
  {
    best := -1;
    var bestW := -1;
    ghost var bi := -1;
    var j := 0;
    while j < |g.adj[u]|
      invariant 0 <= j <= |g.adj[u]|
      invariant best == -1 <==> forall i :: 0 <= i < j ==> !Free(g, matched, u, i)
      invariant best == -1 ==> bestW == -1
      invariant best != -1 ==> 0 <= bi < j && Free(g, matched, u, bi) && g.adj[u][bi].to == best && g.adj[u][bi].w == bestW
      invariant best != -1 ==> forall i :: 0 <= i < j && Free(g, matched, u, i) ==> g.adj[u][i].w <= bestW
      invariant best != -1 ==> forall i :: 0 <= i < bi && Free(g, matched, u, i) ==> g.adj[u][i].w < bestW
    {
      var e := g.adj[u][j];
      assert e.w >= 0 && (Free(g, matched, u, j) <==> !matched[e.to]);
      if !matched[e.to] {
        if e.w > bestW {
          best, bestW, bi := e.to, e.w, j;
        }
      }
      j := j + 1;
    }
  }

  /** best is what the partner scan over u's list returns for this matched
      state: -1 when no entry is free, otherwise the target of the first free
      entry of maximal weight. */
  ghost predicate HeaviestPick(g: Graph, matched: seq<bool>, u: int, best: int)
    requires WellFormed(g) && |matched| == g.n && 0 <= u < g.n
  {
    && (best == -1 <==> forall i :: 0 <= i < |g.adj[u]| ==> !Free(g, matched, u, i))
    && (best != -1 ==> exists i :: (0 <= i < |g.adj[u]| && Free(g, matched, u, i) && g.adj[u][i].to == best
      && (forall j :: 0 <= j < |g.adj[u]| && Free(g, matched, u, j) ==> g.adj[u][j].w <= g.adj[u][i].w)
      && (forall j :: 0 <= j < i && Free(g, matched, u, j) ==> g.adj[u][j].w < g.adj[u][i].w)))
  }

  /** y is named by an entry of x's list. */
  ghost predicate Linked(g: Graph, x: int, y: int)
    requires WellFormed(g) && 0 <= x < g.n
  {
    exists i :: 0 <= i < |g.adj[x]| && g.adj[x][i].to == y
  }

  /** Coarse vertex c has a fine preimage. */
  ghost predicate Hit(cmap: seq<int>, c: int)
  {
    exists v :: 0 <= v < |cmap| && cmap[v] == c
  }

  /** cmap sends the vertices of g onto 0..cn-1, each coarse vertex having
      one fine preimage or two joined by an edge. */
  ghost predicate Matching(g: Graph, cmap: seq<int>, cn: nat)
    requires WellFormed(g)
  {
    && |cmap| == g.n
    && (forall v :: 0 <= v < g.n ==> 0 <= cmap[v] < cn)
    && (forall c :: 0 <= c < cn ==> Hit(cmap, c))
    && (forall x, y :: 0 <= x < g.n && 0 <= y < g.n && x != y && cmap[x] == cmap[y] ==> Linked(g, x, y) || Linked(g, y, x))
    && (forall x, y, z :: 0 <= x < y < z < g.n ==> !(cmap[x] == cmap[y] && cmap[y] == cmap[z]))
  }

  /** The vertices 0..n-1 as a set have n elements. */
  lemma {:induction false} RangeSize(n: nat)
    ensures |set v | v in AllVertices(n)| == n
  {
    if n > 0 {
      RangeSize(n - 1);
      var m := n - 1;
      assert AllVertices(n) == AllVertices(m) + [m];
      assert (set v | v in AllVertices(n)) == (set v | v in AllVertices(m)) + {m};
    }
  }

  /** The state of the matching loop: matched vertices are those with an id,
      ids below cn each have a witness, ids are shared only along edges and
      by at most two vertices, and cn counts the matched vertices up to a
      factor of two. */
  ghost predicate MatchInv(g: Graph, cmap: seq<int>, matched: seq<bool>, ms: set<int>, wit: seq<int>, cn: nat)
    requires WellFormed(g)
  {
    && |cmap| == g.n && |matched| == g.n && |wit| == cn
    && (forall v :: v in ms <==> 0 <= v < g.n && matched[v])
    && (forall v :: 0 <= v < g.n ==> (matched[v] <==> cmap[v] != -1) && -1 <= cmap[v] < cn)
    && (forall c :: 0 <= c < cn ==> 0 <= wit[c] < g.n && cmap[wit[c]] == c)
    && (forall x, y :: 0 <= x < g.n && 0 <= y < g.n && x != y && cmap[x] == cmap[y] && cmap[x] != -1 ==> Linked(g, x, y) || Linked(g, y, x))
    && (forall x, y, z :: 0 <= x < y < z < g.n ==> !(cmap[x] == cmap[y] && cmap[y] == cmap[z] && cmap[x] != -1))
    && cn <= |ms| <= 2 * cn
  }

  /** Matching u with its free neighbour b under the fresh id cn. */
  lemma PairStep(g: Graph, cmap: seq<int>, matched: seq<bool>, ms: set<int>, wit: seq<int>, cn: nat, u: int, b: int)
    requires WellFormed(g) && MatchInv(g, cmap, matched, ms, wit, cn)
    requires 0 <= u < g.n && 0 <= b < g.n && u != b && !matched[u] && !matched[b] && Linked(g, u, b)
    ensures MatchInv(g, cmap[u := cn][b := cn], matched[u := true][b := true], ms + {u, b}, wit + [u], cn + 1)
  {
    assert u !in ms && b !in ms;
  }

  /** Giving the unpaired vertex u the fresh id cn. */
  lemma SoloStep(g: Graph, cmap: seq<int>, matched: seq<bool>, ms: set<int>, wit: seq<int>, cn: nat, u: int)
    requires WellFormed(g) && MatchInv(g, cmap, matched, ms, wit, cn)
    requires 0 <= u < g.n && !matched[u]
    ensures MatchInv(g, cmap[u := cn], matched[u := true], ms + {u}, wit + [u], cn + 1)
  {
    assert u !in ms;
  }

  /** Nothing matched yet. */
  lemma MatchStart(g: Graph)
    requires WellFormed(g)
    ensures MatchInv(g, seq(g.n, _ => -1), seq(g.n, _ => false), {}, [], 0)
  {
  }

  /** One round of the matching loop for the unmatched vertex u: u is marked
      first, then u and its heaviest free neighbour best, if it has one, take
      the fresh id cn and nothing else changes. */
  method MatchVertex(g: Graph, cmap: seq<int>, matched: seq<bool>, cn: nat, u: int, ghost ms: set<int>, ghost wit: seq<int>)
    returns (cmap': seq<int>, matched': seq<bool>, cn': nat, best: int, ghost ms': set<int>, ghost wit': seq<int>)
    requires WellFormed(g) && MatchInv(g, cmap, matched, ms, wit, cn)
    requires 0 <= u < g.n && !matched[u]
    ensures MatchInv(g, cmap', matched', ms', wit', cn') && cn' == cn + 1
    ensures HeaviestPick(g, matched[u := true], u, best)
    ensures best == -1 ==> cmap' == cmap[u := cn] && matched' == matched[u := true]
    ensures best != -1 ==> cmap' == cmap[u := cn][best := cn] && matched' == matched[u := true][best := true]
  {
    best := HeaviestFree(g, matched[u := true], u);
    if best != -1 {
      PairStep(g, cmap, matched, ms, wit, cn, u, best);
      matched' := matched[u := true][best := true];
      cmap' := cmap[u := cn][best := cn];
      ms' := ms + {u, best};
    } else {
      SoloStep(g, cmap, matched, ms, wit, cn, u);
      matched' := matched[u := true];
      cmap' := cmap[u := cn];
      ms' := ms + {u};
    }
    wit' := wit + [u];
    cn' := cn + 1;
  }

  /** The vertices matched before turn c, read off the ids: those whose id
      is below c. */
  function TakenAt(cmap: seq<int>, c: int): seq<bool>
  {
    seq(|cmap|, v requires 0 <= v < |cmap| => 0 <= cmap[v] < c)
  }

  /** Turn c of the matching loop happened at position k of the order: that
      vertex is the first of the order not matched before turn c, it takes
      id c, b is what the partner scan returned for it, and besides it
      exactly b carries id c. */
  ghost predicate Turn(g: Graph, order: seq<int>, cmap: seq<int>, c: int, k: int, b: int)
    requires WellFormed(g) && AllIn(order, g.n) && |cmap| == g.n
  {
    && 0 <= k < |order| && cmap[order[k]] == c
    && (forall j :: 0 <= j < k ==> 0 <= cmap[order[j]] < c)
    && HeaviestPick(g, TakenAt(cmap, c)[order[k] := true], order[k], b)
    && (forall v :: 0 <= v < g.n && v != order[k] ==> (cmap[v] == c <==> v == b))
  }

  /** The greedy record of the matching: id c was opened by turn c, at
      position turn[c] of the order, with partner mate[c] (-1 for none). */
  ghost predicate Greedy(g: Graph, order: seq<int>, cmap: seq<int>, cn: nat, turn: seq<int>, mate: seq<int>)
    requires WellFormed(g) && AllIn(order, g.n) && |cmap| == g.n
  {
    && |turn| == cn && |mate| == cn
    && (forall c :: 0 <= c < cn ==> Turn(g, order, cmap, c, turn[c], mate[c]))
  }

  /** An earlier turn is unaffected by giving unmatched vertices a later id. */
  lemma TurnKeep(g: Graph, order: seq<int>, cmap: seq<int>, cmap': seq<int>, cn: nat, c: int, k: int, b: int)
    requires WellFormed(g) && AllIn(order, g.n) && |cmap| == g.n && |cmap'| == g.n
    requires forall v :: 0 <= v < g.n ==> cmap'[v] == cmap[v] || (cmap[v] == -1 && cmap'[v] == cn)
    requires 0 <= c < cn && Turn(g, order, cmap, c, k, b)
    ensures Turn(g, order, cmap', c, k, b)
  {
    assert TakenAt(cmap', c) == TakenAt(cmap, c);
  }

  /** The round for position i extends the greedy record by one turn. */
  lemma GreedyStep(g: Graph, order: seq<int>, cmap: seq<int>, matched: seq<bool>, ms: set<int>, wit: seq<int>, cn: nat,
                   turn: seq<int>, mate: seq<int>, i: int, best: int, cmap': seq<int>)
    requires WellFormed(g) && AllIn(order, g.n) && MatchInv(g, cmap, matched, ms, wit, cn)
    requires Greedy(g, order, cmap, cn, turn, mate)
    requires 0 <= i < |order| && !matched[order[i]] && forall j :: 0 <= j < i ==> matched[order[j]]
    requires HeaviestPick(g, matched[order[i] := true], order[i], best)
    requires best == -1 ==> cmap' == cmap[order[i] := cn]
    requires best != -1 ==> cmap' == cmap[order[i] := cn][best := cn]
    ensures Greedy(g, order, cmap', cn + 1, turn + [i], mate + [best])
  {
    NewTurn(g, order, cmap, matched, cn, i, best, cmap');
    var turn', mate' := turn + [i], mate + [best];
    forall c | 0 <= c < cn + 1
      ensures Turn(g, order, cmap', c, turn'[c], mate'[c])
    {
      if c < cn {
        TurnKeep(g, order, cmap, cmap', cn, c, turn[c], mate[c]);
      }
    }
  }

  /** The round for position i is turn cn, and it only gives unmatched
      vertices the new id. */
  lemma NewTurn(g: Graph, order: seq<int>, cmap: seq<int>, matched: seq<bool>, cn: nat, i: int, best: int, cmap': seq<int>)
    requires WellFormed(g) && AllIn(order, g.n) && |cmap| == g.n && |matched| == g.n
    requires forall v :: 0 <= v < g.n ==> (matched[v] <==> cmap[v] != -1) && -1 <= cmap[v] < cn
    requires 0 <= i < |order| && !matched[order[i]] && forall j :: 0 <= j < i ==> matched[order[j]]
    requires HeaviestPick(g, matched[order[i] := true], order[i], best)
    requires best == -1 ==> cmap' == cmap[order[i] := cn]
    requires best != -1 ==> cmap' == cmap[order[i] := cn][best := cn]
    ensures |cmap'| == g.n && forall v :: 0 <= v < g.n ==> cmap'[v] == cmap[v] || (cmap[v] == -1 && cmap'[v] == cn)
    ensures Turn(g, order, cmap', cn, i, best)
  {
    var u := order[i];
    if best != -1 {
      var k :| 0 <= k < |g.adj[u]| && Free(g, matched[u := true], u, k) && g.adj[u][k].to == best;
      assert 0 <= best < g.n && best != u && !matched[best];
    }
    assert forall v :: 0 <= v < g.n ==> cmap'[v] == cmap[v] || (cmap[v] == -1 && cmap'[v] == cn);
    assert TakenAt(cmap', cn) == matched;
    assert forall j :: 0 <= j < i ==> cmap'[order[j]] == cmap[order[j]];
  }

  /** The matching loop: each vertex of the order still unmatched at its turn
      is paired with its heaviest free neighbour, if any, under a fresh id. */
  method Match(g: Graph, order: seq<int>) returns (cmap: seq<int>, cn: nat, ghost turn: seq<int>, ghost mate: seq<int>)
    requires WellFormed(g) && AllIn(order, g.n) && multiset(order) == multiset(AllVertices(g.n))
    ensures Matching(g, cmap, cn)
    ensures cn <= g.n <= 2 * cn
    ensures Greedy(g, order, cmap, cn, turn, mate)
  {
    var n := g.n;
    cmap := seq(n, _ => -1);
    var matched := seq(n, _ => false);
    ghost var ms: set<int> := {};
    ghost var wit: seq<int> := [];
    cn := 0;
    turn, mate := [], [];
    MatchStart(g);
    var i := 0;
    while i < |order|
      invariant 0 <= i <= |order| && MatchInv(g, cmap, matched, ms, wit, cn)
      invariant forall j :: 0 <= j < i ==> matched[order[j]]
      invariant Greedy(g, order, cmap, cn, turn, mate)
    {
      var u := order[i];
      if !matched[u] {
        ghost var cmap0, matched0, ms0, wit0, cn0 := cmap, matched, ms, wit, cn;
        var best;
        cmap, matched, cn, best, ms, wit := MatchVertex(g, cmap, matched, cn, u, ms, wit);
        GreedyStep(g, order, cmap0, matched0, ms0, wit0, cn0, turn, mate, i, best, cmap);
        turn, mate := turn + [i], mate + [best];
      }
      i := i + 1;
    }
    MatchDone(g, order, cmap, matched, ms, wit, cn);
  }

  /** Once every vertex of the order is matched, the loop state is a
      matching covering all vertices. */
  lemma MatchDone(g: Graph, order: seq<int>, cmap: seq<int>, matched: seq<bool>, ms: set<int>, wit: seq<int>, cn: nat)
    requires WellFormed(g) && AllIn(order, g.n) && multiset(order) == multiset(AllVertices(g.n))
    requires MatchInv(g, cmap, matched, ms, wit, cn)
    requires forall j :: 0 <= j < |order| ==> matched[order[j]]
    ensures Matching(g, cmap, cn)
    ensures cn <= g.n <= 2 * cn
  {
    var n := g.n;
    forall v | 0 <= v < n
      ensures matched[v]
    {
      assert v in multiset(order) by {
        assert v in AllVertices(n);
      }
      var j :| 0 <= j < |order| && order[j] == v;
    }
    assert ms == set v | v in AllVertices(n);
    RangeSize(n);
    forall c | 0 <= c < cn
      ensures Hit(cmap, c)
    {
      assert cmap[wit[c]] == c;
    }
  }

  // ---------------------------------------------------------------- coarse weights

  /** The value stored under y, 0 when there is none. */
  function Get(m: map<int, int>, y: int): int
  {
    if y in m then m[y] else 0
  }

  /** `adj_map[a][b] += w; adj_map[b][a] += w`. */
  function AddPair(M: seq<map<int, int>>, a: int, b: int, w: int): (M': seq<map<int, int>>)
    requires 0 <= a < |M| && 0 <= b < |M| && a != b
    ensures |M'| == |M|
    ensures forall x, y :: 0 <= x < |M| ==> Get(M'[x], y) == Get(M[x], y) + (if (x == a && y == b) || (x == b && y == a) then w else 0)
    ensures forall x, y :: 0 <= x < |M| ==> (y in M'[x] <==> y in M[x] || (x == a && y == b) || (x == b && y == a))
  {
    var M1 := M[a := M[a][b := Get(M[a], b) + w]];
    M1[b := M1[b][a := Get(M1[b], a) + w]]
  }

  /** Row x of the stored weights towards 0..m-1, counted only towards larger
      vertices with a different label. */
  ghost function RowUpper(M: seq<map<int, int>>, p: seq<int>, x: int, m: nat): int
    requires |M| == |p| && 0 <= x < |p| && m <= |p|
  {
    if m == 0 then 0 else RowUpper(M, p, x, m - 1) + (if x < m - 1 && p[x] != p[m - 1] then Get(M[x], m - 1) else 0)
  }

  /** The stored weights crossing the labelling p, each pair once. */
  ghost function UpperSum(M: seq<map<int, int>>, p: seq<int>, m: nat): int
    requires |M| == |p| && m <= |p|
  {
    if m == 0 then 0 else UpperSum(M, p, m - 1) + RowUpper(M, p, m - 1, |p|)
  }

  lemma {:induction false} RowUpperAddPair(M: seq<map<int, int>>, p: seq<int>, a: int, b: int, w: int, x: int, m: nat)
    requires |M| == |p| && 0 <= a < |p| && 0 <= b < |p| && a != b && 0 <= x < |p| && m <= |p|
    ensures RowUpper(AddPair(M, a, b, w), p, x, m) == RowUpper(M, p, x, m)
      + (if x == a && a < b && b < m && p[a] != p[b] then w else 0)
      + (if x == b && b < a && a < m && p[a] != p[b] then w else 0)
  {
    if m > 0 {
      RowUpperAddPair(M, p, a, b, w, x, m - 1);
    }
  }

  lemma {:induction false} UpperSumAddPair(M: seq<map<int, int>>, p: seq<int>, a: int, b: int, w: int, m: nat)
    requires |M| == |p| && 0 <= a < |p| && 0 <= b < |p| && a != b && m <= |p|
    ensures UpperSum(AddPair(M, a, b, w), p, m) == UpperSum(M, p, m)
      + (if a < b && a < m && p[a] != p[b] then w else 0)
      + (if b < a && b < m && p[a] != p[b] then w else 0)
  {
    if m > 0 {
      UpperSumAddPair(M, p, a, b, w, m - 1);
      RowUpperAddPair(M, p, a, b, w, m - 1, |p|);
    }
  }

  /** The fine labelling induced by a coarse labelling. */
  function Compose(p: seq<int>, cmap: seq<int>): (q: seq<int>)
    requires forall v :: 0 <= v < |cmap| ==> 0 <= cmap[v] < |p|
    ensures |q| == |cmap| && forall v :: 0 <= v < |cmap| ==> q[v] == p[cmap[v]]
  {
    seq(|cmap|, v requires 0 <= v < |cmap| => p[cmap[v]])
  }

  /** Stored weights name coarse vertices and are non-negative. */
  ghost predicate WeightsOk(M: seq<map<int, int>>)
  {
    forall x, y :: 0 <= x < |M| && y in M[x] ==> 0 <= y < |M| && M[x][y] >= 0
  }

  /** One entry (u, v, w) of the accumulation: with u < v and different
      coarse endpoints it adds w between them, otherwise nothing; either way
      the weights stored since M0 are u's row of every composed cut over
      the entries read. */
  method AddEntry(g: Graph, cmap: seq<int>, cn: nat, M0: seq<map<int, int>>, M: seq<map<int, int>>, u: int, i: int) returns (M': seq<map<int, int>>)
    requires WellFormed(g) && |cmap| == g.n && forall v :: 0 <= v < g.n ==> 0 <= cmap[v] < cn
    requires 0 <= u < g.n && 0 <= i < |g.adj[u]| && |M0| == cn && |M| == cn && WeightsOk(M)
    requires forall p: seq<int> :: |p| == cn ==>
      UpperSum(M, p, cn) == UpperSum(M0, p, cn) + CutRow(Compose(p, cmap), u, g.adj[u][..i])
    ensures |M'| == cn && WeightsOk(M')
    ensures forall p: seq<int> :: |p| == cn ==>
      UpperSum(M', p, cn) == UpperSum(M0, p, cn) + CutRow(Compose(p, cmap), u, g.adj[u][..i + 1])
  {
    M' := M;
    var cu := cmap[u];
    var e := g.adj[u][i];
    var v := e.to;
    assert g.adj[u][..i + 1] == g.adj[u][..i] + [e];
    if u < v {
      var cv := cmap[v];
      if cu != cv {
        forall p: seq<int> | |p| == cn
          ensures UpperSum(AddPair(M, cu, cv, e.w), p, cn)
               == UpperSum(M0, p, cn) + CutRow(Compose(p, cmap), u, g.adj[u][..i + 1])
        {
          UpperSumAddPair(M, p, cu, cv, e.w, cn);
          CutRowAppend(Compose(p, cmap), u, g.adj[u][..i], e);
        }
        M' := AddPair(M, cu, cv, e.w);
      } else {
        forall p: seq<int> | |p| == cn
          ensures UpperSum(M, p, cn) == UpperSum(M0, p, cn) + CutRow(Compose(p, cmap), u, g.adj[u][..i + 1])
        {
          CutRowAppend(Compose(p, cmap), u, g.adj[u][..i], e);
        }
      }
    } else {
      forall p: seq<int> | |p| == cn
        ensures UpperSum(M, p, cn) == UpperSum(M0, p, cn) + CutRow(Compose(p, cmap), u, g.adj[u][..i + 1])
      {
        CutRowAppend(Compose(p, cmap), u, g.adj[u][..i], e);
      }
    }
  }

  /** The accumulation over the fine lists: every entry (u, v, w) with u < v
      whose endpoints map to different coarse vertices adds w in both
      directions. The result crosses every coarse labelling p with the weight
      the fine graph crosses p composed with the map. */
  method CoarseWeights(g: Graph, cmap: seq<int>, cn: nat) returns (M: seq<map<int, int>>)
    requires WellFormed(g) && |cmap| == g.n && forall v :: 0 <= v < g.n ==> 0 <= cmap[v] < cn
    ensures |M| == cn && WeightsOk(M)
    ensures forall p: seq<int> :: |p| == cn ==> UpperSum(M, p, cn) == CutWeight(g, Compose(p, cmap))
  {
    M := seq(cn, _ => map[]);
    forall p: seq<int> | |p| == cn
      ensures UpperSum(M, p, cn) == 0
    {
      UpperSumEmpty(M, p, cn);
    }
    var u := 0;
    while u < g.n
      invariant 0 <= u <= g.n && |M| == cn && WeightsOk(M)
      invariant forall p: seq<int> :: |p| == cn ==> UpperSum(M, p, cn) == CutPrefix(g, Compose(p, cmap), u)
    {
      M := CoarseRow(g, cmap, cn, M, u);
      u := u + 1;
    }
  }

  /** The entries of u's list add u's row of every composed cut. */
  method CoarseRow(g: Graph, cmap: seq<int>, cn: nat, M0: seq<map<int, int>>, u: int) returns (M: seq<map<int, int>>)
    requires WellFormed(g) && |cmap| == g.n && forall v :: 0 <= v < g.n ==> 0 <= cmap[v] < cn
    requires |M0| == cn && WeightsOk(M0) && 0 <= u < g.n
    ensures |M| == cn && WeightsOk(M)
    ensures forall p: seq<int> :: |p| == cn ==> UpperSum(M, p, cn) == UpperSum(M0, p, cn) + CutRow(Compose(p, cmap), u, g.adj[u])
  {
    M := M0;
    var i := 0;
    while i < |g.adj[u]|
      invariant 0 <= i <= |g.adj[u]| && |M| == cn && WeightsOk(M)
      invariant forall p: seq<int> :: |p| == cn ==>
        UpperSum(M, p, cn) == UpperSum(M0, p, cn) + CutRow(Compose(p, cmap), u, g.adj[u][..i])
    {
      M := AddEntry(g, cmap, cn, M0, M, u, i);
      i := i + 1;
    }
    assert g.adj[u][..i] == g.adj[u];
  }

  lemma {:induction false} UpperSumEmpty(M: seq<map<int, int>>, p: seq<int>, m: nat)
    requires |M| == |p| && m <= |p| && forall x :: 0 <= x < |M| ==> M[x] == map[]
    ensures UpperSum(M, p, m) == 0
  {
    if m > 0 {
      UpperSumEmpty(M, p, m - 1);
      RowUpperEmpty(M, p, m - 1, |p|);
    }
  }

  lemma {:induction false} RowUpperEmpty(M: seq<map<int, int>>, p: seq<int>, x: int, m: nat)
    requires |M| == |p| && 0 <= x < |p| && m <= |p| && M[x] == map[]
    ensures RowUpper(M, p, x, m) == 0
  {
    if m > 0 {
      RowUpperEmpty(M, p, x, m - 1);
    }
  }

  /** One cell of the coarse graph's construction: the stored weight under
      (x, y) with x < y becomes an undirected edge, and the graph's cuts take
      in one more cell of row x. */
  method AddStored(M: seq<map<int, int>>, h: Graph, x: int, y: int) returns (h': Graph)
    requires WeightsOk(M) && 0 <= x < |M| && 0 <= y < |M|
    requires WellFormed(h) && Undirected(h) && h.n == |M|
    requires forall p: seq<int> :: |p| == |M| ==> CutWeight(h, p) == UpperSum(M, p, x) + RowUpper(M, p, x, y)
    ensures WellFormed(h') && Undirected(h') && h'.n == |M|
    ensures forall p: seq<int> :: |p| == |M| ==> CutWeight(h', p) == UpperSum(M, p, x) + RowUpper(M, p, x, y + 1)
  {
    h' := h;
    if x < y && y in M[x] {
      var r := AddUndirected(h, x, y, M[x][y]);
      forall p: seq<int> | |p| == |M|
        ensures CutWeight(r.value, p) == UpperSum(M, p, x) + RowUpper(M, p, x, y + 1)
      {
        CutAddEdge(h, x, y, M[x][y], p);
      }
      AddUndirectedWellFormed(h, x, y, M[x][y]);
      AddUndirectedUndirected(h, x, y, M[x][y]);
      h' := r.value;
    }
  }

  /** The coarse graph: for each coarse vertex x and each stored y > x (in
      ascending order), the undirected edge (x, y) with the stored weight. */
  method BuildCoarse(M: seq<map<int, int>>) returns (h: Graph)
    requires WeightsOk(M)
    ensures WellFormed(h) && Undirected(h) && h.n == |M|
    ensures forall p: seq<int> :: |p| == |M| ==> CutWeight(h, p) == UpperSum(M, p, |M|)
  {
    var cn := |M|;
    h := NewGraph(cn);
    forall p: seq<int> | |p| == cn
      ensures CutWeight(h, p) == 0
    {
      CutNoEdges(h, p);
    }
    var x := 0;
    while x < cn
      invariant 0 <= x <= cn && WellFormed(h) && Undirected(h) && h.n == cn
      invariant forall p: seq<int> :: |p| == cn ==> CutWeight(h, p) == UpperSum(M, p, x)
    {
      var y := 0;
      while y < cn
        invariant 0 <= y <= cn && WellFormed(h) && Undirected(h) && h.n == cn
        invariant forall p: seq<int> :: |p| == cn ==> CutWeight(h, p) == UpperSum(M, p, x) + RowUpper(M, p, x, y)
      {
        h := AddStored(M, h, x, y);
        y := y + 1;
      }
      x := x + 1;
    }
  }

  /** `coarsen_graph`: the matching map and the coarse graph. Every coarse
      labelling p cuts the coarse graph by exactly what p composed with the
      map cuts the fine graph. */
  method CoarsenGraph(g: Graph) returns (h: Graph, cmap: seq<int>, ghost order: seq<int>, ghost turn: seq<int>, ghost mate: seq<int>)
    requires WellFormed(g)
    ensures WellFormed(h) && Undirected(h)
    ensures Matching(g, cmap, h.n)
    ensures h.n <= g.n <= 2 * h.n
    ensures AllIn(order, g.n) && multiset(order) == multiset(AllVertices(g.n))
    ensures forall i, j :: 0 <= i < j < |order| ==> !Precedes(DegreeKey(g), order[j], order[i])
    ensures Greedy(g, order, cmap, h.n, turn, mate)
    ensures forall p: seq<int> :: |p| == h.n ==> CutWeight(h, p) == CutWeight(g, Compose(p, cmap))
  {
    var ord := DegreeOrder(g);
    order := ord;
    var cn;
    cmap, cn, turn, mate := Match(g, ord);
    var M := CoarseWeights(g, cmap, cn);
    h := BuildCoarse(M);
  }
}

=== FILE: cuts.dfy ===
/** `cut_weight_undirected` of GraphUtils.h, the objective every solver
    reports, and the facts about it that the solvers rely on. */
module Cuts {
  import opened Sums
  import opened Graphs

  /** Labels cover the vertex set; list entries point into it. */
  ghost predicate EntriesIn(es: seq<Edge>, n: int)
  {
    forall i :: 0 <= i < |es| ==> 0 <= es[i].to < n
  }

  /** The weight of u's entries that point at a larger vertex with a
      different label. */
  function CutRow(part: seq<int>, u: int, es: seq<Edge>): int
    requires 0 <= u < |part| && EntriesIn(es, |part|)
  {
    if es == [] then 0
    else (if u < es[0].to && part[u] != part[es[0].to] then es[0].w else 0) + CutRow(part, u, es[1..])
  }

  /** The cut contributed by the lists of vertices 0..m-1. */
  function CutPrefix(g: Graph, part: seq<int>, m: nat): int
    requires WellFormed(g) && |part| == g.n && m <= g.n
  {
    if m == 0 then 0 else CutPrefix(g, part, m - 1) + CutRow(part, m - 1, g.adj[m - 1])
  }

  /** `cut_weight_undirected`: every list entry (u, v, w) with u < v and
      part[u] != part[v] adds w; an undirected edge is seen once, from its
      smaller endpoint, and a self-loop never. */
  function CutWeight(g: Graph, part: seq<int>): int
    requires WellFormed(g) && |part| == g.n
  {
    CutPrefix(g, part, g.n)
  }

  /** The weight between x and y when their labels differ, else 0. */
  ghost function Crossing(g: Graph, part: seq<int>): (int, int) -> int
    requires WellFormed(g) && |part| == g.n
  {
    (x, y) => if 0 <= x < g.n && 0 <= y < g.n && part[x] != part[y] then EdgeWeight(g, x, y) else 0
  }

  // ---------------------------------------------------------------- basic facts

  lemma {:induction false} CutRowNonneg(part: seq<int>, u: int, es: seq<Edge>)
    requires 0 <= u < |part| && EntriesIn(es, |part|)
    requires forall i :: 0 <= i < |es| ==> es[i].w >= 0
    ensures CutRow(part, u, es) >= 0
  {
    if es != [] {
      CutRowNonneg(part, u, es[1..]);
    }
  }

  /** With non-negative weights the cut is non-negative. */
  lemma CutNonneg(g: Graph, part: seq<int>)
    requires WellFormed(g) && |part| == g.n
    ensures CutWeight(g, part) >= 0
  {
    CutPrefixNonneg(g, part, g.n);
  }

  lemma {:induction false} CutPrefixNonneg(g: Graph, part: seq<int>, m: nat)
    requires WellFormed(g) && |part| == g.n && m <= g.n
    ensures CutPrefix(g, part, m) >= 0
  {
    if m > 0 {
      CutPrefixNonneg(g, part, m - 1);
      CutRowNonneg(part, m - 1, g.adj[m - 1]);
    }
  }

  lemma {:induction false} CutRowSameCrossing(p: seq<int>, q: seq<int>, u: int, es: seq<Edge>)
    requires |p| == |q| && 0 <= u < |p| && EntriesIn(es, |p|)
    requires forall y :: 0 <= y < |p| ==> (p[u] == p[y] <==> q[u] == q[y])
    ensures CutRow(p, u, es) == CutRow(q, u, es)
  {
    if es != [] {
      CutRowSameCrossing(p, q, u, es[1..]);
    }
  }

  lemma {:induction false} CutPrefixSameCrossing(g: Graph, p: seq<int>, q: seq<int>, m: nat)
    requires WellFormed(g) && |p| == g.n && |q| == g.n && m <= g.n
    requires forall x, y :: 0 <= x < g.n && 0 <= y < g.n ==> (p[x] == p[y] <==> q[x] == q[y])
    ensures CutPrefix(g, p, m) == CutPrefix(g, q, m)
  {
    if m > 0 {
      CutPrefixSameCrossing(g, p, q, m - 1);
      CutRowSameCrossing(p, q, m - 1, g.adj[m - 1]);
    }
  }

  /** The cut depends only on which pairs of vertices share a label. */
  lemma CutSameCrossing(g: Graph, p: seq<int>, q: seq<int>)
    requires WellFormed(g) && |p| == g.n && |q| == g.n
    requires forall x, y :: 0 <= x < g.n && 0 <= y < g.n ==> (p[x] == p[y] <==> q[x] == q[y])
    ensures CutWeight(g, p) == CutWeight(g, q)
  {
    CutPrefixSameCrossing(g, p, q, g.n);
  }

  /** Renaming the labels injectively leaves the cut unchanged. */
  lemma CutRenameInvariant(g: Graph, p: seq<int>, rename: int -> int, q: seq<int>)
    requires WellFormed(g) && |p| == g.n && |q| == g.n
    requires forall a, b :: rename(a) == rename(b) ==> a == b
    requires forall x :: 0 <= x < g.n ==> q[x] == rename(p[x])
    ensures CutWeight(g, q) == CutWeight(g, p)
  {
    CutSameCrossing(g, p, q);
  }

  /** When every vertex carries the same label the cut is 0. */
  lemma CutUniform(g: Graph, p: seq<int>, lab: int)
    requires WellFormed(g) && |p| == g.n
    requires forall x :: 0 <= x < g.n ==> p[x] == lab
    ensures CutWeight(g, p) == 0
  {
    CutZeroPrefix(g, p, g.n);
  }

  lemma {:induction false} CutZeroPrefix(g: Graph, p: seq<int>, m: nat)
    requires WellFormed(g) && |p| == g.n && m <= g.n
    requires forall x, y :: 0 <= x < g.n && 0 <= y < g.n ==> p[x] == p[y]
    ensures CutPrefix(g, p, m) == 0
  {
    if m > 0 {
      CutZeroPrefix(g, p, m - 1);
      CutZeroRow(p, m - 1, g.adj[m - 1]);
    }
  }

  lemma {:induction false} CutZeroRow(p: seq<int>, u: int, es: seq<Edge>)
    requires 0 <= u < |p| && EntriesIn(es, |p|)
    requires forall y :: 0 <= y < |p| ==> p[u] == p[y]
    ensures CutRow(p, u, es) == 0
  {
    if es != [] {
      CutZeroRow(p, u, es[1..]);
    }
  }

  /** A graph without entries has cut 0 under every labelling. */
  lemma CutNoEdges(g: Graph, p: seq<int>)
    requires WellFormed(g) && |p| == g.n
    requires forall u :: 0 <= u < g.n ==> g.adj[u] == []
    ensures CutWeight(g, p) == 0
  {
    CutNoEdgesPrefix(g, p, g.n);
  }

  lemma {:induction false} CutNoEdgesPrefix(g: Graph, p: seq<int>, m: nat)
    requires WellFormed(g) && |p| == g.n && m <= g.n
    requires forall u :: 0 <= u < g.n ==> g.adj[u] == []
    ensures CutPrefix(g, p, m) == 0
  {
    if m > 0 {
      CutNoEdgesPrefix(g, p, m - 1);
    }
  }

  // ---------------------------------------------------------------- one more edge

  lemma {:induction false} CutRowAppend(part: seq<int>, u: int, es: seq<Edge>, e: Edge)
    requires 0 <= u < |part| && EntriesIn(es, |part|) && 0 <= e.to < |part|
    ensures EntriesIn(es + [e], |part|)
    ensures CutRow(part, u, es + [e]) == CutRow(part, u, es) + (if u < e.to && part[u] != part[e.to] then e.w else 0)
  {
    if es != [] {
      assert (es + [e])[1..] == es[1..] + [e];
      CutRowAppend(part, u, es[1..], e);
    }
  }

  /** Adding the edge (u, v, w) raises the cut by w exactly when u and v
      carry different labels: each undirected edge is counted once, and a
      self-loop (whose endpoints share a label) never. */
  lemma CutAddEdge(g: Graph, u: int, v: int, w: int, part: seq<int>)
    requires WellFormed(g) && |part| == g.n
    requires AddUndirected(g, u, v, w).Ok?
    ensures WellFormed(AddUndirected(g, u, v, w).value)
    ensures CutWeight(AddUndirected(g, u, v, w).value, part)
         == CutWeight(g, part) + (if part[u] != part[v] then w else 0)
  {
    AddUndirectedWellFormed(g, u, v, w);
    var g' := AddUndirected(g, u, v, w).value;
    CutAddEdgePrefix(g, g', u, v, w, part, g.n);
  }

  lemma {:induction false} CutAddEdgePrefix(g: Graph, g': Graph, u: int, v: int, w: int, part: seq<int>, m: nat)
    requires WellFormed(g) && |part| == g.n && m <= g.n
    requires AddUndirected(g, u, v, w).Ok? && g' == AddUndirected(g, u, v, w).value && WellFormed(g')
    ensures CutPrefix(g', part, m) == CutPrefix(g, part, m)
      + (if u < m && u < v && part[u] != part[v] then w else 0)
      + (if v < m && v < u && part[u] != part[v] then w else 0)
  {
    if m > 0 {
      CutAddEdgePrefix(g, g', u, v, w, part, m - 1);
      var x := m - 1;
      if x == u && u != v {
        CutRowAppend(part, u, g.adj[u], Edge(v, w));
      } else if x == v && u != v {
        CutRowAppend(part, v, g.adj[v], Edge(u, w));
      } else if x == u {
        CutRowAppend(part, u, g.adj[u], Edge(u, w));
        CutRowAppend(part, u, g.adj[u] + [Edge(u, w)], Edge(u, w));
        assert g'.adj[u] == g.adj[u] + [Edge(u, w)] + [Edge(u, w)];
      }
    }
  }

  // ---------------------------------------------------------------- pair form

  lemma {:induction false} CutRowWeighted(part: seq<int>, u: int, es: seq<Edge>, c: int -> int)
    requires 0 <= u < |part| && EntriesIn(es, |part|)
    requires forall v :: c(v) == if 0 <= v < |part| && u < v && part[u] != part[v] then 1 else 0
    ensures CutRow(part, u, es) == WeightedListSum(es, c)
  {
    if es != [] {
      CutRowWeighted(part, u, es[1..], c);
    }
  }

  /** Twice the cut is the sum of the crossing weights over all ordered
      pairs of vertices: the cut seen as a function of the pairwise weights. */
  lemma CutAsPairs(g: Graph, part: seq<int>)
    requires WellFormed(g) && |part| == g.n
    ensures 2 * CutWeight(g, part) == DSum(g.n, g.n, Crossing(g, part))
  {
    var h := Crossing(g, part);
    var upper := (x, y) => if x < y then h(x, y) else 0;
    CutPrefixUpper(g, part, upper, g.n);
    DSumTriangle(g.n, h, upper);
  }

  /** The weight from x to y when x is labelled 0 and y is labelled 1:
      what the entries of x's list carry from side 0 to side 1. */
  ghost function OneWay(g: Graph, part: seq<int>): (int, int) -> int
    requires WellFormed(g) && |part| == g.n
  {
    (x, y) => if 0 <= x < g.n && 0 <= y < g.n && part[x] == 0 && part[y] == 1 then Wt(g, x, y) else 0
  }

  /** For a two-sided labelling of an undirected graph the cut is the weight
      the lists of side 0 carry to side 1. */
  lemma CutOneWay(g: Graph, part: seq<int>)
    requires WellFormed(g) && |part| == g.n && Undirected(g)
    requires forall x :: 0 <= x < g.n ==> part[x] == 0 || part[x] == 1
    ensures CutWeight(g, part) == DSum(g.n, g.n, OneWay(g, part))
  {
    var h := OneWay(g, part);
    var k := (x, y) => h(y, x);
    CutAsPairs(g, part);
    forall x, y | 0 <= x < g.n && 0 <= y < g.n
      ensures Crossing(g, part)(x, y) == h(x, y) + k(x, y)
    {
      if part[x] != part[y] {
        assert x != y && Wt(g, x, y) == Wt(g, y, x);
      }
    }
    DSumAdd(g.n, g.n, h, k, Crossing(g, part));
    DSumTranspose(g.n, g.n, h, k);
  }

  /** Row u of the cut, as a sum over the other endpoint. */
  lemma CutRowUpper(g: Graph, part: seq<int>, upper: (int, int) -> int, u: int)
    requires WellFormed(g) && |part| == g.n && 0 <= u < g.n
    requires forall x, y :: upper(x, y) == if x < y then Crossing(g, part)(x, y) else 0
    ensures CutRow(part, u, g.adj[u]) == Row(g.n, upper, u)
  {
    var c := (v: int) => if 0 <= v < |part| && u < v && part[u] != part[v] then 1 else 0;
    var f := (v: int) => ListWeight(g.adj[u], v) * c(v);
    assert EntriesIn(g.adj[u], |part|);
    CutRowWeighted(part, u, g.adj[u], c);
    Regroup(g.adj[u], g.n, c, f);
    forall v | 0 <= v < g.n
      ensures f(v) == upper(u, v)
    {
      if u < v && part[u] != part[v] {
        assert Crossing(g, part)(u, v) == Wt(g, u, v);
      } else {
        assert c(v) == 0;
      }
    }
    RowSum(g.n, upper, u, f);
  }

  lemma {:induction false} CutPrefixUpper(g: Graph, part: seq<int>, upper: (int, int) -> int, m: nat)
    requires WellFormed(g) && |part| == g.n && m <= g.n
    requires forall x, y :: upper(x, y) == if x < y then Crossing(g, part)(x, y) else 0
    ensures CutPrefix(g, part, m) == DSum(m, g.n, upper)
  {
    if m > 0 {
      CutPrefixUpper(g, part, upper, m - 1);
      CutRowUpper(g, part, upper, m - 1);
      assert DSum(m, g.n, upper) == DSum(m - 1, g.n, upper) + Row(g.n, upper, m - 1);
    }
  }
}

=== FILE: globalmincut.dfy ===
/** `GlobalMinCutSolver::solve`: the Stoer-Wagner algorithm on the dense
    weight matrix. Each phase orders the active vertices by maximum
    adjacency, records the weight between the last vertex's cluster and the
    rest, and merges the last vertex into the one before it. */
module GlobalMinCut {
  import opened Sums
  import opened Graphs
  import opened Cuts
  import opened Ordering

  /** An n-by-n matrix. */
  ghost predicate Square(W: seq<seq<int>>, n: nat)
  {
    |W| == n && forall r :: 0 <= r < n ==> |W[r]| == n
  }

  // ---------------------------------------------------------------- the matrix

  /** What the matrix holds for a < b after the lists of vertices before u
      and the first i entries of u's list have been read. */
  ghost function Partial(g: Graph, u: int, i: int, a: int, b: int): int
    requires WellFormed(g) && 0 <= u < g.n && 0 <= i <= |g.adj[u]| && 0 <= a < g.n
  {
    if a < u then Wt(g, a, b) else if a == u then ListWeight(g.adj[u][..i], b) else 0
  }

  /** The symmetric reading of Partial, 0 on the diagonal. */
  ghost function PartialAt(g: Graph, u: int, i: int, x: int, y: int): int
    requires WellFormed(g) && 0 <= u < g.n && 0 <= i <= |g.adj[u]| && 0 <= x < g.n && 0 <= y < g.n
  {
    if x < y then Partial(g, u, i, x, y) else if y < x then Partial(g, u, i, y, x) else 0
  }

  /** The dense matrix: every list entry (u, v, w) with u < v adds w at
      (u, v) and at (v, u). The result is the weight of the undirected edge
      between x and y as the cut reads it. */
  method BuildMatrix(g: Graph) returns (W: seq<seq<int>>)
    requires WellFormed(g)
    ensures Square(W, g.n)
    ensures forall x, y :: 0 <= x < g.n && 0 <= y < g.n ==> W[x][y] == EdgeWeight(g, x, y)
  {
    var n := g.n;
    W := seq(n, _ => seq(n, _ => 0));
    var u := 0;
    while u < n
      invariant 0 <= u <= n && Square(W, n)
      invariant forall x, y :: 0 <= x < n && 0 <= y < n ==> W[x][y] == (if x < y && x < u then Wt(g, x, y) else if y < x && y < u then Wt(g, y, x) else 0)
    {
      var i := 0;
      while i < |g.adj[u]|
        invariant 0 <= i <= |g.adj[u]| && Square(W, n)
        invariant forall x, y :: 0 <= x < n && 0 <= y < n ==> W[x][y] == PartialAt(g, u, i, x, y)
      {
        var e := g.adj[u][i];
        var v := e.to;
        assert g.adj[u][..i + 1] == g.adj[u][..i] + [e];
        forall b
          ensures ListWeight(g.adj[u][..i + 1], b) == ListWeight(g.adj[u][..i], b) + (if v == b then e.w else 0)
        {
          ListWeightAppend(g.adj[u][..i], e, b);
        }
        if u < v {
          W := W[u := W[u][v := W[u][v] + e.w]];
          W := W[v := W[v][u := W[v][u] + e.w]];
        }
        i := i + 1;
      }
      assert g.adj[u][..i] == g.adj[u];
      u := u + 1;
    }
  }

  // ---------------------------------------------------------------- one phase

  /** The number of true entries. */
  function CountTrue(a: seq<bool>): (c: nat)
    ensures c <= |a|
  {
    if a == [] then 0 else CountTrue(a[..|a| - 1]) + (if a[|a| - 1] then 1 else 0)
  }

  lemma {:induction false} CountTrueFull(a: seq<bool>)
    ensures CountTrue(a) == |a| <==> forall i :: 0 <= i < |a| ==> a[i]
  {
    if a != [] {
      CountTrueFull(a[..|a| - 1]);
      if CountTrue(a) == |a| {
        assert a[|a| - 1];
        assert CountTrue(a[..|a| - 1]) == |a| - 1;
        forall i | 0 <= i < |a|
          ensures a[i]
        {
          if i < |a| - 1 {
            assert a[..|a| - 1][i] == a[i];
          }
        }
      }
    }
  }

  lemma {:induction false} CountTrueSet(a: seq<bool>, s: int)
    requires 0 <= s < |a| && !a[s]
    ensures CountTrue(a[s := true]) == CountTrue(a) + 1
  {
    var b := a[s := true];
    if s < |a| - 1 {
      assert b[..|b| - 1] == a[..|a| - 1][s := true];
      CountTrueSet(a[..|a| - 1], s);
    } else {
      assert b[..|b| - 1] == a[..|a| - 1];
    }
  }

  /** The selection scan: the first not-yet-added index of largest dist. */
  method SelectMax(dist: seq<int>, added: seq<bool>) returns (sel: int)
    requires |dist| == |added| && exists i :: 0 <= i < |added| && !added[i]
    ensures 0 <= sel < |added| && !added[sel]
    ensures forall i :: 0 <= i < |added| && !added[i] ==> dist[i] <= dist[sel]
    ensures forall i :: 0 <= i < sel && !added[i] ==> dist[i] < dist[sel]
  {
    sel := -1;
    var i := 0;
    while i < |added|
      invariant 0 <= i <= |added| && -1 <= sel < i
      invariant sel == -1 <==> forall j :: 0 <= j < i ==> added[j]
      invariant sel != -1 ==> !added[sel]
      invariant sel != -1 ==> forall j :: 0 <= j < i && !added[j] ==> dist[j] <= dist[sel]
      invariant sel != -1 ==> forall j :: 0 <= j < sel && !added[j] ==> dist[j] < dist[sel]
    {
      if !added[i] {
        if sel == -1 || dist[i] > dist[sel] {
          sel := i;
        }
      }
      i := i + 1;
    }
  }

  /** The weight from the added active vertices among the first m to active
      vertex i. */
  ghost function Into(W: seq<seq<int>>, vtx: seq<int>, added: seq<bool>, i: int, m: nat): int
    requires Square(W, |W|) && AllIn(vtx, |W|) && |added| == |vtx| && 0 <= i < |vtx| && m <= |vtx|
  {
    if m == 0 then 0 else Into(W, vtx, added, i, m - 1) + (if added[m - 1] then W[vtx[m - 1]][vtx[i]] else 0)
  }

  /** The weight from every other active vertex among the first m to active
      vertex t. */
  ghost function Others(W: seq<seq<int>>, vtx: seq<int>, t: int, m: nat): int
    requires Square(W, |W|) && AllIn(vtx, |W|) && 0 <= t < |vtx| && m <= |vtx|
  {
    if m == 0 then 0 else Others(W, vtx, t, m - 1) + (if m - 1 != t then W[vtx[m - 1]][vtx[t]] else 0)
  }

  lemma {:induction false} IntoNone(W: seq<seq<int>>, vtx: seq<int>, added: seq<bool>, i: int, m: nat)
    requires Square(W, |W|) && AllIn(vtx, |W|) && |added| == |vtx| && 0 <= i < |vtx| && m <= |vtx|
    requires forall j :: 0 <= j < |vtx| ==> !added[j]
    ensures Into(W, vtx, added, i, m) == 0
  {
    if m > 0 {
      IntoNone(W, vtx, added, i, m - 1);
    }
  }

  lemma {:induction false} IntoStep(W: seq<seq<int>>, vtx: seq<int>, added: seq<bool>, sel: int, i: int, m: nat)
    requires Square(W, |W|) && AllIn(vtx, |W|) && |added| == |vtx| && 0 <= i < |vtx| && m <= |vtx|
    requires 0 <= sel < |vtx| && !added[sel]
    ensures Into(W, vtx, added[sel := true], i, m) == Into(W, vtx, added, i, m) + (if sel < m then W[vtx[sel]][vtx[i]] else 0)
  {
    if m > 0 {
      IntoStep(W, vtx, added, sel, i, m - 1);
    }
  }

  lemma {:induction false} IntoAll(W: seq<seq<int>>, vtx: seq<int>, added: seq<bool>, t: int, m: nat)
    requires Square(W, |W|) && AllIn(vtx, |W|) && |added| == |vtx| && 0 <= t < |vtx| && m <= |vtx|
    requires forall j :: 0 <= j < |vtx| ==> (added[j] <==> j != t)
    ensures Into(W, vtx, added, t, m) == Others(W, vtx, t, m)
  {
    if m > 0 {
      IntoAll(W, vtx, added, t, m - 1);
    }
  }

  /** The update after a selection: every active vertex not yet added gains
      its weight to the selected one. */
  method Relax(W: seq<seq<int>>, vtx: seq<int>, dist: seq<int>, added: seq<bool>, sel: int) returns (dist': seq<int>)
    requires Square(W, |W|) && AllIn(vtx, |W|) && |dist| == |vtx| && |added| == |vtx| && 0 <= sel < |vtx|
    ensures |dist'| == |dist|
    ensures forall i :: 0 <= i < |vtx| ==> dist'[i] == if added[i] then dist[i] else dist[i] + W[vtx[sel]][vtx[i]]
  {
    dist' := dist;
    var i := 0;
    while i < |vtx|
      invariant 0 <= i <= |vtx| && |dist'| == |dist|
      invariant forall j :: 0 <= j < |vtx| ==> dist'[j] == if j >= i || added[j] then dist[j] else dist[j] + W[vtx[sel]][vtx[j]]
    {
      if !added[i] {
        dist' := dist'[i := dist'[i] + W[vtx[sel]][vtx[i]]];
      }
      i := i + 1;
    }
  }

  /** The positions added within the first k steps of the order ord, as a
      flag per active vertex. */
  function AddedBy(ord: seq<int>, k: nat, m: nat): seq<bool>
    requires k <= |ord|
  {
    seq(m, i => i in ord[..k])
  }

  /** sel is the selection scan's pick once the flagged vertices are added:
      the first vertex not yet added among those of largest weight into the
      added ones. */
  ghost predicate Picks(W: seq<seq<int>>, vtx: seq<int>, added: seq<bool>, sel: int)
    requires Square(W, |W|) && AllIn(vtx, |W|) && |added| == |vtx|
  {
    && 0 <= sel < |vtx| && !added[sel]
    && (forall i :: 0 <= i < |vtx| && !added[i] ==> Into(W, vtx, added, i, |vtx|) <= Into(W, vtx, added, sel, |vtx|))
    && (forall i :: 0 <= i < sel && !added[i] ==> Into(W, vtx, added, i, |vtx|) < Into(W, vtx, added, sel, |vtx|))
  }

  /** ord is how a phase adds vertices, as far as it has got: no position
      twice, each one the selection scan's pick given those before it. */
  ghost predicate AdjacencyPrefix(W: seq<seq<int>>, vtx: seq<int>, ord: seq<int>)
    requires Square(W, |W|) && AllIn(vtx, |W|)
  {
    && |ord| <= |vtx|
    && (forall a, b :: 0 <= a < b < |ord| ==> ord[a] != ord[b])
    && (forall k :: 0 <= k < |ord| ==> Picks(W, vtx, AddedBy(ord, k, |vtx|), ord[k]))
  }

  /** A complete maximum-adjacency order: every active position once, in
      the order the phase adds them. */
  ghost predicate MaxAdjacency(W: seq<seq<int>>, vtx: seq<int>, ord: seq<int>)
    requires Square(W, |W|) && AllIn(vtx, |W|)
  {
    |ord| == |vtx| && AdjacencyPrefix(W, vtx, ord)
  }

  /** The scan over dist picks by Into when dist holds Into for every vertex
      not yet added. */
  lemma ScanPicks(W: seq<seq<int>>, vtx: seq<int>, dist: seq<int>, added: seq<bool>, sel: int)
    requires Square(W, |W|) && AllIn(vtx, |W|) && |dist| == |vtx| && |added| == |vtx|
    requires forall i :: 0 <= i < |vtx| && !added[i] ==> dist[i] == Into(W, vtx, added, i, |vtx|)
    requires 0 <= sel < |added| && !added[sel]
    requires forall i :: 0 <= i < |added| && !added[i] ==> dist[i] <= dist[sel]
    requires forall i :: 0 <= i < sel && !added[i] ==> dist[i] < dist[sel]
    ensures Picks(W, vtx, added, sel)
  {
  }

  /** Appending the next pick extends the order. */
  lemma PrefixStep(W: seq<seq<int>>, vtx: seq<int>, ord: seq<int>, sel: int)
    requires Square(W, |W|) && AllIn(vtx, |W|) && AdjacencyPrefix(W, vtx, ord) && |ord| < |vtx|
    requires Picks(W, vtx, AddedBy(ord, |ord|, |vtx|), sel)
    ensures AdjacencyPrefix(W, vtx, ord + [sel])
    ensures AddedBy(ord + [sel], |ord| + 1, |vtx|) == AddedBy(ord, |ord|, |vtx|)[sel := true]
  {
    var ord' := ord + [sel];
    forall k | 0 <= k <= |ord|
      ensures AddedBy(ord', k, |vtx|) == AddedBy(ord, k, |vtx|)
    {
      assert ord'[..k] == ord[..k];
    }
    assert ord[..|ord|] == ord && ord'[..|ord'|] == ord';
    assert sel !in ord;
  }

  /** The state of a phase after `|ord|` selections: the added flags are
      those of ord, and dist holds Into for every vertex not yet added. */
  ghost predicate PhaseState(W: seq<seq<int>>, vtx: seq<int>, dist: seq<int>, added: seq<bool>, ord: seq<int>)
    requires Square(W, |W|) && AllIn(vtx, |W|)
  {
    && |dist| == |vtx| && |added| == |vtx|
    && CountTrue(added) == |ord|
    && AdjacencyPrefix(W, vtx, ord) && added == AddedBy(ord, |ord|, |vtx|)
    && (forall i :: 0 <= i < |vtx| && !added[i] ==> dist[i] == Into(W, vtx, added, i, |vtx|))
  }

  /** One selection of a phase: add the pick sel and relax the others. The
      last selection leaves in dist[sel] the weight between sel and all the
      other vertices. */
  method PhaseStep(W: seq<seq<int>>, vtx: seq<int>, dist: seq<int>, added: seq<bool>, ghost ord: seq<int>)
    returns (dist': seq<int>, added': seq<bool>, sel: int, ghost ord': seq<int>)
    requires Square(W, |W|) && AllIn(vtx, |W|) && PhaseState(W, vtx, dist, added, ord) && |ord| < |vtx|
    ensures PhaseState(W, vtx, dist', added', ord') && ord' == ord + [sel] && 0 <= sel < |vtx|
    ensures |ord'| == |vtx| ==> dist'[sel] == Others(W, vtx, sel, |vtx|)
  {
    var m := |vtx|;
    CountTrueFull(added);
    sel := SelectMax(dist, added);
    ScanPicks(W, vtx, dist, added, sel);
    PrefixStep(W, vtx, ord, sel);
    ord' := ord + [sel];
    added' := added[sel := true];
    CountTrueSet(added, sel);
    if |ord'| == m {
      CountTrueFull(added');
      forall j | 0 <= j < m
        ensures added[j] <==> j != sel
      {
        assert added'[j];
      }
      IntoAll(W, vtx, added, sel, m);
    }
    dist' := Relax(W, vtx, dist, added', sel);
    forall i | 0 <= i < m && !added'[i]
      ensures dist'[i] == Into(W, vtx, added', i, m)
    {
      IntoStep(W, vtx, added, sel, i, m);
    }
  }

  /** One maximum-adjacency phase over the active vertices vtx. Returns the
      positions s and t of the last two vertices of the maximum-adjacency
      order ord and the weight between the last one and all the others. */
  method Phase(W: seq<seq<int>>, vtx: seq<int>) returns (s: int, t: int, cut: int, ghost ord: seq<int>)
    requires Square(W, |W|) && AllIn(vtx, |W|) && |vtx| >= 2
    ensures MaxAdjacency(W, vtx, ord)
    ensures s == ord[|vtx| - 2] && t == ord[|vtx| - 1]
    ensures 0 <= s < |vtx| && 0 <= t < |vtx| && s != t
    ensures cut == Others(W, vtx, t, |vtx|)
  {
    var m := |vtx|;
    var dist := seq(m, _ => 0);
    var added := seq(m, _ => false);
    var prev, last := -1, -1;
    var it := 0;
    ord := [];
    PhaseStart(W, vtx);
    while it < m
      invariant 0 <= it <= m && |ord| == it && PhaseState(W, vtx, dist, added, ord)
      invariant it >= 1 ==> last == ord[it - 1]
      invariant it >= 2 ==> prev == ord[it - 2]
      invariant it == m ==> dist[last] == Others(W, vtx, last, m)
    {
      var sel;
      dist, added, sel, ord := PhaseStep(W, vtx, dist, added, ord);
      prev, last := last, sel;
      it := it + 1;
    }
    assert Picks(W, vtx, AddedBy(ord, m - 2, m), ord[m - 2]) && Picks(W, vtx, AddedBy(ord, m - 1, m), ord[m - 1]);
    s, t, cut := prev, last, dist[last];
  }

  /** Before the first selection nothing is added and every weight into
      the added vertices is 0. */
  lemma PhaseStart(W: seq<seq<int>>, vtx: seq<int>)
    requires Square(W, |W|) && AllIn(vtx, |W|)
    ensures PhaseState(W, vtx, seq(|vtx|, _ => 0), seq(|vtx|, _ => false), [])
  {
    var m := |vtx|;
    var dist, added := seq(m, _ => 0), seq(m, _ => false);
    forall i | 0 <= i < m
      ensures dist[i] == Into(W, vtx, added, i, m)
    {
      IntoNone(W, vtx, added, i, m);
    }
    CountTrueZero(m);
    assert added == AddedBy([], 0, m);
  }

  lemma {:induction false} CountTrueZero(m: nat)
    ensures CountTrue(seq(m, _ => false)) == 0
  {
    if m > 0 {
      assert seq(m, _ => false)[..m - 1] == seq(m - 1, _ => false);
      CountTrueZero(m - 1);
    }
  }

  // ---------------------------------------------------------------- clusters

  /** Pairs (x, y) with x owned by a and y owned by b, weighted as the cut
      weighs them. */
  ghost function BetweenF(g: Graph, own: seq<int>, a: int, b: int): (int, int) -> int
    requires WellFormed(g) && |own| == g.n
  {
    (x, y) => if 0 <= x < g.n && 0 <= y < g.n && own[x] == a && own[y] == b then EdgeWeight(g, x, y) else 0
  }

  /** The weight between the clusters of a and b. */
  ghost function Between(g: Graph, own: seq<int>, a: int, b: int): int
    requires WellFormed(g) && |own| == g.n
  {
    DSum(g.n, g.n, BetweenF(g, own, a, b))
  }

  /** own after the cluster of vt is merged into that of vs. */
  function Absorb(own: seq<int>, vs: int, vt: int): (own': seq<int>)
    ensures |own'| == |own|
    ensures forall x :: 0 <= x < |own| ==> own'[x] == if own[x] == vt then vs else own[x]
  {
    seq(|own|, x requires 0 <= x < |own| => if own[x] == vt then vs else own[x])
  }

  lemma BetweenAbsorbOther(g: Graph, own: seq<int>, vs: int, vt: int, a: int, b: int)
    requires WellFormed(g) && |own| == g.n && a != vs && a != vt && b != vs && b != vt
    ensures Between(g, Absorb(own, vs, vt), a, b) == Between(g, own, a, b)
  {
    DSumExt(g.n, g.n, BetweenF(g, Absorb(own, vs, vt), a, b), BetweenF(g, own, a, b));
  }

  lemma BetweenAbsorbLeft(g: Graph, own: seq<int>, vs: int, vt: int, b: int)
    requires WellFormed(g) && |own| == g.n && vs != vt && b != vs && b != vt
    ensures Between(g, Absorb(own, vs, vt), vs, b) == Between(g, own, vs, b) + Between(g, own, vt, b)
  {
    DSumAdd(g.n, g.n, BetweenF(g, own, vs, b), BetweenF(g, own, vt, b), BetweenF(g, Absorb(own, vs, vt), vs, b));
  }

  lemma BetweenAbsorbRight(g: Graph, own: seq<int>, vs: int, vt: int, a: int)
    requires WellFormed(g) && |own| == g.n && vs != vt && a != vs && a != vt
    ensures Between(g, Absorb(own, vs, vt), a, vs) == Between(g, own, a, vs) + Between(g, own, a, vt)
  {
    DSumAdd(g.n, g.n, BetweenF(g, own, a, vs), BetweenF(g, own, a, vt), BetweenF(g, Absorb(own, vs, vt), a, vs));
  }

  /** The cluster listed for a is exactly what a owns. */
  ghost predicate Owns(n: nat, clusters: seq<seq<int>>, own: seq<int>, a: int)
    requires |own| == n && |clusters| == n && 0 <= a < n
  {
    forall x :: x in clusters[a] <==> 0 <= x < n && own[x] == a
  }

  /** The loop state: vtx lists the active vertices, each vertex is owned by
      one of them, each active vertex owns itself, its cluster lists exactly
      what it owns, and the matrix holds the weight between any two active
      clusters. */
  ghost predicate State(g: Graph, W: seq<seq<int>>, vtx: seq<int>, clusters: seq<seq<int>>, own: seq<int>)
    requires WellFormed(g)
  {
    && Square(W, g.n) && AllIn(vtx, g.n) && Distinct(vtx) && |vtx| >= 1
    && |own| == g.n && |clusters| == g.n
    && (forall x :: 0 <= x < g.n ==> own[x] in vtx)
    && (forall i :: 0 <= i < |vtx| ==> own[vtx[i]] == vtx[i])
    && (forall i :: 0 <= i < |vtx| ==> Owns(g.n, clusters, own, vtx[i]))
    && (forall i, j :: 0 <= i < |vtx| && 0 <= j < |vtx| && i != j ==> W[vtx[i]][vtx[j]] == Between(g, own, vtx[i], vtx[j]))
  }

  /** Singleton clusters: the weight between {a} and {b} is the edge weight. */
  lemma BetweenSingletons(g: Graph, a: int, b: int)
    requires WellFormed(g) && 0 <= a < g.n && 0 <= b < g.n
    ensures Between(g, AllVertices(g.n), a, b) == EdgeWeight(g, a, b)
  {
    var n := g.n;
    var id := AllVertices(n);
    var h := BetweenF(g, id, a, b);
    assert forall x :: 0 <= x < n ==> id[x] == x;
    DSumRowPoint(n, n, a, h);
    RowPoint(n, h, a, b);
  }

  lemma InitialState(g: Graph, W: seq<seq<int>>)
    requires WellFormed(g) && g.n >= 1 && Square(W, g.n)
    requires forall x, y :: 0 <= x < g.n && 0 <= y < g.n ==> W[x][y] == EdgeWeight(g, x, y)
    ensures State(g, W, AllVertices(g.n), seq(g.n, i => [i]), AllVertices(g.n))
  {
    var id := AllVertices(g.n);
    assert forall x :: 0 <= x < g.n ==> id[x] == x;
    forall i, j | 0 <= i < g.n && 0 <= j < g.n && i != j
      ensures W[id[i]][id[j]] == Between(g, id, id[i], id[j])
    {
      BetweenSingletons(g, i, j);
    }
  }

  // ---------------------------------------------------------------- merging

  /** Cell (a, b) after the merge of vt into vs has run over the vertices
      of S. */
  ghost function MergedAt(W: seq<seq<int>>, S: seq<int>, vs: int, vt: int, a: int, b: int): int
    requires Square(W, |W|) && 0 <= vs < |W| && 0 <= vt < |W| && 0 <= a < |W| && 0 <= b < |W|
  {
    if a == vs && b != vs && b != vt && b in S then W[vs][b] + W[vt][b]
    else if b == vs && a != vs && a != vt && a in S then W[a][vs] + W[a][vt]
    else W[a][b]
  }

  /** The matrix after the merge of vt into vs: row and column vs gain row and
      column vt at every other active vertex; nothing else changes. */
  ghost predicate Merged(W: seq<seq<int>>, W': seq<seq<int>>, vtx: seq<int>, vs: int, vt: int)
    requires Square(W, |W|) && Square(W', |W|) && 0 <= vs < |W| && 0 <= vt < |W|
  {
    forall a, b :: 0 <= a < |W| && 0 <= b < |W| ==> W'[a][b] == MergedAt(W, vtx, vs, vt, a, b)
  }

  /** The merge loop over the active vertices other than vs and vt. */
  method MergeRows(W: seq<seq<int>>, vtx: seq<int>, vs: int, vt: int) returns (W': seq<seq<int>>)
    requires Square(W, |W|) && AllIn(vtx, |W|) && Distinct(vtx) && 0 <= vs < |W| && 0 <= vt < |W| && vs != vt
    ensures Square(W', |W|) && Merged(W, W', vtx, vs, vt)
  {
    W' := W;
    var i := 0;
    while i < |vtx|
      invariant 0 <= i <= |vtx| && Square(W', |W|)
      invariant forall a, b :: 0 <= a < |W| && 0 <= b < |W| ==> W'[a][b] == MergedAt(W, vtx[..i], vs, vt, a, b)
    {
      var vi := vtx[i];
      assert vtx[..i + 1] == vtx[..i] + [vi];
      assert vi !in vtx[..i];
      if vi != vs && vi != vt {
        var W1 := W'[vs := W'[vs][vi := W'[vs][vi] + W'[vt][vi]]];
        var W2 := W1[vi := W1[vi][vs := W1[vi][vs] + W1[vi][vt]]];
        forall a, b | 0 <= a < |W| && 0 <= b < |W|
          ensures W2[a][b] == MergedAt(W, vtx[..i + 1], vs, vt, a, b)
        {
          if a == vs && b == vi {
          } else if a == vi && b == vs {
          } else {
            assert W2[a][b] == W'[a][b];
          }
        }
        W' := W2;
      }
      i := i + 1;
    }
    assert vtx[..i] == vtx;
  }

  lemma RemoveFacts(vtx: seq<int>, t: int, n: nat)
    requires AllIn(vtx, n) && Distinct(vtx) && 0 <= t < |vtx|
    ensures AllIn(vtx[..t] + vtx[t + 1..], n) && Distinct(vtx[..t] + vtx[t + 1..])
    ensures forall y :: y in vtx[..t] + vtx[t + 1..] <==> y in vtx && y != vtx[t]
  {
    var r := vtx[..t] + vtx[t + 1..];
    forall i | 0 <= i < |r|
      ensures r[i] == if i < t then vtx[i] else vtx[i + 1]
    {
    }
    forall y | y in vtx && y != vtx[t]
      ensures y in r
    {
      var j :| 0 <= j < |vtx| && vtx[j] == y;
      if j < t {
        assert r[j] == y;
      } else {
        assert r[j - 1] == y;
      }
    }
  }

  /** Merging the last vertex t of a phase into the one before it, s, keeps
      the loop state. */
  lemma MergeKeeps(g: Graph, W: seq<seq<int>>, W': seq<seq<int>>, vtx: seq<int>, clusters: seq<seq<int>>, own: seq<int>, s: int, t: int)
    requires WellFormed(g) && State(g, W, vtx, clusters, own)
    requires 0 <= s < |vtx| && 0 <= t < |vtx| && s != t
    requires Square(W', g.n) && Merged(W, W', vtx, vtx[s], vtx[t])
    ensures State(g, W', vtx[..t] + vtx[t + 1..], clusters[vtx[s] := clusters[vtx[s]] + clusters[vtx[t]]], Absorb(own, vtx[s], vtx[t]))
  {
    RemoveFacts(vtx, t, g.n);
    MergeOwners(g, W, vtx, clusters, own, s, t);
    MergeClusters(g.n, vtx, clusters, own, s, t);
    MergeMatrix(g, W, W', vtx, clusters, own, s, t);
  }

  lemma MergeOwners(g: Graph, W: seq<seq<int>>, vtx: seq<int>, clusters: seq<seq<int>>, own: seq<int>, s: int, t: int)
    requires WellFormed(g) && State(g, W, vtx, clusters, own)
    requires 0 <= s < |vtx| && 0 <= t < |vtx| && s != t
    ensures var vtx', own' := vtx[..t] + vtx[t + 1..], Absorb(own, vtx[s], vtx[t]);
      && (forall x :: 0 <= x < g.n ==> own'[x] in vtx')
      && (forall i :: 0 <= i < |vtx'| ==> own'[vtx'[i]] == vtx'[i])
  {
    var vs, vt := vtx[s], vtx[t];
    var vtx' := vtx[..t] + vtx[t + 1..];
    var own' := Absorb(own, vs, vt);
    RemoveFacts(vtx, t, g.n);
    forall x | 0 <= x < g.n
      ensures own'[x] in vtx'
    {
      assert own[x] in vtx;
    }
    forall i | 0 <= i < |vtx'|
      ensures own'[vtx'[i]] == vtx'[i]
    {
      var a := vtx'[i];
      assert a in vtx;
      var j :| 0 <= j < |vtx| && vtx[j] == a;
    }
  }

  /** The merged cluster of vs, and every other cluster, lists what it owns
      after the merge. */
  lemma MergeOwns(n: nat, clusters: seq<seq<int>>, own: seq<int>, vs: int, vt: int, a: int)
    requires |own| == n && |clusters| == n && 0 <= vs < n && 0 <= vt < n && vs != vt && 0 <= a < n && a != vt
    requires Owns(n, clusters, own, a) && Owns(n, clusters, own, vs) && Owns(n, clusters, own, vt)
    ensures Owns(n, clusters[vs := clusters[vs] + clusters[vt]], Absorb(own, vs, vt), a)
  {
    var clusters' := clusters[vs := clusters[vs] + clusters[vt]];
    forall x
      ensures x in clusters'[a] <==> 0 <= x < n && Absorb(own, vs, vt)[x] == a
    {
      if a == vs {
        assert x in clusters[vs] + clusters[vt] <==> x in clusters[vs] || x in clusters[vt];
      }
    }
  }

  lemma MergeClusters(n: nat, vtx: seq<int>, clusters: seq<seq<int>>, own: seq<int>, s: int, t: int)
    requires AllIn(vtx, n) && Distinct(vtx) && |own| == n && |clusters| == n
    requires forall i :: 0 <= i < |vtx| ==> Owns(n, clusters, own, vtx[i])
    requires 0 <= s < |vtx| && 0 <= t < |vtx| && s != t
    ensures var vtx' := vtx[..t] + vtx[t + 1..];
      forall i :: 0 <= i < |vtx'| ==> Owns(n, clusters[vtx[s] := clusters[vtx[s]] + clusters[vtx[t]]], Absorb(own, vtx[s], vtx[t]), vtx'[i])
  {
    var vs, vt := vtx[s], vtx[t];
    var vtx' := vtx[..t] + vtx[t + 1..];
    RemoveFacts(vtx, t, n);
    forall i | 0 <= i < |vtx'|
      ensures Owns(n, clusters[vs := clusters[vs] + clusters[vt]], Absorb(own, vs, vt), vtx'[i])
    {
      var a := vtx'[i];
      assert a in vtx;
      var j :| 0 <= j < |vtx| && vtx[j] == a;
      MergeOwns(n, clusters, own, vs, vt, a);
    }
  }

  /** One cell of the merged matrix holds the weight between the merged
      clusters. */
  lemma MergeCell(g: Graph, W: seq<seq<int>>, W': seq<seq<int>>, vtx: seq<int>, own: seq<int>, vs: int, vt: int, a: int, b: int)
    requires WellFormed(g) && |own| == g.n && Square(W, g.n) && Square(W', g.n) && AllIn(vtx, g.n)
    requires 0 <= vs < g.n && 0 <= vt < g.n && vs != vt && vs in vtx
    requires 0 <= a < g.n && 0 <= b < g.n && a != b && a != vt && b != vt && a in vtx && b in vtx
    requires forall c, d :: c in vtx && d in vtx && c != d ==> W[c][d] == Between(g, own, c, d)
    requires vt in vtx && W'[a][b] == MergedAt(W, vtx, vs, vt, a, b)
    ensures W'[a][b] == Between(g, Absorb(own, vs, vt), a, b)
  {
    if a == vs {
      BetweenAbsorbLeft(g, own, vs, vt, b);
    } else if b == vs {
      BetweenAbsorbRight(g, own, vs, vt, a);
    } else {
      BetweenAbsorbOther(g, own, vs, vt, a, b);
    }
  }

  lemma MergeMatrix(g: Graph, W: seq<seq<int>>, W': seq<seq<int>>, vtx: seq<int>, clusters: seq<seq<int>>, own: seq<int>, s: int, t: int)
    requires WellFormed(g) && State(g, W, vtx, clusters, own)
    requires 0 <= s < |vtx| && 0 <= t < |vtx| && s != t
    requires Square(W', g.n) && Merged(W, W', vtx, vtx[s], vtx[t])
    ensures var vtx', own' := vtx[..t] + vtx[t + 1..], Absorb(own, vtx[s], vtx[t]);
      forall i, j :: 0 <= i < |vtx'| && 0 <= j < |vtx'| && i != j ==> W'[vtx'[i]][vtx'[j]] == Between(g, own', vtx'[i], vtx'[j])
  {
    var vs, vt := vtx[s], vtx[t];
    var vtx' := vtx[..t] + vtx[t + 1..];
    RemoveFacts(vtx, t, g.n);
    forall c, d | c in vtx && d in vtx && c != d
      ensures W[c][d] == Between(g, own, c, d)
    {
      var i0 :| 0 <= i0 < |vtx| && vtx[i0] == c;
      var j0 :| 0 <= j0 < |vtx| && vtx[j0] == d;
    }
    forall i, j | 0 <= i < |vtx'| && 0 <= j < |vtx'| && i != j
      ensures W'[vtx'[i]][vtx'[j]] == Between(g, Absorb(own, vs, vt), vtx'[i], vtx'[j])
    {
      var a, b := vtx'[i], vtx'[j];
      assert a in vtx' && b in vtx';
      MergeCell(g, W, W', vtx, own, vs, vt, a, b);
    }
  }

  // ---------------------------------------------------------------- phase cuts

  /** The labels that put A on side 0 and every other vertex on side 1. */
  function Side(A: seq<int>, n: nat): (p: seq<int>)
    ensures |p| == n
    ensures forall x :: 0 <= x < n ==> (p[x] == 0 <==> x in A) && (p[x] == 1 <==> x !in A)
  {
    seq(n, x => if x in A then 0 else 1)
  }

  /** Pairs (x, y) with y in the cluster of vt and x outside it. */
  ghost function OutF(g: Graph, own: seq<int>, vt: int): (int, int) -> int
    requires WellFormed(g) && |own| == g.n
  {
    (x, y) => if 0 <= x < g.n && 0 <= y < g.n && own[x] != vt && own[y] == vt then EdgeWeight(g, x, y) else 0
  }

  /** The same pairs, restricted to x owned by one of the first m active
      vertices. */
  ghost function PrefixF(g: Graph, own: seq<int>, vtx: seq<int>, t: int, m: nat): (int, int) -> int
    requires WellFormed(g) && |own| == g.n && 0 <= t < |vtx| && m <= |vtx|
  {
    (x, y) => if 0 <= x < g.n && 0 <= y < g.n && own[x] in vtx[..m] && own[x] != vtx[t] && own[y] == vtx[t]
              then EdgeWeight(g, x, y) else 0
  }

  /** The cluster weights from every other active vertex among the first m
      to active vertex t. */
  ghost function OthersB(g: Graph, own: seq<int>, vtx: seq<int>, t: int, m: nat): int
    requires WellFormed(g) && |own| == g.n && 0 <= t < |vtx| && m <= |vtx|
  {
    if m == 0 then 0 else OthersB(g, own, vtx, t, m - 1) + (if m - 1 != t then Between(g, own, vtx[m - 1], vtx[t]) else 0)
  }

  lemma {:induction false} OthersPrefix(g: Graph, own: seq<int>, vtx: seq<int>, t: int, m: nat)
    requires WellFormed(g) && |own| == g.n && Distinct(vtx) && 0 <= t < |vtx| && m <= |vtx|
    ensures OthersB(g, own, vtx, t, m) == DSum(g.n, g.n, PrefixF(g, own, vtx, t, m))
  {
    var n := g.n;
    if m == 0 {
      DSumZero(n, n, PrefixF(g, own, vtx, t, 0));
    } else {
      OthersPrefix(g, own, vtx, t, m - 1);
      var a := vtx[m - 1];
      assert vtx[..m] == vtx[..m - 1] + [a];
      assert a !in vtx[..m - 1];
      if m - 1 != t {
        DSumAdd(n, n, PrefixF(g, own, vtx, t, m - 1), BetweenF(g, own, a, vtx[t]), PrefixF(g, own, vtx, t, m));
      } else {
        DSumExt(n, n, PrefixF(g, own, vtx, t, m - 1), PrefixF(g, own, vtx, t, m));
      }
    }
  }

  lemma {:induction false} OthersClusters(g: Graph, W: seq<seq<int>>, vtx: seq<int>, clusters: seq<seq<int>>, own: seq<int>, t: int, m: nat)
    requires WellFormed(g) && State(g, W, vtx, clusters, own) && 0 <= t < |vtx| && m <= |vtx|
    ensures Others(W, vtx, t, m) == OthersB(g, own, vtx, t, m)
  {
    if m > 0 {
      OthersClusters(g, W, vtx, clusters, own, t, m - 1);
    }
  }

  /** The weight a phase reports for its last vertex t is the cut between
      t's cluster and the rest of the graph. */
  lemma PhaseCut(g: Graph, W: seq<seq<int>>, vtx: seq<int>, clusters: seq<seq<int>>, own: seq<int>, t: int)
    requires WellFormed(g) && State(g, W, vtx, clusters, own) && 0 <= t < |vtx|
    ensures Others(W, vtx, t, |vtx|) == CutWeight(g, Side(clusters[vtx[t]], g.n))
  {
    PhaseOut(g, W, vtx, clusters, own, t);
    ClusterCut(g, clusters, own, vtx[t]);
  }

  /** The phase's weight for t is the weight of the pairs entering t's
      cluster from outside it. */
  lemma PhaseOut(g: Graph, W: seq<seq<int>>, vtx: seq<int>, clusters: seq<seq<int>>, own: seq<int>, t: int)
    requires WellFormed(g) && State(g, W, vtx, clusters, own) && 0 <= t < |vtx|
    ensures 0 <= vtx[t] < g.n && Owns(g.n, clusters, own, vtx[t])
    ensures Others(W, vtx, t, |vtx|) == DSum(g.n, g.n, OutF(g, own, vtx[t]))
  {
    OthersClusters(g, W, vtx, clusters, own, t, |vtx|);
    OthersPrefix(g, own, vtx, t, |vtx|);
    assert vtx[..|vtx|] == vtx;
    DSumExt(g.n, g.n, PrefixF(g, own, vtx, t, |vtx|), OutF(g, own, vtx[t]));
  }

  /** The pairs entering a cluster from outside it weigh its cut. */
  lemma ClusterCut(g: Graph, clusters: seq<seq<int>>, own: seq<int>, vt: int)
    requires WellFormed(g) && |own| == g.n && |clusters| == g.n && 0 <= vt < g.n && Owns(g.n, clusters, own, vt)
    ensures DSum(g.n, g.n, OutF(g, own, vt)) == CutWeight(g, Side(clusters[vt], g.n))
  {
    var n := g.n;
    var p := Side(clusters[vt], n);
    var inF := (x, y) => OutF(g, own, vt)(y, x);
    DSumTranspose(n, n, OutF(g, own, vt), inF);
    DSumAdd(n, n, OutF(g, own, vt), inF, Crossing(g, p));
    CutAsPairs(g, p);
  }

  // ---------------------------------------------------------------- solve

  /** The result labels: 1 everywhere, then 0 on every vertex of A. */
  method LabelSide(A: seq<int>, n: nat) returns (part: seq<int>)
    requires AllIn(A, n)
    ensures part == Side(A, n)
  {
    part := seq(n, _ => 1);
    var i := 0;
    while i < |A|
      invariant 0 <= i <= |A| && |part| == n
      invariant forall x :: 0 <= x < n ==> part[x] == if x in A[..i] then 0 else 1
    {
      assert A[..i + 1] == A[..i] + [A[i]];
      part := part[A[i] := 0];
      i := i + 1;
    }
    assert A[..i] == A;
  }

  /** c is the cut of some split of the vertices into two non-empty sides. */
  ghost predicate ProperCut(g: Graph, c: int)
    requires WellFormed(g)
  {
    exists A :: AllIn(A, g.n) && 0 in Side(A, g.n) && 1 in Side(A, g.n) && c == CutWeight(g, Side(A, g.n))
  }

  /** The record kept across phases: once a phase has run, best is the
      least phase cut so far and the cut of bestA against the rest, with
      both sides non-empty. */
  ghost predicate Record(g: Graph, phases: seq<int>, best: int, bestA: seq<int>)
    requires WellFormed(g)
  {
    |phases| > 0 ==>
      && best in phases && (forall i :: 0 <= i < |phases| ==> best <= phases[i])
      && AllIn(bestA, g.n) && best == CutWeight(g, Side(bestA, g.n))
      && 0 in Side(bestA, g.n) && 1 in Side(bestA, g.n)
  }

  /** The cluster of an active vertex is a proper, non-empty part of the
      graph. */
  lemma ClusterSides(g: Graph, W: seq<seq<int>>, vtx: seq<int>, clusters: seq<seq<int>>, own: seq<int>, s: int, t: int)
    requires WellFormed(g) && State(g, W, vtx, clusters, own) && 0 <= s < |vtx| && 0 <= t < |vtx| && s != t
    ensures AllIn(clusters[vtx[t]], g.n)
    ensures 0 in Side(clusters[vtx[t]], g.n) && 1 in Side(clusters[vtx[t]], g.n)
  {
    var A := clusters[vtx[t]];
    assert Owns(g.n, clusters, own, vtx[t]);
    assert forall i :: 0 <= i < |A| ==> A[i] in A;
    assert Side(A, g.n)[vtx[t]] == 0 && Side(A, g.n)[vtx[s]] == 1;
  }

  /** The record update after a phase: taken on the first phase or on a
      strictly smaller cut, so a tie keeps the earlier phase. */
  method UpdateRecord(g: Graph, phases: seq<int>, best: int, bestA: seq<int>, cut: int, A: seq<int>)
    returns (phases': seq<int>, best': int, bestA': seq<int>)
    requires WellFormed(g) && Record(g, phases, best, bestA)
    requires AllIn(A, g.n) && cut == CutWeight(g, Side(A, g.n)) && 0 in Side(A, g.n) && 1 in Side(A, g.n)
    ensures phases' == phases + [cut] && Record(g, phases', best', bestA')
    ensures best' == if |phases| == 0 || cut < best then cut else best
    ensures bestA' == if |phases| == 0 || cut < best then A else bestA
  {
    best', bestA' := best, bestA;
    if |phases| == 0 || cut < best {
      best', bestA' := cut, A;
    }
    phases' := phases + [cut];
  }

  /** The cluster of the last vertex of a complete phase order ord, which
      the phase cuts off: part puts it on side 0 and the rest on side 1. */
  ghost predicate LastSide(g: Graph, vtx: seq<int>, clusters: seq<seq<int>>, ord: seq<int>, part: seq<int>)
  {
    && |ord| == |vtx| >= 1 && 0 <= ord[|vtx| - 1] < |vtx| && 0 <= vtx[ord[|vtx| - 1]] < |clusters|
    && part == Side(clusters[vtx[ord[|vtx| - 1]]], g.n)
  }

  /** One phase of the main loop, from the state (W, vtx, clusters) to
      (W', vtx', clusters'): ord is the maximum-adjacency order of the
      active vertices, cut the weight between its last vertex t and all the
      others, which is the cut of t's cluster, and t is merged into the
      vertex s added just before it. */
  ghost predicate PhaseRun(g: Graph, W: seq<seq<int>>, vtx: seq<int>, clusters: seq<seq<int>>, ord: seq<int>, cut: int,
                           W': seq<seq<int>>, vtx': seq<int>, clusters': seq<seq<int>>)
    requires WellFormed(g)
  {
    && Square(W, g.n) && AllIn(vtx, g.n) && |vtx| >= 2 && |clusters| == g.n
    && |ord| == |vtx| && MaxAdjacency(W, vtx, ord)
    && var s, t := ord[|vtx| - 2], ord[|vtx| - 1];
       && 0 <= s < |vtx| && 0 <= t < |vtx| && s != t
       && cut == Others(W, vtx, t, |vtx|)
       && LastSide(g, vtx, clusters, ord, Side(clusters[vtx[t]], g.n))
       && AllIn(clusters[vtx[t]], g.n) && cut == CutWeight(g, Side(clusters[vtx[t]], g.n))
       && Square(W', g.n) && Merged(W, W', vtx, vtx[s], vtx[t])
       && vtx' == vtx[..t] + vtx[t + 1..]
       && clusters' == clusters[vtx[s] := clusters[vtx[s]] + clusters[vtx[t]]]
  }

  /** The phases so far: phase i runs from state i to state i + 1 with cut
      phases[i], state 0 being the matrix of edge weights over singleton
      clusters of all vertices. */
  ghost predicate Trace(g: Graph, Ws: seq<seq<seq<int>>>, vtxs: seq<seq<int>>, cls: seq<seq<seq<int>>>, ords: seq<seq<int>>, phases: seq<int>)
    requires WellFormed(g)
  {
    && |Ws| == |phases| + 1 && |vtxs| == |phases| + 1 && |cls| == |phases| + 1 && |ords| == |phases|
    && Square(Ws[0], g.n) && (forall x, y :: 0 <= x < g.n && 0 <= y < g.n ==> Ws[0][x][y] == EdgeWeight(g, x, y))
    && vtxs[0] == AllVertices(g.n) && cls[0] == seq(g.n, i => [i])
    && forall i :: 0 <= i < |phases| ==> PhaseRun(g, Ws[i], vtxs[i], cls[i], ords[i], phases[i], Ws[i + 1], vtxs[i + 1], cls[i + 1])
  }

  /** A recorded phase extends the trace. */
  lemma TraceStep(g: Graph, Ws: seq<seq<seq<int>>>, vtxs: seq<seq<int>>, cls: seq<seq<seq<int>>>, ords: seq<seq<int>>, phases: seq<int>,
                  ord: seq<int>, cut: int, W': seq<seq<int>>, vtx': seq<int>, clusters': seq<seq<int>>)
    requires WellFormed(g) && Trace(g, Ws, vtxs, cls, ords, phases)
    requires PhaseRun(g, Ws[|phases|], vtxs[|phases|], cls[|phases|], ord, cut, W', vtx', clusters')
    ensures Trace(g, Ws + [W'], vtxs + [vtx'], cls + [clusters'], ords + [ord], phases + [cut])
  {
    var Ws1, vtxs1, cls1, ords1, phases1 := Ws + [W'], vtxs + [vtx'], cls + [clusters'], ords + [ord], phases + [cut];
    forall i | 0 <= i < |phases1|
      ensures PhaseRun(g, Ws1[i], vtxs1[i], cls1[i], ords1[i], phases1[i], Ws1[i + 1], vtxs1[i + 1], cls1[i + 1])
    {
      if i < |phases| {
        assert Ws1[i] == Ws[i] && vtxs1[i] == vtxs[i] && cls1[i] == cls[i] && ords1[i] == ords[i] && phases1[i] == phases[i];
        assert Ws1[i + 1] == Ws[i + 1] && vtxs1[i + 1] == vtxs[i + 1] && cls1[i + 1] == cls[i + 1];
      }
    }
  }

  /** Phase b is the first of the cheapest phases so far, with cut best,
      and bestA the cluster it cut off. */
  ghost predicate Cheapest(g: Graph, vtxs: seq<seq<int>>, cls: seq<seq<seq<int>>>, ords: seq<seq<int>>, phases: seq<int>, b: int, best: int, bestA: seq<int>)
  {
    && 0 <= b < |phases| && b < |vtxs| && b < |cls| && b < |ords| && phases[b] == best
    && (forall i :: 0 <= i < b ==> best < phases[i])
    && LastSide(g, vtxs[b], cls[b], ords[b], Side(bestA, g.n))
  }

  /** The record update keeps b the first cheapest phase. */
  lemma CheapestStep(g: Graph, vtxs: seq<seq<int>>, cls: seq<seq<seq<int>>>, ords: seq<seq<int>>, phases: seq<int>, b: int, best: int, bestA: seq<int>,
                     vtx': seq<int>, clusters': seq<seq<int>>, ord: seq<int>, cut: int, best': int, bestA': seq<int>)
    requires |vtxs| == |phases| + 1 && |cls| == |phases| + 1 && |ords| == |phases|
    requires |phases| > 0 ==> Cheapest(g, vtxs, cls, ords, phases, b, best, bestA)
    requires forall i :: 0 <= i < |phases| ==> best <= phases[i]
    requires |phases| == 0 || cut < best ==> best' == cut && LastSide(g, vtxs[|phases|], cls[|phases|], ord, Side(bestA', g.n))
    requires !(|phases| == 0 || cut < best) ==> best' == best && bestA' == bestA
    ensures Cheapest(g, vtxs + [vtx'], cls + [clusters'], ords + [ord], phases + [cut],
                     if |phases| == 0 || cut < best then |phases| else b, best', bestA')
  {
    var vtxs1, cls1, ords1, phases1 := vtxs + [vtx'], cls + [clusters'], ords + [ord], phases + [cut];
    if |phases| == 0 || cut < best {
      assert vtxs1[|phases|] == vtxs[|phases|] && cls1[|phases|] == cls[|phases|] && ords1[|phases|] == ord;
      forall i | 0 <= i < |phases|
        ensures best' < phases1[i]
      {
        assert phases1[i] == phases[i];
      }
    } else {
      assert vtxs1[b] == vtxs[b] && cls1[b] == cls[b] && ords1[b] == ords[b] && phases1[b] == phases[b];
      forall i | 0 <= i < b
        ensures best' < phases1[i]
      {
        assert phases1[i] == phases[i];
      }
    }
  }

  /** One iteration of the main loop: a phase, the record update (on the
      first phase or a strictly smaller cut) and the merge of its last
      vertex into the one before it. */
  method RunPhase(g: Graph, W: seq<seq<int>>, vtx: seq<int>, clusters: seq<seq<int>>, ghost own: seq<int>,
                  phases: seq<int>, best: int, bestA: seq<int>)
    returns (W': seq<seq<int>>, vtx': seq<int>, clusters': seq<seq<int>>, ghost own': seq<int>,
             phases': seq<int>, best': int, bestA': seq<int>, ghost ord: seq<int>)
    requires WellFormed(g) && State(g, W, vtx, clusters, own) && |vtx| >= 2 && Record(g, phases, best, bestA)
    ensures State(g, W', vtx', clusters', own') && |vtx'| == |vtx| - 1
    ensures exists cut :: phases' == phases + [cut] && ProperCut(g, cut)
    ensures Record(g, phases', best', bestA')
    ensures |phases'| == |phases| + 1 && phases'[..|phases|] == phases
    ensures PhaseRun(g, W, vtx, clusters, ord, phases'[|phases|], W', vtx', clusters')
    ensures |phases| == 0 || phases'[|phases|] < best ==>
      best' == phases'[|phases|] && LastSide(g, vtx, clusters, ord, Side(bestA', g.n))
    ensures !(|phases| == 0 || phases'[|phases|] < best) ==> best' == best && bestA' == bestA
  {
    var s, t, cut;
    s, t, cut, ord := Phase(W, vtx);
    var vs, vt := vtx[s], vtx[t];
    PhaseCut(g, W, vtx, clusters, own, t);
    ClusterSides(g, W, vtx, clusters, own, s, t);
    phases', best', bestA' := UpdateRecord(g, phases, best, bestA, cut, clusters[vt]);
    W' := MergeRows(W, vtx, vs, vt);
    MergeKeeps(g, W, W', vtx, clusters, own, s, t);
    clusters' := clusters[vs := clusters[vs] + clusters[vt]];
    own' := Absorb(own, vs, vt);
    vtx' := vtx[..t] + vtx[t + 1..];
    assert phases' == phases + [cut] && phases'[..|phases|] == phases;
  }

  /** The main loop's state after |phases| phases: the loop state, the
      record, the trace ending in the current state and the first cheapest
      phase b. */
  ghost predicate Looping(g: Graph, W: seq<seq<int>>, vtx: seq<int>, clusters: seq<seq<int>>, own: seq<int>,
                          phases: seq<int>, best: int, bestA: seq<int>,
                          Ws: seq<seq<seq<int>>>, vtxs: seq<seq<int>>, cls: seq<seq<seq<int>>>, ords: seq<seq<int>>, b: int)
    requires WellFormed(g)
  {
    && State(g, W, vtx, clusters, own) && 1 <= |vtx| <= g.n
    && |phases| == g.n - |vtx| && Record(g, phases, best, bestA)
    && (forall i :: 0 <= i < |phases| ==> ProperCut(g, phases[i]))
    && Trace(g, Ws, vtxs, cls, ords, phases)
    && Ws[|phases|] == W && vtxs[|phases|] == vtx && cls[|phases|] == clusters
    && (|phases| > 0 ==> Cheapest(g, vtxs, cls, ords, phases, b, best, bestA))
  }

  /** One iteration of the main loop, recorded in the trace. */
  method Iterate(g: Graph, W: seq<seq<int>>, vtx: seq<int>, clusters: seq<seq<int>>, ghost own: seq<int>,
                 phases: seq<int>, best: int, bestA: seq<int>,
                 ghost Ws: seq<seq<seq<int>>>, ghost vtxs: seq<seq<int>>, ghost cls: seq<seq<seq<int>>>, ghost ords: seq<seq<int>>, ghost b: int)
    returns (W': seq<seq<int>>, vtx': seq<int>, clusters': seq<seq<int>>, ghost own': seq<int>,
             phases': seq<int>, best': int, bestA': seq<int>,
             ghost Ws': seq<seq<seq<int>>>, ghost vtxs': seq<seq<int>>, ghost cls': seq<seq<seq<int>>>, ghost ords': seq<seq<int>>, ghost b': int)
    requires WellFormed(g) && Looping(g, W, vtx, clusters, own, phases, best, bestA, Ws, vtxs, cls, ords, b) && |vtx| > 1
    ensures Looping(g, W', vtx', clusters', own', phases', best', bestA', Ws', vtxs', cls', ords', b')
    ensures |vtx'| == |vtx| - 1
  {
    ghost var ord;
    W', vtx', clusters', own', phases', best', bestA', ord := RunPhase(g, W, vtx, clusters, own, phases, best, bestA);
    ghost var c :| phases' == phases + [c] && ProperCut(g, c);
    assert c == phases'[|phases|];
    ProperAppend(g, phases, c);
    Ws', vtxs', cls', ords', b' := TraceAdvance(g, W, vtx, clusters, phases, best, bestA, Ws, vtxs, cls, ords, b, ord, c, W', vtx', clusters', best', bestA');
  }

  /** The trace and the cheapest phase after one more phase. */
  lemma TraceAdvance(g: Graph, W: seq<seq<int>>, vtx: seq<int>, clusters: seq<seq<int>>,
                     phases: seq<int>, best: int, bestA: seq<int>,
                     Ws: seq<seq<seq<int>>>, vtxs: seq<seq<int>>, cls: seq<seq<seq<int>>>, ords: seq<seq<int>>, b: int,
                     ord: seq<int>, cut: int, W': seq<seq<int>>, vtx': seq<int>, clusters': seq<seq<int>>, best': int, bestA': seq<int>)
    returns (Ws': seq<seq<seq<int>>>, vtxs': seq<seq<int>>, cls': seq<seq<seq<int>>>, ords': seq<seq<int>>, b': int)
    requires WellFormed(g) && Trace(g, Ws, vtxs, cls, ords, phases)
    requires Ws[|phases|] == W && vtxs[|phases|] == vtx && cls[|phases|] == clusters
    requires |phases| > 0 ==> Cheapest(g, vtxs, cls, ords, phases, b, best, bestA)
    requires forall i :: 0 <= i < |phases| ==> best <= phases[i]
    requires PhaseRun(g, W, vtx, clusters, ord, cut, W', vtx', clusters')
    requires |phases| == 0 || cut < best ==> best' == cut && LastSide(g, vtx, clusters, ord, Side(bestA', g.n))
    requires !(|phases| == 0 || cut < best) ==> best' == best && bestA' == bestA
    ensures Trace(g, Ws', vtxs', cls', ords', phases + [cut])
    ensures Ws'[|phases| + 1] == W' && vtxs'[|phases| + 1] == vtx' && cls'[|phases| + 1] == clusters'
    ensures Cheapest(g, vtxs', cls', ords', phases + [cut], b', best', bestA')
  {
    TraceStep(g, Ws, vtxs, cls, ords, phases, ord, cut, W', vtx', clusters');
    CheapestStep(g, vtxs, cls, ords, phases, b, best, bestA, vtx', clusters', ord, cut, best', bestA');
    b' := if |phases| == 0 || cut < best then |phases| else b;
    Ws', vtxs', cls', ords' := Ws + [W'], vtxs + [vtx'], cls + [clusters'], ords + [ord];
  }

  lemma ProperAppend(g: Graph, phases: seq<int>, c: int)
    requires WellFormed(g) && (forall i :: 0 <= i < |phases| ==> ProperCut(g, phases[i])) && ProperCut(g, c)
    ensures forall i :: 0 <= i < |phases + [c]| ==> ProperCut(g, (phases + [c])[i])
  {
    forall i | 0 <= i < |phases + [c]|
      ensures ProperCut(g, (phases + [c])[i])
    {
      if i < |phases| {
        assert (phases + [c])[i] == phases[i];
      }
    }
  }

  /** `solve`: Stoer-Wagner. An empty graph gives the empty result and a
      single vertex the one-block partition. Otherwise there are n - 1
      phases (their cuts returned in order as phases); the result puts the
      cluster of the cheapest phase's last vertex, the first one on a tie,
      on side 0 and the rest on side 1, both sides non-empty, and reports
      its cut, which is the least phase cut. The trace Ws, vtxs, cls, ords
      records every phase, and b is the cheapest one. */
  method Solve(g: Graph)
    returns (res: PartitionResult, phases: seq<int>,
             ghost Ws: seq<seq<seq<int>>>, ghost vtxs: seq<seq<int>>, ghost cls: seq<seq<seq<int>>>, ghost ords: seq<seq<int>>, ghost b: int)
    requires WellFormed(g)
    ensures g.n == 0 ==> res == EmptyResult && phases == []
    ensures g.n == 1 ==> res == PartitionResult([0], [], 0, 0) && phases == []
    ensures g.n >= 1 ==> |res.part| == g.n && res.separator == [] && res.score == 0
    ensures g.n >= 1 ==> forall v :: 0 <= v < g.n ==> res.part[v] == 0 || res.part[v] == 1
    ensures g.n >= 1 ==> res.cutWeight == CutWeight(g, res.part)
    ensures g.n >= 2 ==> |phases| == g.n - 1 && 0 in res.part && 1 in res.part
    ensures g.n >= 2 ==> res.cutWeight in phases && forall i :: 0 <= i < |phases| ==> res.cutWeight <= phases[i]
    ensures forall i :: 0 <= i < |phases| ==> ProperCut(g, phases[i])
    ensures g.n >= 2 ==> Trace(g, Ws, vtxs, cls, ords, phases) && |vtxs[|phases|]| == 1
    ensures g.n >= 2 ==>
      && 0 <= b < |phases| && phases[b] == res.cutWeight
      && (forall i :: 0 <= i < b ==> res.cutWeight < phases[i])
      && LastSide(g, vtxs[b], cls[b], ords[b], res.part)
  {
    phases := [];
    Ws, vtxs, cls, ords, b := [], [], [], [], 0;
    if g.n == 0 {
      return EmptyResult, [], Ws, vtxs, cls, ords, b;
    }
    if g.n == 1 {
      CutUniform(g, [0], 0);
      return PartitionResult([0], [], 0, 0), [], Ws, vtxs, cls, ords, b;
    }
    var n := g.n;
    var W := BuildMatrix(g);
    var vtx := AllVertices(n);
    var clusters := seq(n, i => [i]);
    ghost var own := AllVertices(n);
    InitialState(g, W);
    var best := 0;
    var bestA := [];
    Ws, vtxs, cls := [W], [vtx], [clusters];
    ords, b := [], 0;
    while |vtx| > 1
      invariant Looping(g, W, vtx, clusters, own, phases, best, bestA, Ws, vtxs, cls, ords, b)
      decreases |vtx|
    {
      W, vtx, clusters, own, phases, best, bestA, Ws, vtxs, cls, ords, b :=
        Iterate(g, W, vtx, clusters, own, phases, best, bestA, Ws, vtxs, cls, ords, b);
    }
    var part := LabelSide(bestA, n);
    res := PartitionResult(part, [], best, 0);
  }
}

=== FILE: graphs.dfy ===
/** The weighted undirected graph of GraphUtils.h: n vertices 0..n-1, each
    with an ordered adjacency list of (neighbour, weight) entries. */
module Graphs {
  import opened Sums

  datatype Edge = Edge(to: int, w: int)

  datatype Graph = Graph(n: nat, adj: seq<seq<Edge>>)

  /** The two exception kinds a caller of the graph or of a solver can see. */
  datatype Error = OutOfRange | InvalidArgument

  datatype Result<T> = Ok(value: T) | Err(error: Error)

  /** What every solver returns: a label per vertex, the separator (used
      only by the separator solver), the cut weight and the auxiliary score. */
  datatype PartitionResult = PartitionResult(part: seq<int>, separator: seq<int>, cutWeight: int, score: nat)

  const EmptyResult := PartitionResult([], [], 0, 0)

  /** The invariant of every graph built through AddUndirected: one list per
      vertex, every entry names a vertex and carries a non-negative weight. */
  ghost predicate WellFormed(g: Graph)
  {
    && |g.adj| == g.n
    && forall u, i :: 0 <= u < g.n && 0 <= i < |g.adj[u]| ==> 0 <= g.adj[u][i].to < g.n && g.adj[u][i].w >= 0
  }

  /** The graph with n vertices and no edges. */
  function NewGraph(n: nat): (g: Graph)
    ensures WellFormed(g) && g.n == n
    ensures forall u :: 0 <= u < n ==> g.adj[u] == []
  {
    Graph(n, seq(n, _ => []))
  }

  /** `add_undirected`: the endpoint check comes first, then the weight check;
      on success (v, w) is appended to u's list and (u, w) to v's list. */
  function AddUndirected(g: Graph, u: int, v: int, w: int): (r: Result<Graph>)
    requires |g.adj| == g.n
    ensures (u < 0 || v < 0 || u >= g.n || v >= g.n) <==> r == Err(OutOfRange)
    ensures (0 <= u < g.n && 0 <= v < g.n && w < 0) <==> r == Err(InvalidArgument)
    ensures r.Ok? ==> 0 <= u < g.n && 0 <= v < g.n && w >= 0
    ensures r.Ok? ==> r.value.n == g.n && |r.value.adj| == g.n
    ensures r.Ok? ==> forall x :: 0 <= x < g.n && x != u && x != v ==> r.value.adj[x] == g.adj[x]
    ensures r.Ok? && u != v ==> r.value.adj[u] == g.adj[u] + [Edge(v, w)] && r.value.adj[v] == g.adj[v] + [Edge(u, w)]
    ensures r.Ok? && u == v ==> r.value.adj[u] == g.adj[u] + [Edge(u, w), Edge(u, w)]
  {
    if u < 0 || v < 0 || u >= g.n || v >= g.n then
      Err(OutOfRange)
    else if w < 0 then
      Err(InvalidArgument)
    else
      var adj1 := g.adj[u := g.adj[u] + [Edge(v, w)]];
      var adj2 := adj1[v := adj1[v] + [Edge(u, w)]];
      assert u == v ==> adj2[u] == g.adj[u] + [Edge(u, w), Edge(u, w)];
      Ok(Graph(g.n, adj2))
  }

  lemma AddUndirectedWellFormed(g: Graph, u: int, v: int, w: int)
    requires WellFormed(g)
    requires AddUndirected(g, u, v, w).Ok?
    ensures WellFormed(AddUndirected(g, u, v, w).value)
  {
    var g' := AddUndirected(g, u, v, w).value;
    forall x, i | 0 <= x < g'.n && 0 <= i < |g'.adj[x]|
      ensures 0 <= g'.adj[x][i].to < g'.n && g'.adj[x][i].w >= 0
    {
      if x != u && x != v {
      } else if i >= |g.adj[x]| {
      } else {
        assert g'.adj[x][i] == g.adj[x][i];
      }
    }
  }

  // ---------------------------------------------------------------- weights

  /** Total weight of the entries of es that point at v. */
  function ListWeight(es: seq<Edge>, v: int): int
  {
    if es == [] then 0 else (if es[0].to == v then es[0].w else 0) + ListWeight(es[1..], v)
  }

  lemma {:induction false} ListWeightNonneg(es: seq<Edge>, v: int)
    requires forall i :: 0 <= i < |es| ==> es[i].w >= 0
    ensures ListWeight(es, v) >= 0
  {
    if es != [] {
      ListWeightNonneg(es[1..], v);
    }
  }

  /** Total weight of all entries of es. */
  function ListTotal(es: seq<Edge>): int
  {
    if es == [] then 0 else es[0].w + ListTotal(es[1..])
  }

  /** The sum, over the entries e of es, of e.w * c(e.to). */
  ghost function WeightedListSum(es: seq<Edge>, c: int -> int): int
  {
    if es == [] then 0 else es[0].w * c(es[0].to) + WeightedListSum(es[1..], c)
  }

  /** Total weight of the entries of x's list that point at y. */
  ghost function Wt(g: Graph, x: int, y: int): int
    requires 0 <= x < |g.adj|
  {
    ListWeight(g.adj[x], y)
  }

  /** Adjacency lists that agree in both directions on the weight between
      any two vertices, as AddUndirected keeps them. */
  ghost predicate Undirected(g: Graph)
    requires |g.adj| == g.n
  {
    forall x, y :: 0 <= x < g.n && 0 <= y < g.n ==> Wt(g, x, y) == Wt(g, y, x)
  }

  /** No list holds an entry pointing back at its own vertex. */
  ghost predicate NoSelfLoops(g: Graph)
    requires |g.adj| == g.n
  {
    forall x, i :: 0 <= x < g.n && 0 <= i < |g.adj[x]| ==> g.adj[x][i].to != x
  }

  /** No list holds two entries pointing at the same vertex. */
  ghost predicate NoParallelEdges(g: Graph)
    requires |g.adj| == g.n
  {
    forall x, i, j :: 0 <= x < g.n && 0 <= i < j < |g.adj[x]| ==> g.adj[x][i].to != g.adj[x][j].to
  }

  /** The weight between x and y as the cut utilities and the min-cut matrix
      see it: the entries of the smaller endpoint's list that point at the
      larger one, and nothing for x == y. */
  ghost function EdgeWeight(g: Graph, x: int, y: int): int
    requires |g.adj| == g.n && 0 <= x < g.n && 0 <= y < g.n
  {
    if x < y then Wt(g, x, y) else if y < x then Wt(g, y, x) else 0
  }

  /** Multiplicity of the entry (y, w) in x's list. */
  ghost function Mult(g: Graph, x: int, y: int, w: int): nat
    requires 0 <= x < |g.adj|
  {
    multiset(g.adj[x])[Edge(y, w)]
  }

  /** Adjacency is symmetric as a multiset: x's list holds (y, w) as often
      as y's list holds (x, w). */
  ghost predicate MultisetSymmetric(g: Graph)
    requires |g.adj| == g.n
  {
    forall x, y, w :: 0 <= x < g.n && 0 <= y < g.n ==> Mult(g, x, y, w) == Mult(g, y, x, w)
  }

  lemma {:induction false} ListWeightAppend(es: seq<Edge>, e: Edge, v: int)
    ensures ListWeight(es + [e], v) == ListWeight(es, v) + (if e.to == v then e.w else 0)
  {
    if es != [] {
      assert (es + [e])[1..] == es[1..] + [e];
      ListWeightAppend(es[1..], e, v);
    }
  }

  lemma {:induction false} WeightedListSumAppend(es: seq<Edge>, e: Edge, c: int -> int)
    ensures WeightedListSum(es + [e], c) == WeightedListSum(es, c) + e.w * c(e.to)
  {
    if es == [] {
      assert [e][1..] == [];
    } else {
      assert (es + [e])[1..] == es[1..] + [e];
      WeightedListSumAppend(es[1..], e, c);
    }
  }

  lemma {:induction false} ListTotalAppend(es: seq<Edge>, e: Edge)
    ensures ListTotal(es + [e]) == ListTotal(es) + e.w
  {
    if es != [] {
      assert (es + [e])[1..] == es[1..] + [e];
      ListTotalAppend(es[1..], e);
    }
  }

  /** Adding an edge between u and v adds one (v, w) to u's list and one
      (u, w) to v's, two (u, w) when u == v. */
  lemma AddUndirectedMult(g: Graph, u: int, v: int, w: int, x: int, y: int, w': int)
    requires |g.adj| == g.n && AddUndirected(g, u, v, w).Ok? && 0 <= x < g.n
    ensures Mult(AddUndirected(g, u, v, w).value, x, y, w') == Mult(g, x, y, w')
      + (if x == u && y == v && w' == w then 1 else 0) + (if x == v && y == u && w' == w then 1 else 0)
  {
    var g' := AddUndirected(g, u, v, w).value;
    if x == u && u != v {
      assert multiset(g'.adj[x]) == multiset(g.adj[x]) + multiset{Edge(v, w)};
    } else if x == v && u != v {
      assert multiset(g'.adj[x]) == multiset(g.adj[x]) + multiset{Edge(u, w)};
    } else if x == u {
      assert multiset(g'.adj[x]) == multiset(g.adj[x]) + multiset{Edge(u, w), Edge(u, w)};
    }
  }

  /** Adding an edge keeps the adjacency symmetric as a multiset. */
  lemma AddUndirectedMultisetSymmetric(g: Graph, u: int, v: int, w: int)
    requires |g.adj| == g.n && MultisetSymmetric(g)
    requires AddUndirected(g, u, v, w).Ok?
    ensures MultisetSymmetric(AddUndirected(g, u, v, w).value)
  {
    var g' := AddUndirected(g, u, v, w).value;
    forall x, y, w' | 0 <= x < g.n && 0 <= y < g.n
      ensures Mult(g', x, y, w') == Mult(g', y, x, w')
    {
      AddUndirectedMult(g, u, v, w, x, y, w');
      AddUndirectedMult(g, u, v, w, y, x, w');
      assert Mult(g, x, y, w') == Mult(g, y, x, w');
    }
  }

  /** Adding an edge keeps the adjacency lists agreeing in both directions. */
  lemma AddUndirectedUndirected(g: Graph, u: int, v: int, w: int)
    requires |g.adj| == g.n && Undirected(g)
    requires AddUndirected(g, u, v, w).Ok?
    ensures Undirected(AddUndirected(g, u, v, w).value)
  {
    var g' := AddUndirected(g, u, v, w).value;
    forall x, y | 0 <= x < g.n && 0 <= y < g.n
      ensures Wt(g', x, y) == Wt(g', y, x)
    {
      forall a, b | 0 <= a < g.n && 0 <= b < g.n
        ensures Wt(g', a, b) == Wt(g, a, b)
          + (if a == u && b == v then w else 0) + (if a == v && b == u then w else 0)
      {
        if a == u && u != v {
          ListWeightAppend(g.adj[u], Edge(v, w), b);
        } else if a == v && u != v {
          ListWeightAppend(g.adj[v], Edge(u, w), b);
        } else if a == u {
          assert g'.adj[u] == (g.adj[u] + [Edge(u, w)]) + [Edge(u, w)];
          ListWeightAppend(g.adj[u] + [Edge(u, w)], Edge(u, w), b);
          ListWeightAppend(g.adj[u], Edge(u, w), b);
        }
      }
      assert Wt(g, x, y) == Wt(g, y, x);
    }
  }

  // ---------------------------------------------------------------- regrouping

  /** Summing e.w * c(e.to) over a list equals summing, over the vertices v,
      the list's weight towards v times c(v). */
  lemma {:induction false} Regroup(es: seq<Edge>, n: nat, c: int -> int, f: int -> int)
    requires forall i :: 0 <= i < |es| ==> 0 <= es[i].to < n
    requires forall v :: 0 <= v < n ==> f(v) == ListWeight(es, v) * c(v)
    ensures WeightedListSum(es, c) == Sum(n, f)
  {
    if es == [] {
      SumZero(n, f);
    } else {
      var e := es[0];
      var rest := (v: int) => ListWeight(es[1..], v) * c(v);
      var head := (v: int) => if v == e.to then e.w * c(v) else 0;
      assert forall i :: 0 <= i < |es[1..]| ==> es[1..][i] == es[i + 1];
      Regroup(es[1..], n, c, rest);
      forall v | 0 <= v < n
        ensures f(v) == head(v) + rest(v)
      {
        RegroupHead(es, v, c(v));
      }
      SumAdd(n, head, rest, f);
      SumPoint(n, e.to, head);
      assert Sum(n, head) == e.w * c(e.to);
    }
  }

  /** The head entry's share of a list's weight towards v, scaled by k. */
  lemma RegroupHead(es: seq<Edge>, v: int, k: int)
    requires es != []
    ensures ListWeight(es, v) * k == (if v == es[0].to then es[0].w * k else 0) + ListWeight(es[1..], v) * k
  {
    var a := if es[0].to == v then es[0].w else 0;
    assert ListWeight(es, v) == a + ListWeight(es[1..], v);
    assert (a + ListWeight(es[1..], v)) * k == a * k + ListWeight(es[1..], v) * k;
  }

  lemma {:induction false} WeightedListSumLinear(es: seq<Edge>, c1: int -> int, c2: int -> int, c: int -> int)
    requires forall v :: c(v) == c1(v) + c2(v)
    ensures WeightedListSum(es, c) == WeightedListSum(es, c1) + WeightedListSum(es, c2)
  {
    if es != [] {
      WeightedListSumLinear(es[1..], c1, c2, c);
      assert es[0].w * c(es[0].to) == es[0].w * c1(es[0].to) + es[0].w * c2(es[0].to);
    }
  }

  // ---------------------------------------------------------------- degrees

  /** `degrees`: each vertex's total incident weight. */
  method Degrees(g: Graph) returns (deg: seq<int>)
    requires WellFormed(g)
    ensures |deg| == g.n
    ensures forall u :: 0 <= u < g.n ==> deg[u] == ListTotal(g.adj[u])
    ensures forall u :: 0 <= u < g.n ==> deg[u] >= 0
  {
    deg := [];
    var u := 0;
    while u < g.n
      invariant 0 <= u <= g.n
      invariant |deg| == u
      invariant forall x :: 0 <= x < u ==> deg[x] == ListTotal(g.adj[x]) && deg[x] >= 0
    {
      var s := 0;
      var i := 0;
      while i < |g.adj[u]|
        invariant 0 <= i <= |g.adj[u]|
        invariant s == ListTotal(g.adj[u][..i])
        invariant s >= 0
      {
        assert g.adj[u][..i + 1] == g.adj[u][..i] + [g.adj[u][i]];
        ListTotalAppend(g.adj[u][..i], g.adj[u][i]);
        s := s + g.adj[u][i].w;
        i := i + 1;
      }
      assert g.adj[u][..i] == g.adj[u];
      deg := deg + [s];
      u := u + 1;
    }
  }

  /** A vertex's degree is the sum over all vertices v of its weight towards v. */
  lemma DegreeIsRowWeight(g: Graph, u: int)
    requires WellFormed(g) && 0 <= u < g.n
    ensures ListTotal(g.adj[u]) == Sum(g.n, v => Wt(g, u, v))
  {
    var one := (v: int) => 1;
    var f := (v: int) => Wt(g, u, v);
    Regroup(g.adj[u], g.n, one, f);
    TotalIsWeightedSum(g.adj[u], one);
  }

  lemma {:induction false} TotalIsWeightedSum(es: seq<Edge>, one: int -> int)
    requires forall v :: one(v) == 1
    ensures ListTotal(es) == WeightedListSum(es, one)
  {
    if es != [] {
      TotalIsWeightedSum(es[1..], one);
    }
  }
}

=== FILE: kway.dfy ===
/** `KWayPartitionSolver` (KWayPartitionSolver.cpp): recursive bisection. The
    solver keeps a list of blocks that always partitions the vertex set and
    bisects the largest block until there are k blocks or every block is a
    single vertex. */
module KWay {
  import opened Graphs
  import opened Cuts
  import opened Ordering
  import opened Bisection

  /** The total number of entries of all blocks. */
  function TotalSize(parts: seq<seq<int>>): nat
  {
    if parts == [] then 0 else TotalSize(parts[..|parts| - 1]) + |parts[|parts| - 1]|
  }

  /** The blocks partition 0..n-1, with owner[v] the block holding v: every
      block is nonempty and duplicate-free, every entry is a vertex owned by
      its block, every vertex lies in its owner, and the sizes add up to n. */
  ghost predicate Blocks(parts: seq<seq<int>>, n: nat, owner: seq<int>)
  {
    && |owner| == n
    && (forall v :: 0 <= v < n ==> 0 <= owner[v] < |parts|)
    && (forall b, i :: 0 <= b < |parts| && 0 <= i < |parts[b]| ==> 0 <= parts[b][i] < n && owner[parts[b][i]] == b)
    && (forall v :: 0 <= v < n ==> v in parts[owner[v]])
    && (forall b :: 0 <= b < |parts| ==> parts[b] != [] && Distinct(parts[b]))
    && TotalSize(parts) == n
  }

  lemma {:induction false} TotalSizeUpdate(parts: seq<seq<int>>, b: int, a: seq<int>)
    requires 0 <= b < |parts|
    ensures TotalSize(parts[b := a]) == TotalSize(parts) - |parts[b]| + |a|
  {
    var m := |parts| - 1;
    if b < m {
      assert parts[b := a][..m] == parts[..m][b := a];
      TotalSizeUpdate(parts[..m], b, a);
    } else {
      assert parts[b := a][..m] == parts[..m];
    }
  }

  /** Nonempty blocks are at most as many as their entries, and exactly as
      many when none has more than one entry. */
  lemma {:induction false} TotalSizeBounds(parts: seq<seq<int>>)
    requires forall b :: 0 <= b < |parts| ==> parts[b] != []
    ensures |parts| <= TotalSize(parts)
    ensures (forall b :: 0 <= b < |parts| ==> |parts[b]| <= 1) ==> TotalSize(parts) == |parts|
  {
    if parts != [] {
      var m := |parts| - 1;
      assert forall b :: 0 <= b < m ==> parts[..m][b] == parts[b];
      TotalSizeBounds(parts[..m]);
    }
  }

  /** The block picked for splitting: the largest, the earliest on ties. */
  method LargestBlock(parts: seq<seq<int>>) returns (idx: int)
    requires |parts| > 0
    ensures 0 <= idx < |parts|
    ensures forall b :: 0 <= b < |parts| ==> |parts[b]| <= |parts[idx]|
    ensures forall b :: 0 <= b < idx ==> |parts[b]| < |parts[idx]|
  {
    idx := 0;
    var i := 1;
    while i < |parts|
      invariant 1 <= i <= |parts| && 0 <= idx < i
      invariant forall b :: 0 <= b < i ==> |parts[b]| <= |parts[idx]|
      invariant forall b :: 0 <= b < idx ==> |parts[b]| < |parts[idx]|
    {
      if |parts[i]| > |parts[idx]| {
        idx := i;
      }
      i := i + 1;
    }
  }

  /** The entries of xs labelled 0, in the order of xs. */
  function Zeros(bi: seq<int>, xs: seq<int>): (a: seq<int>)
    requires AllIn(xs, |bi|)
    ensures AllIn(a, |bi|) && multiset(a) <= multiset(xs)
    ensures forall i :: 0 <= i < |a| ==> bi[a[i]] == 0
    ensures |a| == CountLabel(bi, xs, 0)
  {
    if xs == [] then []
    else
      HeadTail(bi, xs);
      var rest := Zeros(bi, xs[1..]);
      if bi[xs[0]] == 0 then [xs[0]] + rest else rest
  }

  /** The entries of xs with any other label, in the order of xs. */
  function NonZeros(bi: seq<int>, xs: seq<int>): (b: seq<int>)
    requires AllIn(xs, |bi|)
    ensures AllIn(b, |bi|) && multiset(b) <= multiset(xs)
    ensures forall i :: 0 <= i < |b| ==> bi[b[i]] != 0
  {
    if xs == [] then []
    else
      HeadTail(bi, xs);
      var rest := NonZeros(bi, xs[1..]);
      if bi[xs[0]] == 0 then rest else [xs[0]] + rest
  }

  lemma HeadTail(bi: seq<int>, xs: seq<int>)
    requires AllIn(xs, |bi|) && xs != []
    ensures AllIn(xs[1..], |bi|) && 0 <= xs[0] < |bi|
    ensures multiset(xs) == multiset{xs[0]} + multiset(xs[1..])
  {
    assert xs == [xs[0]] + xs[1..];
  }

  /** The loop over the block that sends each vertex to A (label 0) or B. */
  function SplitOff(bi: seq<int>, xs: seq<int>): (ab: (seq<int>, seq<int>))
    requires AllIn(xs, |bi|)
    ensures multiset(ab.0) + multiset(ab.1) == multiset(xs)
    ensures AllIn(ab.0, |bi|) && AllIn(ab.1, |bi|)
    ensures forall i :: 0 <= i < |ab.0| ==> bi[ab.0[i]] == 0
    ensures forall i :: 0 <= i < |ab.1| ==> bi[ab.1[i]] != 0
    ensures |ab.0| == CountLabel(bi, xs, 0)
  {
    SplitMultiset(bi, xs);
    (Zeros(bi, xs), NonZeros(bi, xs))
  }

  lemma {:induction false} SplitMultiset(bi: seq<int>, xs: seq<int>)
    requires AllIn(xs, |bi|)
    ensures multiset(Zeros(bi, xs)) + multiset(NonZeros(bi, xs)) == multiset(xs)
  {
    if xs != [] {
      SplitMultiset(bi, xs[1..]);
      assert xs == [xs[0]] + xs[1..];
    }
  }

  /** A sub-multiset of a duplicate-free list is duplicate-free. */
  lemma SubDistinct(a: seq<int>, xs: seq<int>)
    requires multiset(a) <= multiset(xs) && Distinct(xs)
    ensures Distinct(a)
  {
    forall i, j | 0 <= i < j < |a|
      ensures a[i] != a[j]
    {
      if a[i] == a[j] {
        TwiceCount(a, i, j);
        DistinctCount(xs, a[i]);
      }
    }
  }

  /** A value at two positions occurs at least twice. */
  lemma TwiceCount(a: seq<int>, i: int, j: int)
    requires 0 <= i < j < |a| && a[i] == a[j]
    ensures multiset(a)[a[i]] >= 2
  {
    var x := a[i];
    assert a == a[..j] + a[j..];
    assert x in a[..j] && a[j..][0] == x;
    assert x in multiset(a[..j]) && x in multiset(a[j..]);
  }

  /** Bisecting a duplicate-free block of s >= 2 vertices yields halves of
      ceil(s/2) and floor(s/2) vertices, so neither is empty. */
  lemma SplitHalves(bi: seq<int>, xs: seq<int>)
    requires AllIn(xs, |bi|) && Distinct(xs) && |xs| >= 2
    requires forall i :: 0 <= i < |xs| ==> bi[xs[i]] == 0 || bi[xs[i]] == 1
    requires CountLabel(bi, xs, 0) == (|xs| + 1) / 2
    ensures |SplitOff(bi, xs).0| == (|xs| + 1) / 2 && |SplitOff(bi, xs).1| == |xs| / 2
    ensures SplitOff(bi, xs).0 != [] && SplitOff(bi, xs).1 != []
  {
    var ab := SplitOff(bi, xs);
    assert |multiset(ab.0)| + |multiset(ab.1)| == |multiset(xs)|;
  }

  /** The halves of a split lie in the block and do not share a vertex. */
  lemma HalvesInBlock(xs: seq<int>, a: seq<int>, b: seq<int>, bi: seq<int>)
    requires multiset(a) + multiset(b) == multiset(xs)
    requires AllIn(a, |bi|) && AllIn(b, |bi|)
    requires forall i :: 0 <= i < |a| ==> bi[a[i]] == 0
    requires forall i :: 0 <= i < |b| ==> bi[b[i]] != 0
    ensures forall x :: x in a ==> x in xs && x !in b
    ensures forall x :: x in b ==> x in xs
    ensures forall x :: x in xs ==> x in a || x in b
    ensures |a| + |b| == |xs|
  {
    forall x | x in a
      ensures x in xs && x !in b
    {
      assert x in multiset(xs);
      var i :| 0 <= i < |a| && a[i] == x;
      forall j | 0 <= j < |b|
        ensures b[j] != x
      {
        assert bi[b[j]] != 0;
      }
    }
    forall x | x in b
      ensures x in xs
    {
      assert x in multiset(xs);
    }
    forall x | x in xs
      ensures x in a || x in b
    {
      assert x in multiset(xs);
    }
    assert |multiset(a)| + |multiset(b)| == |multiset(xs)|;
  }

  /** After the split: block idx replaced by a, b appended, and the vertices
      of b owned by the new block. */
  ghost predicate AfterSplit(parts: seq<seq<int>>, n: nat, owner: seq<int>, idx: int, a: seq<int>, b: seq<int>,
                             parts': seq<seq<int>>, owner': seq<int>)
    requires |owner| == n && 0 <= idx < |parts|
  {
    && parts' == parts[idx := a] + [b]
    && |owner'| == n
    && forall v :: 0 <= v < n ==> owner'[v] == if v in b then |parts| else owner[v]
  }

  /** Replacing block idx by its two halves, the second appended as a new
      block, keeps the blocks a partition. */
  lemma SplitKeepsBlocks(parts: seq<seq<int>>, n: nat, owner: seq<int>, idx: int, a: seq<int>, b: seq<int>, bi: seq<int>,
                         parts': seq<seq<int>>, owner': seq<int>)
    requires Blocks(parts, n, owner) && 0 <= idx < |parts| && |bi| == n
    requires multiset(a) + multiset(b) == multiset(parts[idx])
    requires AllIn(a, n) && AllIn(b, n)
    requires forall i :: 0 <= i < |a| ==> bi[a[i]] == 0
    requires forall i :: 0 <= i < |b| ==> bi[b[i]] != 0
    requires a != [] && b != []
    requires AfterSplit(parts, n, owner, idx, a, b, parts', owner')
    ensures Blocks(parts', n, owner')
  {
    HalvesInBlock(parts[idx], a, b, bi);
    SubDistinct(a, parts[idx]);
    SubDistinct(b, parts[idx]);
    SplitCover(parts, n, owner, idx, a, b, parts', owner');
    SplitEntries(parts, n, owner, idx, a, b, parts', owner');
    SplitShape(parts, n, owner, idx, a, b, parts');
    SplitSize(parts, idx, a, b);
  }

  /** The halves replacing a block are nonempty and duplicate-free, like the
      blocks they join. */
  lemma SplitShape(parts: seq<seq<int>>, n: nat, owner: seq<int>, idx: int, a: seq<int>, b: seq<int>, parts': seq<seq<int>>)
    requires Blocks(parts, n, owner) && 0 <= idx < |parts|
    requires a != [] && b != [] && Distinct(a) && Distinct(b) && parts' == parts[idx := a] + [b]
    ensures forall c :: 0 <= c < |parts'| ==> parts'[c] != [] && Distinct(parts'[c])
  {
    forall c | 0 <= c < |parts'|
      ensures parts'[c] != [] && Distinct(parts'[c])
    {
      if c != idx && c != |parts| {
        assert parts'[c] == parts[c];
      }
    }
  }

  /** Splitting a block into two halves keeps the total size. */
  lemma SplitSize(parts: seq<seq<int>>, idx: int, a: seq<int>, b: seq<int>)
    requires 0 <= idx < |parts| && multiset(a) + multiset(b) == multiset(parts[idx])
    ensures TotalSize(parts[idx := a] + [b]) == TotalSize(parts)
  {
    var parts' := parts[idx := a] + [b];
    TotalSizeUpdate(parts, idx, a);
    assert parts'[..|parts'| - 1] == parts[idx := a];
    assert |multiset(a)| + |multiset(b)| == |multiset(parts[idx])|;
  }

  lemma SplitCover(parts: seq<seq<int>>, n: nat, owner: seq<int>, idx: int, a: seq<int>, b: seq<int>,
                   parts': seq<seq<int>>, owner': seq<int>)
    requires Blocks(parts, n, owner) && 0 <= idx < |parts|
    requires forall x :: x in parts[idx] ==> x in a || x in b
    requires AfterSplit(parts, n, owner, idx, a, b, parts', owner')
    ensures forall v :: 0 <= v < n ==> 0 <= owner'[v] < |parts'| && v in parts'[owner'[v]]
  {
    forall v | 0 <= v < n
      ensures 0 <= owner'[v] < |parts'| && v in parts'[owner'[v]]
    {
      if v !in b && owner[v] == idx {
        assert v in a;
      }
    }
  }

  lemma SplitEntries(parts: seq<seq<int>>, n: nat, owner: seq<int>, idx: int, a: seq<int>, b: seq<int>,
                     parts': seq<seq<int>>, owner': seq<int>)
    requires Blocks(parts, n, owner) && 0 <= idx < |parts|
    requires AllIn(a, n) && AllIn(b, n)
    requires forall x :: x in a ==> x in parts[idx] && x !in b
    requires forall x :: x in b ==> x in parts[idx]
    requires AfterSplit(parts, n, owner, idx, a, b, parts', owner')
    ensures forall c, i :: 0 <= c < |parts'| && 0 <= i < |parts'[c]| ==> 0 <= parts'[c][i] < n && owner'[parts'[c][i]] == c
  {
    forall c, i | 0 <= c < |parts'| && 0 <= i < |parts'[c]|
      ensures 0 <= parts'[c][i] < n && owner'[parts'[c][i]] == c
    {
      var x := parts'[c][i];
      if c == |parts| {
        assert x == b[i];
      } else if c == idx {
        assert x == a[i];
        assert x in a;
        var k :| 0 <= k < |parts[idx]| && parts[idx][k] == x;
      } else {
        assert x == parts[c][i];
        forall j | 0 <= j < |b|
          ensures b[j] != x
        {
          assert b[j] in parts[idx];
          var k :| 0 <= k < |parts[idx]| && parts[idx][k] == b[j];
        }
      }
    }
  }

  /** Some vertex carries label l. */
  predicate Used(part: seq<int>, l: int)
  {
    exists v :: 0 <= v < |part| && part[v] == l
  }

  /** The final labelling: every vertex gets the index of its block. */
  method LabelBlocks(parts: seq<seq<int>>, n: nat, ghost owner: seq<int>) returns (part: seq<int>)
    requires Blocks(parts, n, owner)
    ensures part == owner
  {
    part := seq(n, _ => 0);
    var b := 0;
    while b < |parts|
      invariant 0 <= b <= |parts| && |part| == n
      invariant forall v :: 0 <= v < n ==> part[v] == if owner[v] < b then owner[v] else 0
    {
      var j := 0;
      while j < |parts[b]|
        invariant 0 <= j <= |parts[b]| && |part| == n
        invariant forall v :: 0 <= v < n && owner[v] != b ==> part[v] == if owner[v] < b then owner[v] else 0
        invariant forall v :: 0 <= v < n && owner[v] == b ==> part[v] == (if v in parts[b][..j] then b else 0)
      {
        var v := parts[b][j];
        assert parts[b][..j + 1] == parts[b][..j] + [v];
        part := part[v := b];
        j := j + 1;
      }
      assert parts[b][..j] == parts[b];
      b := b + 1;
    }
  }

  /** One iteration: bisect block idx, keep the label-0 half in its place
      and append the other half; bi is the bisection's labelling and swaps
      the number of exchanges its passes made. */
  method SplitOnce(g: Graph, parts: seq<seq<int>>, ghost owner: seq<int>, idx: int, passes: int)
    returns (parts': seq<seq<int>>, ghost owner': seq<int>, ghost bi: seq<int>, ghost swaps: nat)
    requires WellFormed(g) && Blocks(parts, g.n, owner) && 0 <= idx < |parts| && |parts[idx]| >= 2
    ensures Blocks(parts', g.n, owner') && |parts'| == |parts| + 1
    ensures AllIn(parts[idx], g.n) && Bisected(g, parts[idx], passes, bi, swaps)
    ensures parts'[idx] == SplitOff(bi, parts[idx]).0 && parts'[|parts|] == SplitOff(bi, parts[idx]).1
    ensures forall b :: 0 <= b < |parts| && b != idx ==> parts'[b] == parts[b]
    ensures |parts'[idx]| == (|parts[idx]| + 1) / 2 && |parts'[|parts|]| == |parts[idx]| / 2
  {
    var b;
    b, swaps := BisectionOnSubset(g, parts[idx], passes);
    bi := b;
    parts', owner' := Halve(parts, g.n, owner, idx, b);
  }

  /** Block idx keeps its label-0 half in place and its label-1 half
      becomes a new last block. */
  method Halve(parts: seq<seq<int>>, n: nat, ghost owner: seq<int>, idx: int, b: seq<int>)
    returns (parts': seq<seq<int>>, ghost owner': seq<int>)
    requires Blocks(parts, n, owner) && 0 <= idx < |parts| && |parts[idx]| >= 2 && |b| == n
    requires forall i :: 0 <= i < |parts[idx]| ==> b[parts[idx][i]] == 0 || b[parts[idx][i]] == 1
    requires CountLabel(b, parts[idx], 0) == (|parts[idx]| + 1) / 2
    ensures Blocks(parts', n, owner') && |parts'| == |parts| + 1
    ensures parts'[idx] == SplitOff(b, parts[idx]).0 && parts'[|parts|] == SplitOff(b, parts[idx]).1
    ensures forall c :: 0 <= c < |parts| && c != idx ==> parts'[c] == parts[c]
    ensures |parts'[idx]| == (|parts[idx]| + 1) / 2 && |parts'[|parts|]| == |parts[idx]| / 2
  {
    var subset := parts[idx];
    var ab := SplitOff(b, subset);
    SplitHalves(b, subset);
    owner' := seq(n, v requires 0 <= v < n => if v in ab.1 then |parts| else owner[v]);
    parts' := parts[idx := ab.0] + [ab.1];
    assert parts'[idx] == ab.0 && parts'[|parts|] == ab.1;
    assert forall c :: 0 <= c < |parts| && c != idx ==> parts'[c] == parts[c];
    SplitKeepsBlocks(parts, n, owner, idx, ab.0, ab.1, b, parts', owner');
  }

  /** One step of the splitting loop, from the blocks before to the blocks
      after: block idx is the largest (the earliest on ties) and has at least
      two vertices; it keeps the 0-side of its bisection bi, made with swaps
      exchanges, and the 1-side is appended; no other block changes. */
  ghost predicate SplitStep(g: Graph, passes: int, before: seq<seq<int>>, after: seq<seq<int>>, idx: int, bi: seq<int>, swaps: nat)
    requires WellFormed(g)
  {
    && 0 <= idx < |before| && |before[idx]| >= 2
    && (forall b :: 0 <= b < |before| ==> |before[b]| <= |before[idx]|)
    && (forall b :: 0 <= b < idx ==> |before[b]| < |before[idx]|)
    && AllIn(before[idx], g.n) && |bi| == g.n && Bisected(g, before[idx], passes, bi, swaps)
    && |after| == |before| + 1
    && after[idx] == SplitOff(bi, before[idx]).0 && after[|before|] == SplitOff(bi, before[idx]).1
    && (forall b :: 0 <= b < |before| && b != idx ==> after[b] == before[b])
  }

  /** The splitting history: hist[0] is the single block of all vertices and
      each hist[i + 1] comes from hist[i] by step i, recorded by idxs[i],
      bis[i] and sws[i]. */
  ghost predicate History(g: Graph, passes: int, hist: seq<seq<seq<int>>>, idxs: seq<int>, bis: seq<seq<int>>, sws: seq<nat>)
    requires WellFormed(g)
  {
    && |hist| == |idxs| + 1 && |bis| == |idxs| && |sws| == |idxs|
    && hist[0] == [AllVertices(g.n)]
    && forall i :: 0 <= i < |idxs| ==> SplitStep(g, passes, hist[i], hist[i + 1], idxs[i], bis[i], sws[i])
  }

  /** A recorded step extends the history. */
  lemma HistoryStep(g: Graph, passes: int, hist: seq<seq<seq<int>>>, idxs: seq<int>, bis: seq<seq<int>>, sws: seq<nat>,
                    after: seq<seq<int>>, idx: int, bi: seq<int>, swaps: nat)
    requires WellFormed(g) && History(g, passes, hist, idxs, bis, sws)
    requires SplitStep(g, passes, hist[|hist| - 1], after, idx, bi, swaps)
    ensures History(g, passes, hist + [after], idxs + [idx], bis + [bi], sws + [swaps])
  {
    var hist', idxs', bis', sws' := hist + [after], idxs + [idx], bis + [bi], sws + [swaps];
    forall i | 0 <= i < |idxs'|
      ensures SplitStep(g, passes, hist'[i], hist'[i + 1], idxs'[i], bis'[i], sws'[i])
    {
      if i < |idxs| {
        assert hist'[i] == hist[i] && hist'[i + 1] == hist[i + 1];
        assert idxs'[i] == idxs[i] && bis'[i] == bis[i] && sws'[i] == sws[i];
      }
    }
  }

  /** The splitting loop: starting from one block of all vertices, bisect
      the largest block until there are k blocks or none has two vertices;
      the result is min(k, n) blocks partitioning the vertex set, reached
      through the recorded history of splits. */
  method SplitBlocks(g: Graph, k: int, passes: int)
    returns (parts: seq<seq<int>>, ghost owner: seq<int>,
             ghost hist: seq<seq<seq<int>>>, ghost idxs: seq<int>, ghost bis: seq<seq<int>>, ghost sws: seq<nat>)
    requires WellFormed(g) && g.n > 0 && k >= 1
    ensures Blocks(parts, g.n, owner)
    ensures |parts| == if k < g.n then k else g.n
    ensures History(g, passes, hist, idxs, bis, sws) && hist[|hist| - 1] == parts
  {
    var n := g.n;
    parts := [AllVertices(n)];
    owner := seq(n, _ => 0);
    hist, idxs, bis, sws := [parts], [], [], [];
    var stop := false;
    while |parts| < k && !stop
      invariant 1 <= |parts| <= k
      invariant Blocks(parts, n, owner)
      invariant stop ==> |parts| == n
      invariant History(g, passes, hist, idxs, bis, sws) && hist[|hist| - 1] == parts
      decreases k - |parts|, if stop then 0 else 1
    {
      var parts';
      parts', owner, stop, hist, idxs, bis, sws := SplitNext(g, passes, parts, owner, hist, idxs, bis, sws);
      parts := parts';
    }
    TotalSizeBounds(parts);
  }

  /** One iteration of the splitting loop: stop when the largest block has
      a single vertex (then every block has one), otherwise split it and
      record the step. */
  method SplitNext(g: Graph, passes: int, parts: seq<seq<int>>, ghost owner: seq<int>,
                   ghost hist: seq<seq<seq<int>>>, ghost idxs: seq<int>, ghost bis: seq<seq<int>>, ghost sws: seq<nat>)
    returns (parts': seq<seq<int>>, ghost owner': seq<int>, stop: bool,
             ghost hist': seq<seq<seq<int>>>, ghost idxs': seq<int>, ghost bis': seq<seq<int>>, ghost sws': seq<nat>)
    requires WellFormed(g) && |parts| >= 1 && Blocks(parts, g.n, owner)
    requires History(g, passes, hist, idxs, bis, sws) && hist[|hist| - 1] == parts
    ensures Blocks(parts', g.n, owner')
    ensures History(g, passes, hist', idxs', bis', sws') && hist'[|hist'| - 1] == parts'
    ensures stop ==> parts' == parts && |parts| == g.n
    ensures !stop ==> |parts'| == |parts| + 1
  {
    var idx := LargestBlock(parts);
    if |parts[idx]| <= 1 {
      TotalSizeBounds(parts);
      return parts, owner, true, hist, idxs, bis, sws;
    }
    ghost var bi, swaps;
    parts', owner', bi, swaps := SplitOnce(g, parts, owner, idx, passes);
    HistoryStep(g, passes, hist, idxs, bis, sws, parts', idx, bi, swaps);
    hist', idxs', bis', sws' := hist + [parts'], idxs + [idx], bis + [bi], sws + [swaps];
    stop := false;
  }

  /** part is the outcome of recursive bisection into m blocks: the history
      of splits ends in m blocks and part labels every vertex with the index
      of its block. */
  ghost predicate Bisects(g: Graph, passes: int, hist: seq<seq<seq<int>>>, idxs: seq<int>, bis: seq<seq<int>>, sws: seq<nat>, part: seq<int>, m: int)
    requires WellFormed(g)
  {
    && History(g, passes, hist, idxs, bis, sws)
    && |hist[|hist| - 1]| == m && Blocks(hist[|hist| - 1], g.n, part)
  }

  /** `solve`: n = 0 gives the empty result, k <= 1 a single block; otherwise
      min(k, n) blocks labelled 0..min(k, n)-1, each label used, and the cut
      of that labelling. */
  method Solve(g: Graph, k: int, passes: int)
    returns (res: PartitionResult, ghost hist: seq<seq<seq<int>>>, ghost idxs: seq<int>, ghost bis: seq<seq<int>>, ghost sws: seq<nat>)
    requires WellFormed(g)
    ensures g.n == 0 ==> res == EmptyResult
    ensures g.n > 0 ==> |res.part| == g.n && res.separator == [] && res.score == 0
    ensures g.n > 0 && k <= 1 ==> (forall v :: 0 <= v < g.n ==> res.part[v] == 0) && res.cutWeight == 0
    ensures g.n > 0 ==> var m := if k <= 1 then 1 else if k < g.n then k else g.n;
      && (forall v :: 0 <= v < g.n ==> 0 <= res.part[v] < m)
      && (forall l :: 0 <= l < m ==> Used(res.part, l))
    ensures g.n > 0 ==> res.cutWeight == CutWeight(g, res.part)
    ensures g.n > 0 && k > 1 ==> Bisects(g, passes, hist, idxs, bis, sws, res.part, if k < g.n then k else g.n)
  {
    hist, idxs, bis, sws := [], [], [], [];
    if g.n == 0 {
      return EmptyResult, [], [], [], [];
    }
    var n := g.n;
    var kk := if k < 1 then 1 else k;
    if kk == 1 {
      res := PartitionResult(seq(n, _ => 0), [], 0, 0);
      CutUniform(g, res.part, 0);
      assert res.part[0] == 0;
      assert Used(res.part, 0);
      return;
    }
    var parts;
    ghost var owner;
    parts, owner, hist, idxs, bis, sws := SplitBlocks(g, kk, passes);
    var part := LabelBlocks(parts, n, owner);
    forall l | 0 <= l < |parts|
      ensures Used(part, l)
    {
      var v := parts[l][0];
      assert owner[v] == l;
    }
    res := PartitionResult(part, [], CutWeight(g, part), 0);
  }
}

=== FILE: multilevel.dfy ===
/** `MultilevelKWayPartitionSolver::solve`: coarsen the graph level by level,
    partition the coarsest graph with the recursive-bisection k-way solver,
    then project the labels back up the levels, refining at each. */
module Multilevel {
  import opened Graphs
  import opened Cuts
  import opened Ordering
  import opened Coarsen
  import opened Refine
  import KWay

  /** The number of blocks actually used: k_ clamped to 1..n. */
  function Clamp(k: int, n: nat): (c: int)
    requires n >= 1
    ensures 1 <= c <= n
    ensures c == k || (k < 1 && c == 1) || (k > n && c == n)
  {
    if k < 1 then 1 else if k < n then k else n
  }

  /** The level hierarchy: graphs[i + 1] is the coarsening of graphs[i]
      through maps[i], undertaken only while graphs[i] had more than
      minCoarse vertices and kept only when it shrank. */
  ghost predicate Hierarchy(graphs: seq<Graph>, maps: seq<seq<int>>, minCoarse: int)
  {
    && |graphs| == |maps| + 1
    && (forall i :: 0 <= i < |graphs| ==> WellFormed(graphs[i]))
    && (forall i :: 1 <= i < |graphs| ==> Undirected(graphs[i]))
    && (forall i :: 0 <= i < |maps| ==> Level(graphs[i], maps[i], graphs[i + 1], minCoarse))
  }

  /** One coarsening step of the hierarchy: cmap is the greedy heavy-edge
      matching of fine, and coarse its coarse graph, smaller than fine and
      with the same cuts. */
  ghost predicate Level(fine: Graph, cmap: seq<int>, coarse: Graph, minCoarse: int)
  {
    && WellFormed(fine) && WellFormed(coarse)
    && Matching(fine, cmap, coarse.n)
    && (exists order, turn, mate :: GreedyCoarsening(fine, cmap, coarse.n, order, turn, mate))
    && coarse.n < fine.n <= 2 * coarse.n && fine.n > minCoarse
    && forall p: seq<int> :: |p| == coarse.n ==> CutWeight(coarse, p) == CutWeight(fine, Compose(p, cmap))
  }

  /** Coarsening h pairs no two vertices: its greedy heavy-edge matching
      gives every vertex a coarse vertex of its own. */
  ghost predicate Stalls(h: Graph)
    requires WellFormed(h)
  {
    exists cmap, order, turn, mate :: GreedyCoarsening(h, cmap, h.n, order, turn, mate)
  }

  /** cmap is what coarsening g produces: the greedy heavy-edge matching
      along g's descending-degree order, with cn coarse vertices. */
  ghost predicate GreedyCoarsening(g: Graph, cmap: seq<int>, cn: nat, order: seq<int>, turn: seq<int>, mate: seq<int>)
    requires WellFormed(g)
  {
    && AllIn(order, g.n) && multiset(order) == multiset(AllVertices(g.n))
    && (forall i, j :: 0 <= i < j < |order| ==> !Precedes(DegreeKey(g), order[j], order[i]))
    && Matching(g, cmap, cn)
    && Greedy(g, order, cmap, cn, turn, mate)
  }

  /** The coarsening loop: at most maxLevels steps, while the current graph
      has more than minCoarse vertices, stopping early when a step does not
      shrink it. It ends after maxLevels steps, at a graph of at most
      minCoarse vertices, or stalled: the coarsening of the last graph
      (witnessed by sMap and the greedy record sOrder, sTurn, sMate) pairs
      no two vertices. */
  method BuildLevels(g: Graph, maxLevels: int, minCoarse: int)
    returns (graphs: seq<Graph>, maps: seq<seq<int>>, stalled: bool,
             ghost sMap: seq<int>, ghost sOrder: seq<int>, ghost sTurn: seq<int>, ghost sMate: seq<int>)
    requires WellFormed(g)
    ensures Hierarchy(graphs, maps, minCoarse) && graphs[0] == g
    ensures |maps| <= maxLevels || |maps| == 0
    ensures |maps| >= maxLevels || graphs[|graphs| - 1].n <= minCoarse || stalled
    ensures stalled ==>
      |maps| < maxLevels && graphs[|graphs| - 1].n > minCoarse && GreedyCoarsening(graphs[|graphs| - 1], sMap, graphs[|graphs| - 1].n, sOrder, sTurn, sMate)
  {
    graphs, maps := [g], [];
    stalled := false;
    sMap, sOrder, sTurn, sMate := [], [], [], [];
    var level := 0;
    while level < maxLevels && !stalled && graphs[|graphs| - 1].n > minCoarse
      invariant Hierarchy(graphs, maps, minCoarse) && graphs[0] == g
      invariant |maps| <= level
      invariant !stalled ==> |maps| == level
      invariant level <= maxLevels || level == 0
      invariant stalled ==>
        |maps| < maxLevels && graphs[|graphs| - 1].n > minCoarse && GreedyCoarsening(graphs[|graphs| - 1], sMap, graphs[|graphs| - 1].n, sOrder, sTurn, sMate)
      decreases maxLevels - level
    {
      var last := graphs[|graphs| - 1];
      var coarse, cmap, shrank;
      ghost var order, turn, mate;
      coarse, cmap, shrank, order, turn, mate := CoarsenLevel(last, minCoarse);
      if !shrank {
        stalled := true;
        sMap, sOrder, sTurn, sMate := cmap, order, turn, mate;
      } else {
        HierarchyStep(graphs, maps, minCoarse, cmap, coarse);
        maps := maps + [cmap];
        graphs := graphs + [coarse];
      }
      level := level + 1;
    }
  }

  /** One iteration of the coarsening loop on the current last level:
      either the coarsening shrinks it, giving the next level, or it pairs
      no two vertices. */
  method CoarsenLevel(last: Graph, minCoarse: int)
    returns (coarse: Graph, cmap: seq<int>, shrank: bool, ghost order: seq<int>, ghost turn: seq<int>, ghost mate: seq<int>)
    requires WellFormed(last) && last.n > minCoarse
    ensures shrank ==> Level(last, cmap, coarse, minCoarse) && Undirected(coarse)
    ensures !shrank ==> GreedyCoarsening(last, cmap, last.n, order, turn, mate)
  {
    coarse, cmap, order, turn, mate := CoarsenGraph(last);
    shrank := coarse.n < last.n;
    assert GreedyCoarsening(last, cmap, coarse.n, order, turn, mate);
  }

  /** A coarsening of the last level that shrinks it extends the hierarchy. */
  lemma HierarchyStep(graphs: seq<Graph>, maps: seq<seq<int>>, minCoarse: int, cmap: seq<int>, coarse: Graph)
    requires Hierarchy(graphs, maps, minCoarse)
    requires Level(graphs[|graphs| - 1], cmap, coarse, minCoarse) && Undirected(coarse)
    ensures Hierarchy(graphs + [coarse], maps + [cmap], minCoarse)
  {
    var graphs', maps' := graphs + [coarse], maps + [cmap];
    forall i | 0 <= i < |maps'|
      ensures Level(graphs'[i], maps'[i], graphs'[i + 1], minCoarse)
    {
      if i < |maps| {
        assert graphs'[i] == graphs[i] && graphs'[i + 1] == graphs[i + 1] && maps'[i] == maps[i];
      }
    }
  }

  /** Projection keeps every label in use: the map is onto the coarse
      vertices. */
  lemma ComposeUses(p: seq<int>, fine: Graph, cmap: seq<int>, l: int)
    requires WellFormed(fine) && Matching(fine, cmap, |p|) && l in p
    ensures l in Compose(p, cmap)
  {
    var c :| 0 <= c < |p| && p[c] == l;
    assert Hit(cmap, c);
    var v :| 0 <= v < |cmap| && cmap[v] == c;
    assert Compose(p, cmap)[v] == l;
  }

  /** Refinement empties no block when every block starts non-empty and
      the lower end of the window is at least 1. */
  lemma RefineUses(part0: seq<int>, part: seq<int>, k: int, n: nat, l: int)
    requires k >= 1 && n >= k && Balanced(part0, part, k, n) && 0 <= l < k && l in part0
    ensures l in part
  {
    assert multiset(part0)[l] >= 1;
    assert Lo(n, k) >= 1;
  }

  /** part is what refining, on g, the projection of the coarse labels p
      through cmap gives (the promise of RefinePartition): labels kept in
      0..k-1, block sizes within the window, an undirected graph's cut
      lowered by at least moves, and either no improving move left or every
      one of the maxPasses passes made a move. */
  ghost predicate RefinedFrom(g: Graph, cmap: seq<int>, p: seq<int>, part: seq<int>, k: int, maxPasses: int, moves: nat, converged: bool)
    requires WellFormed(g) && k >= 2
  {
    && |cmap| == g.n && (forall v :: 0 <= v < g.n ==> 0 <= cmap[v] < |p|)
    && var part0 := Compose(p, cmap);
       && |part| == g.n && Relabelled(part0, part, k) && Balanced(part0, part, k, g.n)
       && (Undirected(g) ==> CutWeight(g, part) + moves <= CutWeight(g, part0))
       && (converged ==> NoImprovingMove(g, part, k))
       && (!converged ==> moves >= maxPasses)
  }

  /** The labels of the levels below the coarsest down to level lo: each
      levels[j - 1] is the refinement of the projection of levels[j], with
      moves[j - 1] moves and converged flag conv[j - 1]. */
  ghost predicate Refinements(graphs: seq<Graph>, maps: seq<seq<int>>, k: int, maxPasses: int,
                              levels: seq<seq<int>>, moves: seq<nat>, conv: seq<bool>, lo: int)
    requires k >= 2 && forall i :: 0 <= i < |graphs| ==> WellFormed(graphs[i])
  {
    && |levels| == |graphs| && |maps| == |graphs| - 1 && |moves| == |maps| && |conv| == |maps|
    && forall j :: 1 <= j < |graphs| && lo < j ==>
         RefinedFrom(graphs[j - 1], maps[j - 1], levels[j], levels[j - 1], k, maxPasses, moves[j - 1], conv[j - 1])
  }

  /** Recording the refinement of level lv - 1 extends the record down one
      level. */
  lemma RefinementsStep(graphs: seq<Graph>, maps: seq<seq<int>>, k: int, maxPasses: int,
                        levels: seq<seq<int>>, moves: seq<nat>, conv: seq<bool>, lv: int,
                        part: seq<int>, mv: nat, c: bool)
    requires k >= 2 && (forall i :: 0 <= i < |graphs| ==> WellFormed(graphs[i]))
    requires Refinements(graphs, maps, k, maxPasses, levels, moves, conv, lv) && 0 < lv < |graphs|
    requires RefinedFrom(graphs[lv - 1], maps[lv - 1], levels[lv], part, k, maxPasses, mv, c)
    ensures Refinements(graphs, maps, k, maxPasses, levels[lv - 1 := part], moves[lv - 1 := mv], conv[lv - 1 := c], lv - 1)
  {
    var levels', moves', conv' := levels[lv - 1 := part], moves[lv - 1 := mv], conv[lv - 1 := c];
    forall j | 1 <= j < |graphs| && lv - 1 < j
      ensures RefinedFrom(graphs[j - 1], maps[j - 1], levels'[j], levels'[j - 1], k, maxPasses, moves'[j - 1], conv'[j - 1])
    {
      if j > lv {
        assert levels'[j] == levels[j] && levels'[j - 1] == levels[j - 1];
        assert moves'[j - 1] == moves[j - 1] && conv'[j - 1] == conv[j - 1];
      }
    }
  }

  /** The projection-and-refinement loop from the coarsest level down to
      the input. Each projection keeps the cut and each refinement of an
      undirected level lowers it, so the result cuts no more than the
      coarsest partition. levels records the labels of every level, from
      base at the coarsest to part at the input, each the refinement of the
      projection of the one above. */
  method Uncoarsen(graphs: seq<Graph>, maps: seq<seq<int>>, minCoarse: int, k: int, refinePasses: int, base: seq<int>)
    returns (part: seq<int>, ghost levels: seq<seq<int>>, ghost moves: seq<nat>, ghost conv: seq<bool>)
    requires Hierarchy(graphs, maps, minCoarse) && k >= 2
    requires graphs[|graphs| - 1].n >= k && |base| == graphs[|graphs| - 1].n
    requires forall v :: 0 <= v < |base| ==> 0 <= base[v] < k
    requires forall l :: 0 <= l < k ==> l in base
    ensures |part| == graphs[0].n
    ensures forall v :: 0 <= v < |part| ==> 0 <= part[v] < k
    ensures forall l :: 0 <= l < k ==> l in part
    ensures Undirected(graphs[0]) ==> CutWeight(graphs[0], part) <= CutWeight(graphs[|graphs| - 1], base)
    ensures Refinements(graphs, maps, k, refinePasses, levels, moves, conv, 0)
    ensures levels[0] == part && levels[|graphs| - 1] == base
  {
    var lv := |graphs| - 1;
    part := base;
    levels := seq(|graphs|, j => if j == lv then base else []);
    moves, conv := seq(|maps|, _ => 0), seq(|maps|, _ => false);
    while lv > 0
      invariant 0 <= lv < |graphs| && |part| == graphs[lv].n && graphs[lv].n >= k
      invariant forall v :: 0 <= v < |part| ==> 0 <= part[v] < k
      invariant forall l :: 0 <= l < k ==> l in part
      invariant Undirected(graphs[lv]) ==> CutWeight(graphs[lv], part) <= CutWeight(graphs[|graphs| - 1], base)
      invariant Refinements(graphs, maps, k, refinePasses, levels, moves, conv, lv)
      invariant levels[lv] == part && levels[|graphs| - 1] == base
    {
      part, levels, moves, conv := Descend(graphs, maps, minCoarse, k, refinePasses, base, lv, part, levels, moves, conv);
      lv := lv - 1;
    }
  }

  /** One iteration of the loop: from the labels of level lv to those of
      level lv - 1, recorded in levels. */
  method Descend(graphs: seq<Graph>, maps: seq<seq<int>>, minCoarse: int, k: int, refinePasses: int, base: seq<int>,
                 lv: int, part: seq<int>, ghost levels: seq<seq<int>>, ghost moves: seq<nat>, ghost conv: seq<bool>)
    returns (part': seq<int>, ghost levels': seq<seq<int>>, ghost moves': seq<nat>, ghost conv': seq<bool>)
    requires Hierarchy(graphs, maps, minCoarse) && k >= 2
    requires 0 < lv < |graphs| && |part| == graphs[lv].n && graphs[lv].n >= k && |base| == graphs[|graphs| - 1].n
    requires forall v :: 0 <= v < |part| ==> 0 <= part[v] < k
    requires forall l :: 0 <= l < k ==> l in part
    requires Undirected(graphs[lv]) ==> CutWeight(graphs[lv], part) <= CutWeight(graphs[|graphs| - 1], base)
    requires Refinements(graphs, maps, k, refinePasses, levels, moves, conv, lv)
    requires levels[lv] == part && levels[|graphs| - 1] == base
    ensures |part'| == graphs[lv - 1].n && graphs[lv - 1].n >= k
    ensures forall v :: 0 <= v < |part'| ==> 0 <= part'[v] < k
    ensures forall l :: 0 <= l < k ==> l in part'
    ensures Undirected(graphs[lv - 1]) ==> CutWeight(graphs[lv - 1], part') <= CutWeight(graphs[|graphs| - 1], base)
    ensures Refinements(graphs, maps, k, refinePasses, levels', moves', conv', lv - 1)
    ensures levels'[lv - 1] == part' && levels'[|graphs| - 1] == base
  {
    assert Level(graphs[lv - 1], maps[lv - 1], graphs[lv], minCoarse);
    var mv, converged;
    part', mv, converged := Project(graphs[lv - 1], maps[lv - 1], graphs[lv], minCoarse, k, refinePasses, part);
    if Undirected(graphs[lv - 1]) {
      assert Undirected(graphs[lv]);
    }
    RefinementsStep(graphs, maps, k, refinePasses, levels, moves, conv, lv, part', mv, converged);
    levels', moves', conv' := levels[lv - 1 := part'], moves[lv - 1 := mv], conv[lv - 1 := converged];
  }

  /** One level of the loop: project the coarse labels through cmap and
      refine them on the finer graph. Every label stays in use and the cut
      of an undirected finer graph does not rise. */
  method Project(fine: Graph, cmap: seq<int>, coarse: Graph, minCoarse: int, k: int, refinePasses: int, p: seq<int>)
    returns (part: seq<int>, moves: nat, converged: bool)
    requires Level(fine, cmap, coarse, minCoarse) && k >= 2 && |p| == coarse.n && coarse.n >= k
    requires forall v :: 0 <= v < |p| ==> 0 <= p[v] < k
    requires forall l :: 0 <= l < k ==> l in p
    ensures RefinedFrom(fine, cmap, p, part, k, refinePasses, moves, converged)
    ensures |part| == fine.n && fine.n >= k
    ensures forall v :: 0 <= v < |part| ==> 0 <= part[v] < k
    ensures forall l :: 0 <= l < k ==> l in part
    ensures Undirected(fine) ==> CutWeight(fine, part) <= CutWeight(coarse, p)
  {
    var projected := Compose(p, cmap);
    forall l | 0 <= l < k
      ensures l in projected
    {
      ComposeUses(p, fine, cmap, l);
    }
    part, moves, converged := RefinePartition(fine, projected, k, refinePasses);
    forall l | 0 <= l < k
      ensures l in part
    {
      RefineUses(projected, part, k, fine.n, l);
    }
  }

  /** The coarsening threshold `max(2 * k, 20)`. */
  function MinCoarse(k: int): int
  {
    if 2 * k > 20 then 2 * k else 20
  }

  /** The first two stages of `solve` for 1 < k <= n: the level hierarchy,
      built until max_levels levels, the min_coarse floor or a coarsening
      that pairs no two vertices, and the recursive-bisection partition base
      of its coarsest level, with its cut. */
  method CoarsestPartition(g: Graph, k: int, bisectionPasses: int, maxLevels: int)
    returns (graphs: seq<Graph>, maps: seq<seq<int>>, base: seq<int>, baseCut: int)
    requires WellFormed(g) && 2 <= k <= g.n
    ensures Hierarchy(graphs, maps, MinCoarse(k)) && graphs[0] == g
    ensures |maps| <= maxLevels || |maps| == 0
    ensures |base| == graphs[|graphs| - 1].n && graphs[|graphs| - 1].n >= k
    ensures forall v :: 0 <= v < |base| ==> 0 <= base[v] < k
    ensures forall l :: 0 <= l < k ==> l in base
    ensures baseCut == CutWeight(graphs[|graphs| - 1], base)
    ensures |maps| >= maxLevels || graphs[|graphs| - 1].n <= MinCoarse(k) || Stalls(graphs[|graphs| - 1])
    ensures exists hist, idxs, bis, sws {:trigger KWay.Bisects(graphs[|graphs| - 1], bisectionPasses, hist, idxs, bis, sws, base, k)} ::
      KWay.Bisects(graphs[|graphs| - 1], bisectionPasses, hist, idxs, bis, sws, base, k)
  {
    var minCoarse := MinCoarse(k);
    var stalled;
    ghost var sMap, sOrder, sTurn, sMate;
    graphs, maps, stalled, sMap, sOrder, sTurn, sMate := BuildLevels(g, maxLevels, minCoarse);
    var last := graphs[|graphs| - 1];
    if |maps| > 0 {
      assert Level(graphs[|maps| - 1], maps[|maps| - 1], last, minCoarse);
    }
    var baseRes;
    ghost var hist, idxs, bis, sws;
    baseRes, hist, idxs, bis, sws := KWay.Solve(last, k, bisectionPasses);
    forall l | 0 <= l < k
      ensures l in baseRes.part
    {
      assert KWay.Used(baseRes.part, l);
    }
    baseCut := baseRes.cutWeight;
    base := baseRes.part;
    assert KWay.Bisects(last, bisectionPasses, hist, idxs, bis, sws, base, k);
    if stalled {
      assert GreedyCoarsening(last, sMap, last.n, sOrder, sTurn, sMate);
    }
  }

  /** `solve`: an empty graph gives the empty result; otherwise every vertex
      gets one of exactly k = clamp(k_, 1, n) labels, each label used, with
      the reported cut. For k > 1, graphs and maps are the level hierarchy,
      built until max_levels levels, the min_coarse floor or a coarsening
      that pairs no two vertices; base is the recursive-bisection partition
      of the coarsest level and baseCut its cut; levels are the labels of
      every level, each refined from the projection of the one above, the
      input's being the result. On an undirected graph the reported cut is
      at most baseCut. */
  method Solve(g: Graph, k0: int, bisectionPasses: int, refinePasses: int, maxLevels: int)
    returns (res: PartitionResult, baseCut: int, ghost graphs: seq<Graph>, ghost maps: seq<seq<int>>, ghost base: seq<int>,
             ghost levels: seq<seq<int>>, ghost moves: seq<nat>, ghost conv: seq<bool>)
    requires WellFormed(g)
    ensures g.n == 0 ==> res == EmptyResult
    ensures g.n > 0 ==> |res.part| == g.n && res.separator == [] && res.score == 0
    ensures g.n > 0 ==> forall v :: 0 <= v < g.n ==> 0 <= res.part[v] < Clamp(k0, g.n)
    ensures g.n > 0 ==> forall l :: 0 <= l < Clamp(k0, g.n) ==> l in res.part
    ensures g.n > 0 ==> res.cutWeight == CutWeight(g, res.part)
    ensures g.n > 0 && Clamp(k0, g.n) == 1 ==> res.cutWeight == 0 && baseCut == 0
    ensures g.n > 0 && Clamp(k0, g.n) > 1 ==>
      && Hierarchy(graphs, maps, MinCoarse(Clamp(k0, g.n))) && graphs[0] == g
      && (|maps| <= maxLevels || |maps| == 0)
      && |base| == graphs[|graphs| - 1].n
      && (forall v :: 0 <= v < |base| ==> 0 <= base[v] < Clamp(k0, g.n))
      && (forall l :: 0 <= l < Clamp(k0, g.n) ==> l in base)
      && baseCut == CutWeight(graphs[|graphs| - 1], base)
      && (|maps| >= maxLevels || graphs[|graphs| - 1].n <= MinCoarse(Clamp(k0, g.n)) || Stalls(graphs[|graphs| - 1]))
      && (exists hist, idxs, bis, sws {:trigger KWay.Bisects(graphs[|graphs| - 1], bisectionPasses, hist, idxs, bis, sws, base, Clamp(k0, g.n))} :: KWay.Bisects(graphs[|graphs| - 1], bisectionPasses, hist, idxs, bis, sws, base, Clamp(k0, g.n)))
      && Refinements(graphs, maps, Clamp(k0, g.n), refinePasses, levels, moves, conv, 0)
      && levels[0] == res.part && levels[|graphs| - 1] == base
    ensures Undirected(g) ==> res.cutWeight <= baseCut
  {
    baseCut, graphs, maps, base := 0, [g], [], [];
    levels, moves, conv := [], [], [];
    if g.n == 0 {
      res := EmptyResult;
      return;
    }
    var k := Clamp(k0, g.n);
    if k == 1 {
      res := PartitionResult(seq(g.n, _ => 0), [], 0, 0);
      CutUniform(g, res.part, 0);
      assert res.part[0] == 0;
      return;
    }
    var gs, ms, bp;
    gs, ms, bp, baseCut := CoarsestPartition(g, k, bisectionPasses, maxLevels);
    graphs, maps, base := gs, ms, bp;
    var part;
    part, levels, moves, conv := Uncoarsen(gs, ms, MinCoarse(k), k, refinePasses, bp);
    res := PartitionResult(part, [], CutWeight(g, part), 0);
  }
}

=== FILE: ordering.dfy ===
/** The deterministic vertex orders of the toolkit: `order_by_internal_degree`
    (GraphUtils.h) and the degree order that seeds heavy-edge matching. Both
    sort by descending key with ties broken by ascending vertex index. */
module Ordering {
  import opened Graphs

  ghost predicate AllIn(xs: seq<int>, n: int)
  {
    forall i :: 0 <= i < |xs| ==> 0 <= xs[i] < n
  }

  ghost predicate Distinct(xs: seq<int>)
  {
    forall i, j :: 0 <= i < j < |xs| ==> xs[i] != xs[j]
  }

  /** a goes strictly before b: larger key first, then smaller index. */
  predicate Precedes(key: seq<int>, a: int, b: int)
    requires 0 <= a < |key| && 0 <= b < |key|
  {
    key[a] > key[b] || (key[a] == key[b] && a < b)
  }

  /** No element is strictly preceded by a later one. */
  ghost predicate SortedBy(key: seq<int>, xs: seq<int>)
    requires AllIn(xs, |key|)
  {
    forall i, j :: 0 <= i < j < |xs| ==> !Precedes(key, xs[j], xs[i])
  }

  /** Inserts x before the first element that x precedes or equals. */
  function Insert(key: seq<int>, x: int, xs: seq<int>): (r: seq<int>)
    requires AllIn(xs, |key|) && 0 <= x < |key|
    requires SortedBy(key, xs)
    ensures AllIn(r, |key|)
    ensures multiset(r) == multiset(xs) + multiset{x}
    ensures SortedBy(key, r)
  {
    if xs == [] then [x]
    else if Precedes(key, xs[0], x) then
      SortedTail(key, xs);
      var rest := Insert(key, x, xs[1..]);
      InsertAfterHead(key, x, xs, rest);
      ConsSorted(key, xs[0], rest);
      [xs[0]] + rest
    else
      InsertAtHead(key, x, xs);
      ConsSorted(key, x, xs);
      [x] + xs
  }

  lemma SortedTail(key: seq<int>, xs: seq<int>)
    requires AllIn(xs, |key|) && |xs| > 0 && SortedBy(key, xs)
    ensures AllIn(xs[1..], |key|) && SortedBy(key, xs[1..])
    ensures multiset(xs) == multiset{xs[0]} + multiset(xs[1..])
  {
    assert xs == [xs[0]] + xs[1..];
  }

  /** When the head precedes x, nothing of the insertion into the tail
      precedes the head. */
  lemma InsertAfterHead(key: seq<int>, x: int, xs: seq<int>, rest: seq<int>)
    requires AllIn(xs, |key|) && 0 <= x < |key| && |xs| > 0 && SortedBy(key, xs) && Precedes(key, xs[0], x)
    requires AllIn(rest, |key|) && multiset(rest) == multiset(xs[1..]) + multiset{x}
    ensures forall k :: 0 <= k < |rest| ==> !Precedes(key, rest[k], xs[0])
  {
    forall k | 0 <= k < |rest|
      ensures !Precedes(key, rest[k], xs[0])
    {
      assert rest[k] in multiset(rest);
      if rest[k] != x {
        assert rest[k] in xs[1..];
        var j :| 0 <= j < |xs[1..]| && xs[1..][j] == rest[k];
        assert xs[j + 1] == rest[k];
      }
    }
  }

  /** When x is not preceded by the head, it is preceded by nothing in a
      sorted sequence. */
  lemma InsertAtHead(key: seq<int>, x: int, xs: seq<int>)
    requires AllIn(xs, |key|) && 0 <= x < |key| && |xs| > 0 && SortedBy(key, xs) && !Precedes(key, xs[0], x)
    ensures forall k :: 0 <= k < |xs| ==> !Precedes(key, xs[k], x)
  {
    forall k | 0 <= k < |xs|
      ensures !Precedes(key, xs[k], x)
    {
      assert !Precedes(key, xs[k], xs[0]) || k == 0;
    }
  }

  lemma ConsSorted(key: seq<int>, y: int, rest: seq<int>)
    requires AllIn(rest, |key|) && 0 <= y < |key|
    requires SortedBy(key, rest)
    requires forall k :: 0 <= k < |rest| ==> !Precedes(key, rest[k], y)
    ensures AllIn([y] + rest, |key|)
    ensures SortedBy(key, [y] + rest)
  {
    var r := [y] + rest;
    forall i, j | 0 <= i < j < |r|
      ensures !Precedes(key, r[j], r[i])
    {
      assert r[j] == rest[j - 1];
      if i > 0 {
        assert r[i] == rest[i - 1];
      }
    }
  }

  /** Insertion sort by descending key, ties by ascending index. */
  function SortByKey(key: seq<int>, xs: seq<int>): (r: seq<int>)
    requires AllIn(xs, |key|)
    ensures AllIn(r, |key|)
    ensures multiset(r) == multiset(xs)
    ensures SortedBy(key, r)
  {
    if xs == [] then []
    else
      assert xs == [xs[0]] + xs[1..];
      Insert(key, xs[0], SortByKey(key, xs[1..]))
  }

  /** Sorting is determined: any two sorted arrangements of the same
      multiset of vertices coincide, so this insertion sort yields what any
      correct sort with the same comparator yields. */
  lemma {:induction false} SortedUnique(key: seq<int>, a: seq<int>, b: seq<int>)
    requires AllIn(a, |key|) && AllIn(b, |key|)
    requires SortedBy(key, a) && SortedBy(key, b)
    requires multiset(a) == multiset(b)
    ensures a == b
  {
    if a == [] {
      assert |b| == |multiset(b)| == 0;
    } else {
      assert |b| == |multiset(b)| == |multiset(a)| == |a|;
      SameHead(key, a, b);
      TailSorted(key, a);
      TailSorted(key, b);
      SortedUnique(key, a[1..], b[1..]);
      assert a == [a[0]] + a[1..] && b == [b[0]] + b[1..];
    }
  }

  /** Two sorted arrangements of the same vertices start alike. */
  lemma SameHead(key: seq<int>, a: seq<int>, b: seq<int>)
    requires AllIn(a, |key|) && AllIn(b, |key|) && a != [] && b != []
    requires SortedBy(key, a) && SortedBy(key, b)
    requires multiset(a) == multiset(b)
    ensures a[0] == b[0]
  {
    assert b[0] in multiset(a) && a[0] in multiset(b);
    HeadFirst(key, a, b[0]);
    HeadFirst(key, b, a[0]);
  }

  /** The head of a sorted list is not preceded by any of its members. */
  lemma HeadFirst(key: seq<int>, a: seq<int>, x: int)
    requires AllIn(a, |key|) && SortedBy(key, a) && a != []
    requires x in multiset(a)
    ensures 0 <= x < |key| && !Precedes(key, x, a[0])
  {
    var i :| 0 <= i < |a| && a[i] == x;
    if i > 0 {
      assert !Precedes(key, a[i], a[0]);
    }
  }

  lemma TailSorted(key: seq<int>, a: seq<int>)
    requires AllIn(a, |key|) && SortedBy(key, a) && a != []
    ensures AllIn(a[1..], |key|) && SortedBy(key, a[1..])
    ensures multiset(a[1..]) == multiset(a) - multiset{a[0]}
  {
    assert a == [a[0]] + a[1..];
  }

  /** The set of vertices of a list. */
  function Members(vertices: seq<int>): set<int>
  {
    set v | v in vertices
  }

  /** Weight of the entries of es that point into S. */
  function InWeight(es: seq<Edge>, S: set<int>): int
  {
    if es == [] then 0 else (if es[0].to in S then es[0].w else 0) + InWeight(es[1..], S)
  }

  /** Each vertex's weight towards the given vertices (0 for vertices
      outside them, whose value is never read). */
  function InternalDegrees(g: Graph, vertices: seq<int>): (key: seq<int>)
    requires WellFormed(g)
    ensures |key| == g.n
  {
    var S := Members(vertices);
    seq(g.n, v requires 0 <= v < g.n => if v in S then InWeight(g.adj[v], S) else 0)
  }

  /** `order_by_internal_degree`: the given vertices, most weight towards
      the rest of them first, ties by ascending index. */
  function OrderByInternalDegree(g: Graph, vertices: seq<int>): (order: seq<int>)
    requires WellFormed(g) && AllIn(vertices, g.n)
    ensures AllIn(order, g.n)
    ensures multiset(order) == multiset(vertices)
    ensures forall i, j :: 0 <= i < j < |order| ==>
      var d := InternalDegrees(g, vertices);
      d[order[i]] > d[order[j]] || (d[order[i]] == d[order[j]] && order[i] <= order[j])
  {
    var key := InternalDegrees(g, vertices);
    var r := SortByKey(key, vertices);
    assert forall i, j :: 0 <= i < j < |r| ==> !Precedes(key, r[j], r[i]);
    r
  }

  /** A permutation of distinct vertices is itself distinct. */
  lemma PermutationDistinct(xs: seq<int>, ys: seq<int>)
    requires multiset(xs) == multiset(ys) && Distinct(xs)
    ensures Distinct(ys)
  {
    forall i, j | 0 <= i < j < |ys|
      ensures ys[i] != ys[j]
    {
      if ys[i] == ys[j] {
        assert multiset(ys)[ys[i]] >= 2 by {
          assert ys == ys[..i] + [ys[i]] + ys[i + 1..j] + [ys[j]] + ys[j + 1..];
        }
        DistinctCount(xs, ys[i]);
      }
    }
  }

  lemma {:induction false} DistinctCount(xs: seq<int>, x: int)
    requires Distinct(xs)
    ensures multiset(xs)[x] <= 1
  {
    if xs != [] {
      assert xs == [xs[0]] + xs[1..];
      DistinctCount(xs[1..], x);
      if xs[0] == x {
        assert x !in xs[1..];
      }
    }
  }

  /** The vertices 0..n-1 in order. */
  function AllVertices(n: nat): (vs: seq<int>)
    ensures |vs| == n && AllIn(vs, n) && Distinct(vs)
    ensures forall v :: 0 <= v < n ==> v in vs
  {
    var vs := seq(n, i => i);
    forall v | 0 <= v < n
      ensures v in vs
    {
      assert vs[v] == v;
    }
    vs
  }
}

=== FILE: refine.dfy ===
/** `refine_partition` (MultilevelKWayPartitionSolver.cpp): greedy
    single-vertex moves between labels 0..k-1 that lower the cut, kept within
    the balance window [n / k, ceil(n / k)]. */
module Refine {
  import opened Sums
  import opened Graphs
  import opened Cuts

  // ---------------------------------------------------------------- label weights

  /** Weight of the entries of es whose far end carries label q. */
  function Toward(part: seq<int>, es: seq<Edge>, q: int): int
    requires EntriesIn(es, |part|)
  {
    if es == [] then 0 else (if part[es[0].to] == q then es[0].w else 0) + Toward(part, es[1..], q)
  }

  lemma {:induction false} TowardAppend(part: seq<int>, es: seq<Edge>, e: Edge, q: int)
    requires EntriesIn(es, |part|) && 0 <= e.to < |part|
    ensures EntriesIn(es + [e], |part|)
    ensures Toward(part, es + [e], q) == Toward(part, es, q) + (if part[e.to] == q then e.w else 0)
  {
    if es != [] {
      assert (es + [e])[1..] == es[1..] + [e];
      TowardAppend(part, es[1..], e, q);
    }
  }

  /** The fill-and-accumulate loop: the weight from u to each label 0..k-1. */
  method LabelWeights(g: Graph, part: seq<int>, k: nat, u: int) returns (weights: seq<int>)
    requires WellFormed(g) && |part| == g.n && 0 <= u < g.n
    ensures |weights| == k
    ensures forall q :: 0 <= q < k ==> weights[q] == Toward(part, g.adj[u], q)
  {
    weights := seq(k, _ => 0);
    var i := 0;
    while i < |g.adj[u]|
      invariant 0 <= i <= |g.adj[u]| && |weights| == k
      invariant forall q :: 0 <= q < k ==> weights[q] == Toward(part, g.adj[u][..i], q)
    {
      var e := g.adj[u][i];
      assert g.adj[u][..i + 1] == g.adj[u][..i] + [e];
      forall q | 0 <= q < k
        ensures Toward(part, g.adj[u][..i + 1], q) == Toward(part, g.adj[u][..i], q) + (if part[e.to] == q then e.w else 0)
      {
        TowardAppend(part, g.adj[u][..i], e, q);
      }
      var q := part[e.to];
      if 0 <= q < k {
        weights := weights[q := weights[q] + e.w];
      }
      i := i + 1;
    }
    assert g.adj[u][..i] == g.adj[u];
  }

  // ---------------------------------------------------------------- the gain of a move

  /** +1 towards the new label q, -1 towards u's current label. */
  ghost function Shift(part: seq<int>, u: int, q: int, y: int): int
    requires 0 <= u < |part|
  {
    if 0 <= y < |part| then (if part[y] == q then 1 else 0) - (if part[y] == part[u] then 1 else 0) else 0
  }

  /** The change of u's row of crossing weights when u moves to q. */
  ghost function MoveRow(g: Graph, part: seq<int>, u: int, q: int, y: int): int
    requires WellFormed(g) && |part| == g.n && 0 <= u < g.n
  {
    if 0 <= y < g.n && y != u then Shift(part, u, q, y) * Wt(g, u, y) else 0
  }

  lemma {:induction false} TowardShift(part: seq<int>, u: int, q: int, es: seq<Edge>, c: int -> int)
    requires 0 <= u < |part| && EntriesIn(es, |part|)
    requires forall y :: c(y) == Shift(part, u, q, y)
    ensures Toward(part, es, q) - Toward(part, es, part[u]) == WeightedListSum(es, c)
  {
    if es != [] {
      TowardShift(part, u, q, es[1..], c);
    }
  }

  /** The row change sums to the gain plus the self-loop weight of u. */
  lemma MoveRowSum(g: Graph, part: seq<int>, u: int, q: int)
    requires WellFormed(g) && |part| == g.n && 0 <= u < g.n && q != part[u]
    ensures Sum(g.n, y => MoveRow(g, part, u, q, y))
         == Toward(part, g.adj[u], q) - Toward(part, g.adj[u], part[u]) + Wt(g, u, u)
  {
    var n := g.n;
    var c := (y: int) => Shift(part, u, q, y);
    var f := (y: int) => ListWeight(g.adj[u], y) * c(y);
    var mr := (y: int) => MoveRow(g, part, u, q, y);
    var atU := (y: int) => if y == u then f(u) else 0;
    var back := (y: int) => mr(y) + atU(y);
    assert EntriesIn(g.adj[u], |part|);
    TowardShift(part, u, q, g.adj[u], c);
    Regroup(g.adj[u], n, c, f);
    forall y | 0 <= y < n
      ensures f(y) == back(y)
    {
      MoveRowPoint(g, part, u, q, y);
    }
    SumExt(n, f, back);
    SumAdd(n, mr, atU, back);
    SumPoint(n, u, atU);
    assert c(u) == -1;
  }

  lemma MoveRowPoint(g: Graph, part: seq<int>, u: int, q: int, y: int)
    requires WellFormed(g) && |part| == g.n && 0 <= u < g.n && 0 <= y < g.n
    ensures ListWeight(g.adj[u], y) * Shift(part, u, q, y)
         == MoveRow(g, part, u, q, y) + (if y == u then ListWeight(g.adj[u], u) * Shift(part, u, q, u) else 0)
  {
    assert Wt(g, u, y) == ListWeight(g.adj[u], y);
  }

  lemma MoveDeltaAt(g: Graph, part: seq<int>, u: int, q: int, x: int, y: int)
    requires WellFormed(g) && |part| == g.n && Undirected(g) && 0 <= u < g.n
    requires 0 <= x < g.n && 0 <= y < g.n
    ensures Crossing(g, part)(x, y) - Crossing(g, part[u := q])(x, y)
         == (if x == u then MoveRow(g, part, u, q, y) else 0) + (if y == u then MoveRow(g, part, u, q, x) else 0)
  {
    assert Wt(g, x, y) == Wt(g, y, x);
  }

  /** The move-gain identity: on an undirected graph, moving u to a new label
      q lowers the cut by the weight from u to label q minus the weight from
      u to its own label, plus u's self-loop weight (which its own-label
      weight counts but the cut never does). */
  lemma MoveGain(g: Graph, part: seq<int>, u: int, q: int)
    requires WellFormed(g) && |part| == g.n && Undirected(g) && 0 <= u < g.n && q != part[u]
    ensures CutWeight(g, part[u := q])
         == CutWeight(g, part) - (Toward(part, g.adj[u], q) - Toward(part, g.adj[u], part[u])) - Wt(g, u, u)
  {
    var n := g.n;
    var p' := part[u := q];
    var hp := Crossing(g, part);
    var hq := Crossing(g, p');
    CutAsPairs(g, part);
    CutAsPairs(g, p');
    var mr := (y: int) => MoveRow(g, part, u, q, y);
    var t1 := (x: int, y: int) => if x == u then mr(y) else 0;
    var t2 := (x: int, y: int) => if y == u then mr(x) else 0;
    var delta := (x: int, y: int) => t1(x, y) + t2(x, y);
    var back := (x: int, y: int) => delta(x, y) + hq(x, y);
    forall x, y | 0 <= x < n && 0 <= y < n
      ensures hp(x, y) == back(x, y)
    {
      MoveDeltaAt(g, part, u, q, x, y);
    }
    DSumExt(n, n, hp, back);
    DSumAdd(n, n, delta, hq, back);
    DSumAdd(n, n, t1, t2, delta);
    DSumRowPoint(n, n, u, t1);
    RowSum(n, t1, u, mr);
    DSumColPoint(n, n, u, t2);
    ColSum(n, t2, u, mr);
    MoveRowSum(g, part, u, q);
  }

  // ---------------------------------------------------------------- block sizes

  /** The number of vertices of each label 0..k-1. */
  function Sizes(part: seq<int>, k: nat): (s: seq<int>)
    ensures |s| == k
  {
    seq(k, l => multiset(part)[l])
  }

  /** The counting loop at the start of a pass. */
  method ComputeSizes(part: seq<int>, k: nat) returns (sizes: seq<int>)
    ensures sizes == Sizes(part, k)
  {
    sizes := seq(k, _ => 0);
    var i := 0;
    while i < |part|
      invariant 0 <= i <= |part| && |sizes| == k
      invariant forall l :: 0 <= l < k ==> sizes[l] == multiset(part[..i])[l]
    {
      var p := part[i];
      assert part[..i + 1] == part[..i] + [p];
      if 0 <= p < k {
        sizes := sizes[p := sizes[p] + 1];
      }
      i := i + 1;
    }
    assert part[..i] == part;
  }

  /** Relabelling one vertex moves one unit of count between labels. */
  lemma MoveCount(part: seq<int>, u: int, q: int)
    requires 0 <= u < |part|
    ensures multiset(part[u := q]) == multiset(part) - multiset{part[u]} + multiset{q}
  {
    assert part == part[..u] + [part[u]] + part[u + 1..];
    assert part[u := q] == part[..u] + [q] + part[u + 1..];
  }

  /** The smallest block size the window allows. */
  function Lo(n: nat, k: int): int
    requires k >= 1
  {
    n / k
  }

  /** The largest block size the window allows. */
  function Hi(n: nat, k: int): int
    requires k >= 1
  {
    (n + k - 1) / k
  }

  // ---------------------------------------------------------------- one move

  /** Moving u to q is admissible and strictly improving: u's label p is in
      range with more than Lo vertices, q is another label with fewer than
      Hi, and u is heavier towards q than towards p. */
  ghost predicate Improving(g: Graph, part: seq<int>, k: int, u: int, q: int)
    requires WellFormed(g) && |part| == g.n && k >= 1 && 0 <= u < g.n
  {
    var p := part[u];
    && 0 <= p < k && 0 <= q < k && q != p
    && multiset(part)[p] > Lo(g.n, k) && multiset(part)[q] < Hi(g.n, k)
    && Toward(part, g.adj[u], q) > Toward(part, g.adj[u], p)
  }

  /** No single improving move is available anywhere. */
  ghost predicate NoImprovingMove(g: Graph, part: seq<int>, k: int)
    requires WellFormed(g) && |part| == g.n && k >= 1
  {
    forall u, q :: 0 <= u < g.n ==> !Improving(g, part, k, u, q)
  }

  /** The target scan: among labels q != p with room (size below hi), the
      first with the largest positive gain weights[q] - weights[p]; p itself
      when no gain is positive. */
  method BestTarget(weights: seq<int>, sizes: seq<int>, p: int, hi: int) returns (best: int, bestGain: int)
    requires |sizes| == |weights| && 0 <= p < |weights|
    ensures 0 <= best < |weights| && bestGain >= 0
    ensures best == p ==> bestGain == 0
    ensures best != p ==> sizes[best] < hi && bestGain == weights[best] - weights[p] > 0
    ensures forall q :: 0 <= q < |weights| && q != p && sizes[q] < hi ==> weights[q] - weights[p] <= bestGain
    ensures best != p ==> forall q :: 0 <= q < best && q != p && sizes[q] < hi ==> weights[q] - weights[p] < bestGain
  {
    best, bestGain := p, 0;
    var q := 0;
    while q < |weights|
      invariant 0 <= q <= |weights| && 0 <= best < |weights| && bestGain >= 0
      invariant best == p ==> bestGain == 0
      invariant best != p ==> best < q && sizes[best] < hi && bestGain == weights[best] - weights[p] > 0
      invariant forall r :: 0 <= r < q && r != p && sizes[r] < hi ==> weights[r] - weights[p] <= bestGain
      invariant best != p ==> forall r :: 0 <= r < best && r != p && sizes[r] < hi ==> weights[r] - weights[p] < bestGain
    {
      if q != p && sizes[q] < hi {
        var gain := weights[q] - weights[p];
        if gain > bestGain {
          best, bestGain := q, gain;
        }
      }
      q := q + 1;
    }
  }

  /** The body of the vertex loop: u moves to the target the scan picks when
      that gain is positive, the first improving label of largest weight
      towards it. Returns u's label afterwards. */
  method TryMove(g: Graph, part: seq<int>, k: int, sizes: seq<int>, u: int) returns (part': seq<int>, sizes': seq<int>, target: int)
    requires WellFormed(g) && |part| == g.n && k >= 1 && 0 <= u < g.n && sizes == Sizes(part, k)
    ensures sizes' == Sizes(part', k)
    ensures target == part[u] ==> part' == part && forall q :: !Improving(g, part, k, u, q)
    ensures target != part[u] ==> part' == part[u := target] && Improving(g, part, k, u, target)
    ensures target != part[u] ==> forall q :: Improving(g, part, k, u, q) ==> Toward(part, g.adj[u], q) <= Toward(part, g.adj[u], target)
    ensures target != part[u] ==> forall q :: 0 <= q < target && Improving(g, part, k, u, q) ==> Toward(part, g.adj[u], q) < Toward(part, g.adj[u], target)
  {
    var p := part[u];
    if p < 0 || p >= k || sizes[p] <= Lo(g.n, k) {
      part', sizes', target := part, sizes, p;
    } else {
      var weights := LabelWeights(g, part, k, u);
      var best, gain := BestTarget(weights, sizes, p, Hi(g.n, k));
      if best != p && gain > 0 {
        part' := part[u := best];
        sizes' := sizes[p := sizes[p] - 1][best := sizes[best] + 1];
        target := best;
        MoveCount(part, u, best);
      } else {
        part', sizes', target := part, sizes, p;
      }
    }
  }

  // ---------------------------------------------------------------- passes

  /** Labels in 0..k-1 stay in range; any other label is left alone. */
  ghost predicate Relabelled(part0: seq<int>, part: seq<int>, k: int)
  {
    && |part| == |part0|
    && (forall v :: 0 <= v < |part0| && 0 <= part0[v] < k ==> 0 <= part[v] < k)
    && (forall v :: 0 <= v < |part0| && !(0 <= part0[v] < k) ==> part[v] == part0[v])
  }

  /** Every block size ends within the window, or no further outside it
      than it started. */
  ghost predicate Balanced(part0: seq<int>, part: seq<int>, k: int, n: nat)
    requires k >= 1
  {
    forall l :: 0 <= l < k ==>
      && multiset(part)[l] >= (if multiset(part0)[l] < Lo(n, k) then multiset(part0)[l] else Lo(n, k))
      && multiset(part)[l] <= (if multiset(part0)[l] > Hi(n, k) then multiset(part0)[l] else Hi(n, k))
  }

  lemma MoveKeeps(g: Graph, part0: seq<int>, part: seq<int>, k: int, u: int, q: int)
    requires WellFormed(g) && |part| == g.n && k >= 1 && 0 <= u < g.n
    requires Relabelled(part0, part, k) && Balanced(part0, part, k, g.n)
    requires Improving(g, part, k, u, q)
    ensures Relabelled(part0, part[u := q], k) && Balanced(part0, part[u := q], k, g.n)
  {
    MoveBalanced(part0, part, k, g.n, u, q);
  }

  /** Moving u from a block above the window's floor to one below its
      ceiling keeps every block size within its bounds. */
  lemma MoveBalanced(part0: seq<int>, part: seq<int>, k: int, n: nat, u: int, q: int)
    requires k >= 1 && 0 <= u < |part| && 0 <= part[u] < k && 0 <= q < k && q != part[u]
    requires Balanced(part0, part, k, n)
    requires multiset(part)[part[u]] > Lo(n, k) && multiset(part)[q] < Hi(n, k)
    ensures Balanced(part0, part[u := q], k, n)
  {
    var p, part' := part[u], part[u := q];
    var lo, hi := Lo(n, k), Hi(n, k);
    forall l | 0 <= l < k
      ensures multiset(part')[l] >= (if multiset(part0)[l] < lo then multiset(part0)[l] else lo)
      ensures multiset(part')[l] <= (if multiset(part0)[l] > hi then multiset(part0)[l] else hi)
    {
      MoveCountAt(part, u, q, l);
      MoveBounds(multiset(part0)[l], multiset(part)[l], multiset(part')[l], lo, hi, l == p, l == q);
    }
  }

  lemma MoveCountAt(part: seq<int>, u: int, q: int, l: int)
    requires 0 <= u < |part| && part[u] != q
    ensures multiset(part[u := q])[l] == multiset(part)[l] - (if l == part[u] then 1 else 0) + (if l == q then 1 else 0)
  {
    MoveCount(part, u, q);
  }

  /** One label's count after a move: it loses one only above the window's
      floor and gains one only below its ceiling. */
  lemma MoveBounds(c0: int, c: int, c': int, lo: int, hi: int, from: bool, to: bool)
    requires c >= (if c0 < lo then c0 else lo) && c <= (if c0 > hi then c0 else hi)
    requires !(from && to)
    requires c' == c - (if from then 1 else 0) + (if to then 1 else 0)
    requires from ==> c > lo
    requires to ==> c < hi
    ensures c' >= (if c0 < lo then c0 else lo) && c' <= (if c0 > hi then c0 else hi)
  {
  }

  lemma BalancedTrans(a: seq<int>, b: seq<int>, c: seq<int>, k: int, n: nat)
    requires k >= 1 && Balanced(a, b, k, n) && Balanced(b, c, k, n)
    ensures Balanced(a, c, k, n)
  {
  }

  /** One pass over the vertices. count is the number of moves made; each
      lowers the cut of an undirected graph by at least 1, and a pass without
      moves certifies that no improving move exists. */
  method RefinePass(g: Graph, part0: seq<int>, k: int) returns (part: seq<int>, count: nat)
    requires WellFormed(g) && |part0| == g.n && k >= 2
    ensures |part| == g.n && Relabelled(part0, part, k) && Balanced(part0, part, k, g.n)
    ensures Undirected(g) ==> CutWeight(g, part) + count <= CutWeight(g, part0)
    ensures count == 0 ==> part == part0 && NoImprovingMove(g, part, k)
  {
    var sizes := ComputeSizes(part0, k);
    part, count := part0, 0;
    var u := 0;
    while u < g.n
      invariant 0 <= u <= g.n && |part| == g.n && sizes == Sizes(part, k)
      invariant Relabelled(part0, part, k) && Balanced(part0, part, k, g.n)
      invariant Undirected(g) ==> CutWeight(g, part) + count <= CutWeight(g, part0)
      invariant count == 0 ==> part == part0 && forall x, q :: 0 <= x < u ==> !Improving(g, part, k, x, q)
    {
      var part', sizes', target := TryMove(g, part, k, sizes, u);
      if target != part[u] {
        MoveKeeps(g, part0, part, k, u, target);
        if Undirected(g) {
          MoveGain(g, part, u, target);
          assert Wt(g, u, u) >= 0 by {
            ListWeightNonneg(g.adj[u], u);
          }
        }
        count := count + 1;
      }
      part, sizes := part', sizes';
      u := u + 1;
    }
  }

  /** `refine_partition`: passes until one makes no move or maxPasses have
      run. Nothing happens for k <= 1. Labels in 0..k-1 stay there, block
      sizes respect the window, an undirected graph's cut drops by at least
      the number of moves, and a converged result has no improving move;
      otherwise every pass made a move. */
  method RefinePartition(g: Graph, part0: seq<int>, k: int, maxPasses: int) returns (part: seq<int>, moves: nat, converged: bool)
    requires WellFormed(g) && |part0| == g.n
    ensures k <= 1 ==> part == part0 && moves == 0 && !converged
    ensures |part| == g.n && Relabelled(part0, part, k)
    ensures k >= 1 ==> Balanced(part0, part, k, g.n)
    ensures Undirected(g) ==> CutWeight(g, part) + moves <= CutWeight(g, part0)
    ensures converged ==> k >= 2 && NoImprovingMove(g, part, k)
    ensures k >= 2 && !converged ==> moves >= maxPasses
  {
    part, moves, converged := part0, 0, false;
    if k <= 1 {
      return;
    }
    var pass := 0;
    while pass < maxPasses && !converged
      invariant |part| == g.n && Relabelled(part0, part, k) && Balanced(part0, part, k, g.n)
      invariant Undirected(g) ==> CutWeight(g, part) + moves <= CutWeight(g, part0)
      invariant converged ==> NoImprovingMove(g, part, k)
      invariant !converged ==> moves >= pass
      decreases maxPasses - pass, if converged then 0 else 1
    {
      var next, count := RefinePass(g, part, k);
      BalancedTrans(part0, part, next, k, g.n);
      part, moves := next, moves + count;
      if count == 0 {
        converged := true;
      }
      pass := pass + 1;
    }
  }
}

=== FILE: separator.dfy ===
/** `VertexSeparatorSolver::solve`: bisect the graph, then take as separator
    every vertex at either end of a list entry whose endpoints the bisection
    put on different sides. */
module Separator {
  import opened Graphs
  import opened Cuts
  import opened Ordering
  import Bisection
  import Subsets

  /** Entry j of x's list joins differently labelled vertices and has v as
      one of its endpoints. */
  ghost predicate Touches(g: Graph, p: seq<int>, v: int, x: int, j: int)
    requires WellFormed(g) && |p| == g.n
  {
    0 <= x < g.n && 0 <= j < |g.adj[x]| && p[x] != p[g.adj[x][j].to] && (x == v || g.adj[x][j].to == v)
  }

  /** v lies on the boundary between the two sides. */
  ghost predicate Boundary(g: Graph, p: seq<int>, v: int)
    requires WellFormed(g) && |p| == g.n
  {
    exists x, j :: Touches(g, p, v, x, j)
  }

  /** The marking loop: both endpoints of every crossing entry are marked,
      and nothing else is. */
  method MarkBoundary(g: Graph, p: seq<int>) returns (isSep: seq<bool>)
    requires WellFormed(g) && |p| == g.n
    ensures |isSep| == g.n
    ensures forall v :: 0 <= v < g.n ==> (isSep[v] <==> Boundary(g, p, v))
  {
    isSep := seq(g.n, _ => false);
    var u := 0;
    while u < g.n
      invariant 0 <= u <= g.n && |isSep| == g.n
      invariant forall v :: 0 <= v < g.n ==> (isSep[v] <==> exists x, j :: x < u && Touches(g, p, v, x, j))
    {
      var i := 0;
      while i < |g.adj[u]|
        invariant 0 <= i <= |g.adj[u]| && |isSep| == g.n
        invariant forall v :: 0 <= v < g.n ==> (isSep[v] <==> exists x, j :: (x < u || (x == u && j < i)) && Touches(g, p, v, x, j))
      {
        var v := g.adj[u][i].to;
        ghost var before := isSep;
        if p[u] != p[v] {
          isSep := isSep[u := true][v := true];
        }
        forall w | 0 <= w < g.n
          ensures isSep[w] <==> exists x, j :: (x < u || (x == u && j < i + 1)) && Touches(g, p, w, x, j)
        {
          if Touches(g, p, w, u, i) {
            assert (u < u || (u == u && i < i + 1)) && Touches(g, p, w, u, i);
          } else {
            assert isSep[w] == before[w];
          }
        }
        i := i + 1;
      }
      u := u + 1;
    }
  }

  /** The collection loop: the marked vertices in ascending order. */
  method Collect(isSep: seq<bool>) returns (sep: seq<int>)
    ensures forall a, b :: 0 <= a < b < |sep| ==> sep[a] < sep[b]
    ensures forall v :: v in sep <==> 0 <= v < |isSep| && isSep[v]
  {
    sep := [];
    var i := 0;
    while i < |isSep|
      invariant 0 <= i <= |isSep|
      invariant forall a, b :: 0 <= a < b < |sep| ==> sep[a] < sep[b]
      invariant forall a :: 0 <= a < |sep| ==> sep[a] < i
      invariant forall v :: v in sep <==> 0 <= v < i && isSep[v]
    {
      if isSep[i] {
        sep := sep + [i];
      }
      i := i + 1;
    }
  }

  /** `solve`: the bisection's labels and cut, the boundary vertices in
      ascending order as separator, and their number as score. Once the
      separator is removed no list entry joins the two sides, and every
      separator vertex is needed for that by some crossing entry. */
  method Solve(g: Graph, passes: int) returns (res: PartitionResult, ghost swaps: nat)
    requires WellFormed(g)
    ensures g.n == 0 ==> res == EmptyResult
    ensures g.n > 0 ==> |res.part| == g.n && forall v :: 0 <= v < g.n ==> res.part[v] == 0 || res.part[v] == 1
    ensures g.n > 0 ==> Bisection.CountLabel(res.part, AllVertices(g.n), 0) == (g.n + 1) / 2
    ensures g.n > 0 ==> res.cutWeight == CutWeight(g, res.part)
    ensures swaps <= passes || swaps == 0
    ensures g.n > 0 && swaps < passes ==> Bisection.NoImprovingSwap(g, AllVertices(g.n), res.part)
    ensures g.n > 0 && Subsets.Simple(g) ==> res.cutWeight + swaps <= CutWeight(g, Bisection.InitialSplit(g, AllVertices(g.n)))
    ensures g.n > 0 ==> forall a, b :: 0 <= a < b < |res.separator| ==> res.separator[a] < res.separator[b]
    ensures g.n > 0 ==> forall v :: v in res.separator <==> 0 <= v < g.n && Boundary(g, res.part, v)
    ensures g.n > 0 ==> forall u, i :: (0 <= u < g.n && 0 <= i < |g.adj[u]| && u !in res.separator && g.adj[u][i].to !in res.separator
      ==> res.part[u] == res.part[g.adj[u][i].to])
    ensures res.score == |res.separator|
  {
    if g.n == 0 {
      return EmptyResult, 0;
    }
    var bis;
    bis, swaps := Bisection.Solve(g, passes);
    var p := bis.part;
    var isSep := MarkBoundary(g, p);
    var sep := Collect(isSep);
    res := PartitionResult(p, sep, bis.cutWeight, |sep|);
    forall u, i | 0 <= u < g.n && 0 <= i < |g.adj[u]| && u !in sep && g.adj[u][i].to !in sep
      ensures p[u] == p[g.adj[u][i].to]
    {
      if p[u] != p[g.adj[u][i].to] {
        assert Touches(g, p, u, u, i);
        assert false;
      }
    }
  }
}

=== FILE: stmincut.dfy ===
/** `STMinCutSolver::solve`: Dinic's maximum flow from s to t on the residual
    network built from the adjacency lists, then the s-side as the vertices
    still reachable from s through arcs of positive residual capacity. */
module STMinCut {
  import opened Sums
  import opened Graphs
  import opened Cuts

  /** A residual arc: its head, the index of its paired arc in the head's
      list, and its remaining capacity. */
  datatype Arc = Arc(to: int, rev: int, cap: int)

  type Net = seq<seq<Arc>>

  /** The push bound of the first depth-first search of each augmentation:
      the largest 64-bit signed value divided by 4. */
  const Inf: int := 0x7FFF_FFFF_FFFF_FFFF / 4

  // ---------------------------------------------------------------- the network

  /** Every arc names a vertex and an index in that vertex's list; an arc
      between two different vertices and the arc it names name each other. */
  ghost predicate Shaped(net: Net)
  {
    forall u, i :: 0 <= u < |net| && 0 <= i < |net[u]| ==> PairedAt(net, u, i)
  }

  /** Arc i of u's list is well placed and, unless it is a self-loop, paired. */
  ghost predicate PairedAt(net: Net, u: int, i: int)
    requires 0 <= u < |net| && 0 <= i < |net[u]|
  {
    var a := net[u][i];
    && 0 <= a.to < |net| && 0 <= a.rev < |net[a.to]|
    && (a.to != u ==> net[a.to][a.rev].to == u && net[a.to][a.rev].rev == i)
  }

  ghost predicate NonNeg(net: Net)
  {
    forall u, i :: 0 <= u < |net| && 0 <= i < |net[u]| ==> net[u][i].cap >= 0
  }

  /** The total residual capacity of a list. */
  function ListCap(arcs: seq<Arc>): int
  {
    if arcs == [] then 0 else ListCap(arcs[..|arcs| - 1]) + arcs[|arcs| - 1].cap
  }

  /** The residual capacity leaving v. */
  function Out(net: Net, v: int): int
    requires 0 <= v < |net|
  {
    ListCap(net[v])
  }

  lemma ListCapAppend(arcs: seq<Arc>, a: Arc)
    ensures ListCap(arcs + [a]) == ListCap(arcs) + a.cap
  {
    assert (arcs + [a])[..|arcs|] == arcs;
  }

  lemma {:induction false} ListCapSet(arcs: seq<Arc>, i: int, c: int)
    requires 0 <= i < |arcs|
    ensures ListCap(arcs[i := arcs[i].(cap := c)]) == ListCap(arcs) - arcs[i].cap + c
  {
    var b := arcs[i := arcs[i].(cap := c)];
    if i < |arcs| - 1 {
      assert b[..|b| - 1] == arcs[..|arcs| - 1][i := arcs[i].(cap := c)];
      ListCapSet(arcs[..|arcs| - 1], i, c);
    } else {
      assert b[..|b| - 1] == arcs[..|arcs| - 1];
    }
  }

  lemma {:induction false} ListCapNonneg(arcs: seq<Arc>)
    requires forall i :: 0 <= i < |arcs| ==> arcs[i].cap >= 0
    ensures ListCap(arcs) >= 0
  {
    if arcs != [] {
      ListCapNonneg(arcs[..|arcs| - 1]);
    }
  }

  /** `add_edge`: an arc u -> v of capacity c at the end of u's list and a
      reverse arc v -> u of capacity 0 at the end of v's list, each holding
      the other's index. For u == v both land in u's list. */
  function AddEdge(net: Net, u: int, v: int, c: int): (net': Net)
    requires 0 <= u < |net| && 0 <= v < |net|
    ensures |net'| == |net|
    ensures forall x :: 0 <= x < |net| && x != u && x != v ==> net'[x] == net[x]
    ensures u != v ==> net'[u] == net[u] + [Arc(v, |net[v]|, c)] && net'[v] == net[v] + [Arc(u, |net[u]|, 0)]
    ensures u == v ==> net'[u] == net[u] + [Arc(v, |net[v]|, c), Arc(u, |net[u]|, 0)]
  {
    var a := Arc(v, |net[v]|, c);
    var b := Arc(u, |net[u]|, 0);
    var n1 := net[u := net[u] + [a]];
    n1[v := n1[v] + [b]]
  }

  /** add_edge keeps the pairing of arcs, adds c to the capacity leaving u
      and leaves every other vertex's capacity as it was. */
  lemma AddEdgeKeeps(net: Net, u: int, v: int, c: int)
    requires Shaped(net) && NonNeg(net) && 0 <= u < |net| && 0 <= v < |net| && c >= 0
    ensures Shaped(AddEdge(net, u, v, c)) && NonNeg(AddEdge(net, u, v, c))
    ensures forall x :: 0 <= x < |net| ==> Out(AddEdge(net, u, v, c), x) == Out(net, x) + (if x == u then c else 0)
  {
    var net' := AddEdge(net, u, v, c);
    var a := Arc(v, |net[v]|, c);
    var b := Arc(u, |net[u]|, 0);
    forall x, i | 0 <= x < |net'| && 0 <= i < |net'[x]|
      ensures PairedAt(net', x, i)
    {
      if i < |net[x]| {
        assert PairedAt(net, x, i);
        assert net'[x][i] == net[x][i];
        var y := net[x][i].to;
        assert |net'[y]| >= |net[y]| && net'[y][..|net[y]|] == net[y];
      }
    }
    if u != v {
      ListCapAppend(net[u], a);
      ListCapAppend(net[v], b);
    } else {
      ListCapAppend(net[u], a);
      assert net[u] + [a, b] == (net[u] + [a]) + [b];
      ListCapAppend(net[u] + [a], b);
    }
  }

  /** An adjacency entry as the construction loop hands it to add_edge. */
  datatype Entry = Entry(u: int, v: int, c: int)

  ghost predicate EntriesOk(E: seq<Entry>, n: nat)
  {
    forall k :: 0 <= k < |E| ==> 0 <= E[k].u < n && 0 <= E[k].v < n
  }

  /** The entries of u's list, in order. */
  ghost function RowEntries(u: int, es: seq<Edge>): (r: seq<Entry>)
    ensures |r| == |es|
    ensures forall j :: 0 <= j < |es| ==> r[j] == Entry(u, es[j].to, es[j].w)
  {
    seq(|es|, j requires 0 <= j < |es| => Entry(u, es[j].to, es[j].w))
  }

  /** The entries of the lists of 0..m-1, in the order the construction loop
      visits them. */
  ghost function Entries(g: Graph, m: nat): (E: seq<Entry>)
    requires WellFormed(g) && m <= g.n
    ensures EntriesOk(E, g.n)
  {
    if m == 0 then []
    else
      var A, B := Entries(g, m - 1), RowEntries(m - 1, g.adj[m - 1]);
      assert forall k :: |A| <= k < |A + B| ==> (A + B)[k] == B[k - |A|];
      A + B
  }

  /** The entries up to, but not including, entry i of u's list. */
  ghost function Upto(g: Graph, u: int, i: int): (E: seq<Entry>)
    requires WellFormed(g) && 0 <= u < g.n && 0 <= i <= |g.adj[u]|
    ensures EntriesOk(E, g.n)
  {
    var A, B := Entries(g, u), RowEntries(u, g.adj[u][..i]);
    assert forall k :: |A| <= k < |A + B| ==> (A + B)[k] == B[k - |A|];
    A + B
  }

  /** The network add_edge builds from the entries of E, in order. */
  ghost function NetOf(n: nat, E: seq<Entry>): (net: Net)
    requires EntriesOk(E, n)
    ensures |net| == n
  {
    if E == [] then seq(n, _ => [])
    else
      var e := E[|E| - 1];
      assert EntriesOk(E[..|E| - 1], n);
      AddEdge(NetOf(n, E[..|E| - 1]), e.u, e.v, e.c)
  }

  lemma NetOfAppend(n: nat, E: seq<Entry>, e: Entry)
    requires EntriesOk(E, n) && 0 <= e.u < n && 0 <= e.v < n
    ensures EntriesOk(E + [e], n) && NetOf(n, E + [e]) == AddEdge(NetOf(n, E), e.u, e.v, e.c)
  {
    assert (E + [e])[..|E|] == E;
  }

  /** The network the construction loop builds from g. */
  ghost function Built(g: Graph): Net
    requires WellFormed(g)
  {
    NetOf(g.n, Entries(g, g.n))
  }

  /** The construction loop over every adjacency entry: the network of all
      entries in order. It is paired, has non-negative capacities, and the
      capacity leaving u is the total weight of u's list. */
  method BuildNet(g: Graph) returns (net: Net)
    requires WellFormed(g)
    ensures net == Built(g)
    ensures |net| == g.n && Shaped(net) && NonNeg(net)
    ensures forall u :: 0 <= u < g.n ==> Out(net, u) == ListTotal(g.adj[u])
  {
    net := seq(g.n, _ => []);
    var u := 0;
    while u < g.n
      invariant 0 <= u <= g.n && net == NetOf(g.n, Entries(g, u)) && Shaped(net) && NonNeg(net)
      invariant forall x :: 0 <= x < g.n ==> Out(net, x) == if x < u then ListTotal(g.adj[x]) else 0
    {
      net := BuildRow(g, net, u);
      u := u + 1;
    }
  }

  /** The inner loop for u: add_edge for every entry of u's list, in order. */
  method BuildRow(g: Graph, net0: Net, u: int) returns (net: Net)
    requires WellFormed(g) && 0 <= u < g.n && net0 == NetOf(g.n, Entries(g, u)) && Shaped(net0) && NonNeg(net0)
    requires forall x :: 0 <= x < g.n ==> Out(net0, x) == if x < u then ListTotal(g.adj[x]) else 0
    ensures net == NetOf(g.n, Entries(g, u + 1)) && Shaped(net) && NonNeg(net)
    ensures forall x :: 0 <= x < g.n ==> Out(net, x) == if x <= u then ListTotal(g.adj[x]) else 0
  {
    net := net0;
    var i := 0;
    UptoEnds(g, u);
    assert g.adj[u][..0] == [];
    assert OutSoFar(g, net, u, 0);
    while i < |g.adj[u]|
      invariant 0 <= i <= |g.adj[u]| && net == NetOf(g.n, Upto(g, u, i)) && Shaped(net) && NonNeg(net) && OutSoFar(g, net, u, i)
    {
      EntryStep(g, net, u, i);
      net := AddEdge(net, u, g.adj[u][i].to, g.adj[u][i].w);
      i := i + 1;
    }
    assert g.adj[u][..i] == g.adj[u];
  }

  /** Capacities leaving each vertex once the lists before u and the first
      i entries of u's list went through add_edge. */
  ghost predicate OutSoFar(g: Graph, net: Net, u: int, i: int)
    requires WellFormed(g) && 0 <= u < g.n && 0 <= i <= |g.adj[u]|
  {
    |net| == g.n && forall x :: 0 <= x < g.n ==> Out(net, x) == if x < u then ListTotal(g.adj[x]) else if x == u then ListTotal(g.adj[u][..i]) else 0
  }

  lemma EntryStep(g: Graph, net: Net, u: int, i: int)
    requires WellFormed(g) && 0 <= u < g.n && 0 <= i < |g.adj[u]|
    requires net == NetOf(g.n, Upto(g, u, i)) && Shaped(net) && NonNeg(net) && OutSoFar(g, net, u, i)
    ensures var e := g.adj[u][i];
      && AddEdge(net, u, e.to, e.w) == NetOf(g.n, Upto(g, u, i + 1))
      && Shaped(AddEdge(net, u, e.to, e.w)) && NonNeg(AddEdge(net, u, e.to, e.w))
      && OutSoFar(g, AddEdge(net, u, e.to, e.w), u, i + 1)
  {
    var e := g.adj[u][i];
    AddEdgeKeeps(net, u, e.to, e.w);
    assert g.adj[u][..i + 1] == g.adj[u][..i] + [e];
    ListTotalAppend(g.adj[u][..i], e);
    UptoStep(g, u, i);
    NetOfAppend(g.n, Upto(g, u, i), Entry(u, e.to, e.w));
  }

  lemma UptoStep(g: Graph, u: int, i: int)
    requires WellFormed(g) && 0 <= u < g.n && 0 <= i < |g.adj[u]|
    ensures Upto(g, u, i + 1) == Upto(g, u, i) + [Entry(u, g.adj[u][i].to, g.adj[u][i].w)]
  {
    assert RowEntries(u, g.adj[u][..i + 1]) == RowEntries(u, g.adj[u][..i]) + [Entry(u, g.adj[u][i].to, g.adj[u][i].w)];
  }

  lemma UptoEnds(g: Graph, u: int)
    requires WellFormed(g) && 0 <= u < g.n
    ensures Upto(g, u, 0) == Entries(g, u)
    ensures Upto(g, u, |g.adj[u]|) == Entries(g, u + 1)
  {
    assert g.adj[u][..|g.adj[u]|] == g.adj[u];
    assert RowEntries(u, g.adj[u][..0]) == [];
  }

  // ---------------------------------------------------------------- reachability

  /** Arc i of u's list has residual capacity left. */
  ghost predicate Positive(net: Net, u: int, i: int)
  {
    0 <= u < |net| && 0 <= i < |net[u]| && net[u][i].cap > 0
  }

  /** v can be reached from s in at most k arcs of positive capacity. */
  ghost predicate ReachIn(net: Net, s: int, v: int, k: nat)
    decreases k
  {
    v == s || (k > 0 && exists u, i :: Positive(net, u, i) && net[u][i].to == v && ReachIn(net, s, u, k - 1))
  }

  ghost predicate Reachable(net: Net, s: int, v: int)
  {
    exists k: nat :: ReachIn(net, s, v, k)
  }

  /** Reachability extends along an arc with capacity left. */
  lemma ReachStep(net: Net, s: int, u: int, i: int)
    requires Reachable(net, s, u) && Positive(net, u, i)
    ensures Reachable(net, s, net[u][i].to)
  {
    var k: nat :| ReachIn(net, s, u, k);
    assert ReachIn(net, s, net[u][i].to, k + 1);
  }

  /** Every positive arc leaving a vertex of q ends in q. */
  ghost predicate ClosedOver(net: Net, q: seq<int>)
  {
    forall j, i :: 0 <= j < |q| && Positive(net, q[j], i) ==> net[q[j]][i].to in q
  }

  /** Every vertex after the first in q was entered through a positive arc
      from a vertex before it. */
  ghost predicate QueueParents(net: Net, q: seq<int>)
  {
    forall j :: 0 < j < |q| ==> HasParent(net, q, j)
  }

  ghost predicate HasParent(net: Net, q: seq<int>, j: int)
    requires 0 <= j < |q|
  {
    exists j', i :: 0 <= j' < j && Positive(net, q[j'], i) && net[q[j']][i].to == q[j]
  }

  lemma {:induction false} ClosedReach(net: Net, s: int, q: seq<int>, v: int, k: nat)
    requires s in q && ClosedOver(net, q) && ReachIn(net, s, v, k)
    ensures v in q
    decreases k
  {
    if v != s {
      var u, i :| Positive(net, u, i) && net[u][i].to == v && ReachIn(net, s, u, k - 1);
      ClosedReach(net, s, q, u, k - 1);
      var j :| 0 <= j < |q| && q[j] == u;
    }
  }

  lemma {:induction false} QueueReach(net: Net, s: int, q: seq<int>, j: int)
    requires |q| > 0 && q[0] == s && QueueParents(net, q) && 0 <= j < |q|
    ensures Reachable(net, s, q[j])
    decreases j
  {
    if j == 0 {
      assert ReachIn(net, s, q[j], 0);
    } else {
      assert HasParent(net, q, j);
      var j', i :| 0 <= j' < j && Positive(net, q[j'], i) && net[q[j']][i].to == q[j];
      QueueReach(net, s, q, j');
      var k: nat :| ReachIn(net, s, q[j'], k);
      assert ReachIn(net, s, q[j], k + 1);
    }
  }

  /** The vertices of a closed queue that starts at s and enters every later
      vertex from an earlier one are exactly those reachable from s. */
  lemma QueueIsReach(net: Net, s: int, q: seq<int>, v: int)
    requires |q| > 0 && q[0] == s && QueueParents(net, q) && ClosedOver(net, q)
    ensures v in q <==> Reachable(net, s, v)
  {
    if v in q {
      var j :| 0 <= j < |q| && q[j] == v;
      QueueReach(net, s, q, j);
    }
    if Reachable(net, s, v) {
      var k: nat :| ReachIn(net, s, v, k);
      ClosedReach(net, s, q, v, k);
    }
  }

  // ---------------------------------------------------------------- levels

  /** A level per vertex: -1 for unreached, otherwise below n. */
  ghost predicate LevelsOk(lvl: seq<int>, n: nat)
  {
    |lvl| == n && forall v :: 0 <= v < n ==> -1 <= lvl[v] < n
  }

  /** v was reached through a positive arc from a vertex one level lower. */
  ghost predicate LevelParent(net: Net, lvl: seq<int>, v: int)
    requires |lvl| == |net| && 0 <= v < |net|
  {
    exists u, i :: Positive(net, u, i) && net[u][i].to == v && 0 <= lvl[u] && lvl[v] == lvl[u] + 1
  }

  /** The number of unreached entries. */
  function Unmarked(lvl: seq<int>): nat
  {
    if lvl == [] then 0 else Unmarked(lvl[..|lvl| - 1]) + (if lvl[|lvl| - 1] < 0 then 1 else 0)
  }

  lemma {:induction false} UnmarkedSet(lvl: seq<int>, v: int, x: int)
    requires 0 <= v < |lvl| && lvl[v] < 0 && x >= 0
    ensures Unmarked(lvl[v := x]) == Unmarked(lvl) - 1
  {
    var b := lvl[v := x];
    if v < |lvl| - 1 {
      assert b[..|b| - 1] == lvl[..|lvl| - 1][v := x];
      UnmarkedSet(lvl[..|lvl| - 1], v, x);
    } else {
      assert b[..|b| - 1] == lvl[..|lvl| - 1];
    }
  }

  lemma {:induction false} UnmarkedAll(n: nat)
    ensures Unmarked(seq(n, _ => -1)) == n
  {
    if n > 0 {
      assert seq(n, _ => -1)[..n - 1] == seq(n - 1, _ => -1);
      UnmarkedAll(n - 1);
    }
  }

  /** Marking v at level x from the arc (u, i) keeps every level parent. */
  lemma MarkKeepsParents(net: Net, lvl: seq<int>, u: int, i: int, v: int, lvl': seq<int>)
    requires |lvl| == |net| && 0 <= v < |net| && lvl[v] < 0 && Positive(net, u, i) && net[u][i].to == v && 0 <= lvl[u]
    requires lvl' == lvl[v := lvl[u] + 1]
    requires forall w {:trigger LevelParent(net, lvl, w)} :: 0 <= w < |net| && lvl[w] > 0 ==> LevelParent(net, lvl, w)
    ensures forall w {:trigger LevelParent(net, lvl', w)} :: 0 <= w < |net| && lvl'[w] > 0 ==> LevelParent(net, lvl', w)
  {
    forall w | 0 <= w < |net| && lvl'[w] > 0
      ensures LevelParent(net, lvl', w)
    {
      if w == v {
        assert Positive(net, u, i) && net[u][i].to == w && 0 <= lvl'[u] && lvl'[w] == lvl'[u] + 1;
      } else {
        assert LevelParent(net, lvl, w);
        var u', i' :| Positive(net, u', i') && net[u'][i'].to == w && 0 <= lvl[u'] && lvl[w] == lvl[u'] + 1;
        assert u' != v;
        assert Positive(net, u', i') && net[u'][i'].to == w && 0 <= lvl'[u'] && lvl'[w] == lvl'[u'] + 1;
      }
    }
  }

  /** Appending v entered from q[h] keeps every queue parent. */
  lemma AppendKeepsParents(net: Net, q: seq<int>, h: int, i: int, v: int)
    requires 0 <= h < |q| && QueueParents(net, q) && Positive(net, q[h], i) && net[q[h]][i].to == v
    ensures QueueParents(net, q + [v])
  {
    var q' := q + [v];
    forall j | 0 < j < |q'|
      ensures HasParent(net, q', j)
    {
      if j == |q| {
        assert 0 <= h < j && Positive(net, q'[h], i) && net[q'[h]][i].to == q'[j];
      } else {
        assert HasParent(net, q, j);
        var j', i' :| 0 <= j' < j && Positive(net, q[j'], i') && net[q[j']][i'].to == q[j];
        assert 0 <= j' < j && Positive(net, q'[j'], i') && net[q'[j']][i'].to == q'[j];
      }
    }
  }

  /** The search state: q lists the reached vertices in the order they
      were reached, starting with s at level 0, each entered through a
      positive arc from an earlier one at the level below. */
  ghost predicate Frontier(net: Net, s: int, lvl: seq<int>, q: seq<int>)
  {
    var n := |net|;
    && |lvl| == n && 0 < |q| && q[0] == s && 0 <= s < n
    && Unmarked(lvl) + |q| == n
    && (forall j :: 0 <= j < |q| ==> 0 <= q[j] < n)
    && (forall v :: 0 <= v < n ==> (lvl[v] >= 0 <==> v in q))
    && (forall v :: 0 <= v < n ==> -1 <= lvl[v] < |q|)
    && lvl[s] == 0 && (forall v :: 0 <= v < n && lvl[v] == 0 ==> v == s)
    && (forall v {:trigger LevelParent(net, lvl, v)} :: 0 <= v < n && lvl[v] > 0 ==> LevelParent(net, lvl, v))
    && QueueParents(net, q)
  }

  /** Reaching a new vertex through a positive arc from a reached one keeps
      the search state. */
  lemma MarkStep(net: Net, s: int, lvl: seq<int>, q: seq<int>, h: int, i: int)
    requires Shaped(net) && Frontier(net, s, lvl, q) && 0 <= h < |q| && Positive(net, q[h], i)
    requires 0 <= net[q[h]][i].to < |net| && lvl[net[q[h]][i].to] < 0
    ensures Frontier(net, s, lvl[net[q[h]][i].to := lvl[q[h]] + 1], q + [net[q[h]][i].to])
  {
    var u := q[h];
    var v := net[u][i].to;
    assert u in q;
    var lvl' := lvl[v := lvl[u] + 1];
    var q' := q + [v];
    MarkKeepsParents(net, lvl, u, i, v, lvl');
    AppendKeepsParents(net, q, h, i, v);
    UnmarkedSet(lvl, v, lvl[u] + 1);
    forall w | 0 <= w < |net|
      ensures (lvl'[w] >= 0 <==> w in q') && -1 <= lvl'[w] < |q'|
    {
      assert (w in q') == (w in q || w == v);
    }
    assert forall j :: 0 <= j < |q'| ==> 0 <= q'[j] < |net|;
  }

  /** A search state whose queue is closed is a finished search. */
  lemma FrontierDone(net: Net, s: int, lvl: seq<int>, q: seq<int>)
    requires Frontier(net, s, lvl, q) && ClosedOver(net, q)
    ensures LevelsOk(lvl, |net|) && lvl[s] == 0
    ensures forall v :: 0 <= v < |net| ==> (lvl[v] >= 0 <==> Reachable(net, s, v))
    ensures forall v :: 0 <= v < |net| && lvl[v] == 0 ==> v == s
    ensures forall v {:trigger LevelParent(net, lvl, v)} :: 0 <= v < |net| && lvl[v] > 0 ==> LevelParent(net, lvl, v)
  {
    forall v | 0 <= v < |net|
      ensures lvl[v] >= 0 <==> Reachable(net, s, v)
    {
      QueueIsReach(net, s, q, v);
    }
  }

  lemma FrontierStart(net: Net, s: int)
    requires 0 <= s < |net|
    ensures Frontier(net, s, seq(|net|, _ => -1)[s := 0], [s])
  {
    UnmarkedAll(|net|);
    UnmarkedSet(seq(|net|, _ => -1), s, 0);
  }

  /** One arc of the scan of q[h]: a positive arc to an unreached vertex
      reaches it at the next level and queues it. */
  method ScanOne(net: Net, s: int, lvl: seq<int>, q: seq<int>, h: int, i: int) returns (lvl': seq<int>, q': seq<int>)
    requires Shaped(net) && Frontier(net, s, lvl, q) && 0 <= h < |q| && 0 <= i < |net[q[h]]|
    ensures Frontier(net, s, lvl', q') && |q'| >= |q| && q'[..|q|] == q
    ensures Positive(net, q[h], i) ==> net[q[h]][i].to in q'
  {
    var u := q[h];
    assert PairedAt(net, u, i);
    var v := net[u][i].to;
    if net[u][i].cap > 0 && lvl[v] < 0 {
      MarkStep(net, s, lvl, q, h, i);
      lvl' := lvl[v := lvl[u] + 1];
      q' := q + [v];
      assert q'[..|q|] == q && q'[|q|] == v;
    } else {
      lvl', q' := lvl, q;
      if net[u][i].cap > 0 {
        FrontierHas(net, s, lvl, q, v);
      }
      assert q[..|q|] == q;
    }
  }

  lemma FrontierHas(net: Net, s: int, lvl: seq<int>, q: seq<int>, v: int)
    requires Frontier(net, s, lvl, q) && 0 <= v < |net| && lvl[v] >= 0
    ensures v in q
  {
  }

  /** The scan of the list of q[h]: every positive arc to an unreached
      vertex reaches it at the next level and queues it. */
  method ScanArcs(net: Net, s: int, lvl: seq<int>, q: seq<int>, h: int) returns (lvl': seq<int>, q': seq<int>)
    requires Shaped(net) && Frontier(net, s, lvl, q) && 0 <= h < |q|
    ensures Frontier(net, s, lvl', q') && |q'| >= |q| && q'[..|q|] == q
    ensures forall i :: Positive(net, q[h], i) ==> net[q[h]][i].to in q'
  {
    var u := q[h];
    lvl', q' := lvl, q;
    var i := 0;
    while i < |net[u]|
      invariant 0 <= i <= |net[u]| && Frontier(net, s, lvl', q') && |q'| >= |q| && q'[..|q|] == q
      invariant forall i' :: 0 <= i' < i && Positive(net, u, i') ==> net[u][i'].to in q'
    {
      ghost var qb := q';
      assert qb[h] == u;
      lvl', q' := ScanOne(net, s, lvl', q', h, i);
      assert q'[..|q|] == qb[..|q|];
      forall i' | 0 <= i' < i && Positive(net, u, i')
        ensures net[u][i'].to in q'
      {
        var w := net[u][i'].to;
        assert w in qb;
        var j :| 0 <= j < |qb| && qb[j] == w;
        assert q'[..|qb|][j] == w;
      }
      i := i + 1;
    }
  }

  /** `bfs`: breadth-first search from s over arcs of positive residual
      capacity. The reached vertices are exactly those reachable from s,
      only s has level 0, and every other reached vertex has a positive arc
      from the level below. */
  method Levels(net: Net, s: int) returns (lvl: seq<int>)
    requires Shaped(net) && 0 <= s < |net|
    ensures LevelsOk(lvl, |net|) && lvl[s] == 0
    ensures forall v :: 0 <= v < |net| ==> (lvl[v] >= 0 <==> Reachable(net, s, v))
    ensures forall v :: 0 <= v < |net| && lvl[v] == 0 ==> v == s
    ensures forall v {:trigger LevelParent(net, lvl, v)} :: 0 <= v < |net| && lvl[v] > 0 ==> LevelParent(net, lvl, v)
    ensures BfsLevels(net, s, lvl)
  {
    var n := |net|;
    FrontierStart(net, s);
    lvl := seq(n, _ => -1)[s := 0];
    var q := [s];
    var h := 0;
    while h < |q|
      invariant 0 <= h <= |q| && Frontier(net, s, lvl, q)
      invariant forall j, i :: 0 <= j < h && Positive(net, q[j], i) ==> net[q[j]][i].to in q
      decreases n - h
    {
      ghost var q0 := q;
      lvl, q := ScanArcs(net, s, lvl, q, h);
      forall j, i | 0 <= j < h + 1 && Positive(net, q[j], i)
        ensures net[q[j]][i].to in q
      {
        assert q[j] == q0[j];
        if j < h {
          assert net[q0[j]][i].to in q0;
        }
      }
      h := h + 1;
    }
    FrontierDone(net, s, lvl, q);
  }

  // ---------------------------------------------------------------- reachable_from

  /** The number of unvisited entries. */
  function Unvisited(vis: seq<bool>): nat
  {
    if vis == [] then 0 else Unvisited(vis[..|vis| - 1]) + (if vis[|vis| - 1] then 0 else 1)
  }

  lemma {:induction false} UnvisitedSet(vis: seq<bool>, v: int)
    requires 0 <= v < |vis| && !vis[v]
    ensures Unvisited(vis[v := true]) == Unvisited(vis) - 1
  {
    var b := vis[v := true];
    if v < |vis| - 1 {
      assert b[..|b| - 1] == vis[..|vis| - 1][v := true];
      UnvisitedSet(vis[..|vis| - 1], v);
    } else {
      assert b[..|b| - 1] == vis[..|vis| - 1];
    }
  }

  lemma {:induction false} UnvisitedAll(n: nat)
    ensures Unvisited(seq(n, _ => false)) == n
  {
    if n > 0 {
      assert seq(n, _ => false)[..n - 1] == seq(n - 1, _ => false);
      UnvisitedAll(n - 1);
    }
  }

  /** The state of the second search: q lists the visited vertices in
      visiting order, starting with s, each entered from an earlier one. */
  ghost predicate Visits(net: Net, s: int, vis: seq<bool>, q: seq<int>)
  {
    var n := |net|;
    && |vis| == n && 0 < |q| && q[0] == s && 0 <= s < n
    && Unvisited(vis) + |q| == n
    && (forall j :: 0 <= j < |q| ==> 0 <= q[j] < n)
    && (forall v :: 0 <= v < n ==> (vis[v] <==> v in q))
    && QueueParents(net, q)
  }

  method ScanVisit(net: Net, s: int, vis: seq<bool>, q: seq<int>, h: int) returns (vis': seq<bool>, q': seq<int>)
    requires Shaped(net) && Visits(net, s, vis, q) && 0 <= h < |q|
    ensures Visits(net, s, vis', q') && |q'| >= |q| && q'[..|q|] == q
    ensures forall i :: Positive(net, q[h], i) ==> net[q[h]][i].to in q'
  {
    var u := q[h];
    vis', q' := vis, q;
    var i := 0;
    while i < |net[u]|
      invariant 0 <= i <= |net[u]| && Visits(net, s, vis', q') && |q'| >= |q| && q'[..|q|] == q
      invariant forall i' :: 0 <= i' < i && Positive(net, u, i') ==> net[u][i'].to in q'
    {
      assert PairedAt(net, u, i);
      var v := net[u][i].to;
      ghost var qb := q';
      if net[u][i].cap > 0 && !vis'[v] {
        assert q'[h] == u && Positive(net, u, i);
        AppendKeepsParents(net, q', h, i, v);
        UnvisitedSet(vis', v);
        vis' := vis'[v := true];
        q' := q' + [v];
        assert q'[..|q|] == qb[..|q|];
      } else {
        assert Positive(net, u, i) ==> v in q';
      }
      forall i' | 0 <= i' < i + 1 && Positive(net, u, i')
        ensures net[u][i'].to in q'
      {
        if i' < i {
          assert net[u][i'].to in qb;
        }
      }
      i := i + 1;
    }
  }

  /** `reachable_from`: the second breadth-first search, marking exactly the
      vertices reachable from s through arcs of positive residual capacity. */
  method ReachableFrom(net: Net, s: int) returns (vis: seq<bool>)
    requires Shaped(net) && 0 <= s < |net|
    ensures |vis| == |net|
    ensures forall v :: 0 <= v < |net| ==> (vis[v] <==> Reachable(net, s, v))
  {
    var n := |net|;
    UnvisitedAll(n);
    UnvisitedSet(seq(n, _ => false), s);
    vis := seq(n, _ => false)[s := true];
    var q := [s];
    var h := 0;
    while h < |q|
      invariant 0 <= h <= |q| && Visits(net, s, vis, q)
      invariant forall j, i :: 0 <= j < h && Positive(net, q[j], i) ==> net[q[j]][i].to in q
      decreases n - h
    {
      ghost var q0 := q;
      vis, q := ScanVisit(net, s, vis, q, h);
      forall j, i | 0 <= j < h + 1 && Positive(net, q[j], i)
        ensures net[q[j]][i].to in q
      {
        assert q[j] == q0[j];
        if j < h {
          assert net[q0[j]][i].to in q0;
        }
      }
      h := h + 1;
    }
    forall v | 0 <= v < n
      ensures vis[v] <==> Reachable(net, s, v)
    {
      QueueIsReach(net, s, q, v);
    }
  }

  // ---------------------------------------------------------------- blocking flow

  /** Arc i of u's list has capacity left and climbs exactly one level. */
  ghost predicate Admissible(net: Net, lvl: seq<int>, u: int, i: int)
  {
    && 0 <= u < |net| && 0 <= i < |net[u]| && |lvl| == |net|
    && 0 <= net[u][i].to < |net| && net[u][i].cap > 0 && lvl[net[u][i].to] == lvl[u] + 1
  }

  /** t can be reached from v along admissible arcs. */
  ghost predicate Live(net: Net, lvl: seq<int>, v: int, t: int)
    requires LevelsOk(lvl, |net|) && 0 <= v < |net|
    decreases |net| - lvl[v]
  {
    v == t || exists i :: Admissible(net, lvl, v, i) && Live(net, lvl, net[v][i].to, t)
  }

  /** One cursor per vertex, within its list. */
  ghost predicate Cursors(net: Net, it: seq<int>)
  {
    |it| == |net| && forall v :: 0 <= v < |net| ==> 0 <= it[v] <= |net[v]|
  }

  /** Every arc a cursor has passed is no way to t. */
  ghost predicate Dead(net: Net, lvl: seq<int>, it: seq<int>, t: int)
    requires LevelsOk(lvl, |net|) && |it| == |net|
  {
    forall v, i :: 0 <= v < |net| && 0 <= i < it[v] && Admissible(net, lvl, v, i) ==> !Live(net, lvl, net[v][i].to, t)
  }

  /** net' has the arcs of net in the same places, with their heads and
      pairings. */
  ghost predicate SameShape(net: Net, net': Net)
  {
    && |net'| == |net|
    && (forall u :: 0 <= u < |net| ==> |net'[u]| == |net[u]|)
    && (forall u, i :: 0 <= u < |net| && 0 <= i < |net[u]| ==> net'[u][i].to == net[u][i].to && net'[u][i].rev == net[u][i].rev)
  }

  /** The capacity of arc i of u plus that of its pair is as in net; a
      self-loop keeps its capacity. */
  ghost predicate KeptAt(net: Net, net': Net, u: int, i: int)
    requires SameShape(net, net') && Shaped(net) && 0 <= u < |net| && 0 <= i < |net[u]|
  {
    var a := net[u][i];
    assert PairedAt(net, u, i);
    if a.to != u then net'[u][i].cap + net'[a.to][a.rev].cap == a.cap + net[a.to][a.rev].cap
    else net'[u][i].cap == a.cap
  }

  /** net' is a residual network of net: same shape, capacities
      non-negative, every pair's total kept. */
  ghost predicate Residual(net: Net, net': Net)
    requires Shaped(net)
  {
    && SameShape(net, net') && NonNeg(net')
    && (forall u, i :: 0 <= u < |net| && 0 <= i < |net[u]| ==> KeptAt(net, net', u, i))
  }

  /** net' comes from net by pushes within one level graph: a residual
      network in which no arc became admissible. */
  ghost predicate Flowed(net: Net, net': Net, lvl: seq<int>)
    requires Shaped(net)
  {
    Residual(net, net') && (forall u, i :: Admissible(net', lvl, u, i) ==> Admissible(net, lvl, u, i))
  }

  lemma ShapedKeep(net: Net, net': Net)
    requires Shaped(net) && SameShape(net, net')
    ensures Shaped(net')
  {
    forall u, i | 0 <= u < |net'| && 0 <= i < |net'[u]|
      ensures PairedAt(net', u, i)
    {
      assert PairedAt(net, u, i);
      var a := net[u][i];
      if a.to != u {
        assert net'[a.to][a.rev].to == net[a.to][a.rev].to;
      }
    }
  }

  lemma FlowedRefl(net: Net, lvl: seq<int>)
    requires Shaped(net) && NonNeg(net)
    ensures Flowed(net, net, lvl)
  {
  }

  lemma FlowedTrans(net: Net, net': Net, net'': Net, lvl: seq<int>)
    requires Shaped(net) && Flowed(net, net', lvl)
    requires Shaped(net') && Flowed(net', net'', lvl)
    ensures Flowed(net, net'', lvl)
  {
    ResidualTrans(net, net', net'');
  }

  lemma ResidualTrans(net: Net, net': Net, net'': Net)
    requires Shaped(net) && Residual(net, net')
    requires Shaped(net') && Residual(net', net'')
    ensures Residual(net, net'')
  {
    forall u, i | 0 <= u < |net| && 0 <= i < |net[u]|
      ensures KeptAt(net, net'', u, i)
    {
      assert KeptAt(net, net', u, i) && KeptAt(net', net'', u, i);
    }
  }

  /** Liveness can only be lost when no arc becomes admissible. */
  lemma {:induction false} LiveMono(net: Net, net': Net, lvl: seq<int>, v: int, t: int)
    requires LevelsOk(lvl, |net|) && SameShape(net, net') && 0 <= v < |net|
    requires forall u, i :: Admissible(net', lvl, u, i) ==> Admissible(net, lvl, u, i)
    requires Live(net', lvl, v, t)
    ensures Live(net, lvl, v, t)
    decreases |net| - lvl[v]
  {
    if v != t {
      var i :| Admissible(net', lvl, v, i) && Live(net', lvl, net'[v][i].to, t);
      assert Admissible(net, lvl, v, i);
      LiveMono(net, net', lvl, net[v][i].to, t);
    }
  }

  lemma DeadKeep(net: Net, net': Net, lvl: seq<int>, it: seq<int>, t: int)
    requires Shaped(net) && LevelsOk(lvl, |net|) && |it| == |net| && Flowed(net, net', lvl) && Dead(net, lvl, it, t)
    ensures Dead(net', lvl, it, t)
  {
    forall v, i | 0 <= v < |net| && 0 <= i < it[v] && Admissible(net', lvl, v, i)
      ensures !Live(net', lvl, net'[v][i].to, t)
    {
      assert Admissible(net, lvl, v, i);
      if Live(net', lvl, net'[v][i].to, t) {
        LiveMono(net, net', lvl, net[v][i].to, t);
      }
    }
  }

  /** The residual update after p units went along arc i of u: the arc
      loses p and its pair gains p. */
  function Push(net: Net, u: int, i: int, p: int): Net
    requires Shaped(net) && 0 <= u < |net| && 0 <= i < |net[u]|
  {
    var a := net[u][i];
    assert PairedAt(net, u, i);
    var n1 := net[u := net[u][i := a.(cap := a.cap - p)]];
    n1[a.to := n1[a.to][a.rev := n1[a.to][a.rev].(cap := n1[a.to][a.rev].cap + p)]]
  }

  /** A push of at most the arc's capacity along an admissible arc keeps
      the network a flow residual of the old one, moves p units of leaving
      capacity from u to the arc's head and touches no other vertex. */
  lemma PushKeeps(net: Net, lvl: seq<int>, u: int, i: int, p: int)
    requires Shaped(net) && NonNeg(net) && LevelsOk(lvl, |net|) && Admissible(net, lvl, u, i) && 0 < p <= net[u][i].cap
    ensures Flowed(net, Push(net, u, i, p), lvl)
    ensures Out(Push(net, u, i, p), u) == Out(net, u) - p
    ensures Out(Push(net, u, i, p), net[u][i].to) == Out(net, net[u][i].to) + p
    ensures forall v :: 0 <= v < |net| && v != u && v != net[u][i].to ==> Push(net, u, i, p)[v] == net[v]
  {
    var a := net[u][i];
    assert PairedAt(net, u, i);
    var w := a.to;
    assert w != u;
    var r := net[w][a.rev];
    var net' := Push(net, u, i, p);
    assert net'[u] == net[u][i := a.(cap := a.cap - p)];
    assert net'[w] == net[w][a.rev := r.(cap := r.cap + p)];
    ListCapSet(net[u], i, a.cap - p);
    ListCapSet(net[w], a.rev, r.cap + p);
    PushResidual(net, u, i, p);
    assert forall x, j :: Admissible(net', lvl, x, j) ==> Admissible(net, lvl, x, j);
  }

  /** A push keeps the shape, non-negative capacities and every arc pair's
      total capacity. */
  lemma PushResidual(net: Net, u: int, i: int, p: int)
    requires Shaped(net) && NonNeg(net) && 0 <= u < |net| && 0 <= i < |net[u]| && net[u][i].to != u
    requires 0 < p <= net[u][i].cap
    ensures Residual(net, Push(net, u, i, p))
  {
    var a := net[u][i];
    assert PairedAt(net, u, i);
    var w := a.to;
    var r := net[w][a.rev];
    var net' := Push(net, u, i, p);
    assert net'[u] == net[u][i := a.(cap := a.cap - p)];
    assert net'[w] == net[w][a.rev := r.(cap := r.cap + p)];
    forall x, j | 0 <= x < |net| && 0 <= j < |net[x]|
      ensures KeptAt(net, net', x, j)
    {
      assert PairedAt(net, x, j);
      var b := net[x][j];
      if b.to != x && (x, j) != (u, i) && (x, j) != (w, a.rev) {
        assert (b.to, b.rev) != (u, i) && (b.to, b.rev) != (w, a.rev);
      }
    }
    assert SameShape(net, net');
    assert NonNeg(net');
  }

  /** Arc i of u is passed by its cursor: it is not admissible or leads to
      no way to t. */
  lemma PassArc(net: Net, lvl: seq<int>, it: seq<int>, u: int, i: int, t: int)
    requires LevelsOk(lvl, |net|) && Cursors(net, it) && Dead(net, lvl, it, t)
    requires 0 <= u < |net| && it[u] == i < |net[u]|
    requires Admissible(net, lvl, u, i) ==> !Live(net, lvl, net[u][i].to, t)
    ensures Cursors(net, it[u := i + 1]) && Dead(net, lvl, it[u := i + 1], t)
  {
  }

  /** `dfs`: from u, try the arcs of u from its cursor on; follow an
      admissible one with min(f, capacity) and, when something arrives at t,
      push it along the arc and return it. A cursor moves past an arc only
      when that arc is no way to t. Returning 0 means t cannot be reached
      from u along admissible arcs; otherwise the pushed amount leaves u and
      arrives at t, and every other vertex keeps its leaving capacity. */
  method Dfs(net: Net, lvl: seq<int>, it: seq<int>, u: int, t: int, f: int) returns (net': Net, it': seq<int>, pushed: int)
    requires Shaped(net) && NonNeg(net) && LevelsOk(lvl, |net|)
    requires 0 <= u < |net| && 0 <= t < |net| && lvl[u] >= 0 && f > 0
    requires Cursors(net, it) && Dead(net, lvl, it, t)
    ensures Flowed(net, net', lvl) && Shaped(net')
    ensures Cursors(net, it') && Dead(net', lvl, it', t)
    ensures forall v :: 0 <= v < |net| ==> it[v] <= it'[v]
    ensures forall v :: 0 <= v < |net| && lvl[v] < lvl[u] ==> net'[v] == net[v] && it'[v] == it[v]
    ensures 0 <= pushed <= f
    ensures pushed == 0 ==> net' == net && !Live(net, lvl, u, t)
    ensures !Live(net, lvl, u, t) ==> pushed == 0
    ensures forall v :: 0 <= v < |net| ==>
      Out(net', v) == Out(net, v) - (if v == u && u != t then pushed else 0) + (if v == t && u != t then pushed else 0)
    decreases |net| - lvl[u]
  {
    if u == t {
      return net, it, f;
    }
    it' := it;
    var i := it[u];
    while i < |net[u]|
      invariant it[u] <= i <= |net[u]| && Cursors(net, it') && it'[u] == i && Dead(net, lvl, it', t)
      invariant forall v :: 0 <= v < |net| ==> it[v] <= it'[v]
      invariant forall v :: 0 <= v < |net| && lvl[v] < lvl[u] ==> it'[v] == it[v]
    {
      var e := net[u][i];
      assert PairedAt(net, u, i);
      if e.cap > 0 && lvl[e.to] == lvl[u] + 1 {
        var m := if f < e.cap then f else e.cap;
        var net2, it2, p := Dfs(net, lvl, it', e.to, t, m);
        if p > 0 {
          DfsPushed(net, lvl, it, it', u, t, f, i, net2, it2, p);
          return Push(net2, u, i, p), it2, p;
        }
        it' := it2;
      }
      PassArc(net, lvl, it', u, i, t);
      it' := it'[u := i + 1];
      i := i + 1;
    }
    FlowedRefl(net, lvl);
    return net, it', 0;
  }

  /** When the search from the head of u's arc i pushed p > 0 units to t,
      pushing them along that arc too gives what `dfs` promises for u. */
  lemma DfsPushed(net: Net, lvl: seq<int>, it: seq<int>, it': seq<int>, u: int, t: int, f: int, i: int,
                  net2: Net, it2: seq<int>, p: int)
    requires Shaped(net) && NonNeg(net) && LevelsOk(lvl, |net|)
    requires 0 <= u < |net| && 0 <= t < |net| && u != t && lvl[u] >= 0 && f > 0
    requires Cursors(net, it) && Cursors(net, it') && 0 <= i < |net[u]| && it'[u] == i
    requires forall v :: 0 <= v < |net| ==> it[v] <= it'[v]
    requires forall v :: 0 <= v < |net| && lvl[v] < lvl[u] ==> it'[v] == it[v]
    requires net[u][i].cap > 0 && 0 <= net[u][i].to < |net| && lvl[net[u][i].to] == lvl[u] + 1
    requires Flowed(net, net2, lvl) && Shaped(net2)
    requires Cursors(net, it2) && Dead(net2, lvl, it2, t)
    requires forall v :: 0 <= v < |net| ==> it'[v] <= it2[v]
    requires forall v :: 0 <= v < |net| && lvl[v] < lvl[net[u][i].to] ==> net2[v] == net[v] && it2[v] == it'[v]
    requires 0 < p <= f && p <= net[u][i].cap
    requires !Live(net, lvl, net[u][i].to, t) ==> p == 0
    requires forall v :: 0 <= v < |net| ==>
      Out(net2, v) == Out(net, v) - (if v == net[u][i].to && net[u][i].to != t then p else 0)
                                   + (if v == t && net[u][i].to != t then p else 0)
    ensures |net2| == |net| && |net2[u]| == |net[u]|
    ensures Flowed(net, Push(net2, u, i, p), lvl) && Shaped(Push(net2, u, i, p))
    ensures Dead(Push(net2, u, i, p), lvl, it2, t)
    ensures forall v :: 0 <= v < |net| ==> it[v] <= it2[v]
    ensures forall v :: 0 <= v < |net| && lvl[v] < lvl[u] ==> Push(net2, u, i, p)[v] == net[v] && it2[v] == it[v]
    ensures Live(net, lvl, u, t)
    ensures forall v :: 0 <= v < |net| ==>
      Out(Push(net2, u, i, p), v) == Out(net, v) - (if v == u then p else 0) + (if v == t then p else 0)
  {
    var e := net[u][i];
    assert Admissible(net, lvl, u, i) && Live(net, lvl, e.to, t);
    assert net2[u] == net[u] && Admissible(net2, lvl, u, i);
    PushKeeps(net2, lvl, u, i, p);
    FlowedTrans(net, net2, Push(net2, u, i, p), lvl);
    DeadKeep(net2, Push(net2, u, i, p), lvl, it2, t);
    ShapedKeep(net, Push(net2, u, i, p));
  }

  // ---------------------------------------------------------------- maxflow

  /** What `bfs` establishes about its levels. */
  ghost predicate BfsLevels(net: Net, s: int, lvl: seq<int>)
  {
    && LevelsOk(lvl, |net|) && 0 <= s < |net| && lvl[s] == 0
    && (forall v :: 0 <= v < |net| ==> (lvl[v] >= 0 <==> Reachable(net, s, v)))
    && (forall v :: 0 <= v < |net| && lvl[v] == 0 ==> v == s)
    && (forall v {:trigger LevelParent(net, lvl, v)} :: 0 <= v < |net| && lvl[v] > 0 ==> LevelParent(net, lvl, v))
  }

  /** Following level parents down from a reached vertex w ends at s, so a
      way from w to t along admissible arcs extends to one from s. */
  lemma {:induction false} LevelLive(net: Net, s: int, lvl: seq<int>, w: int, t: int)
    requires BfsLevels(net, s, lvl) && 0 <= w < |net| && lvl[w] >= 0 && Live(net, lvl, w, t)
    ensures Live(net, lvl, s, t)
    decreases lvl[w]
  {
    if lvl[w] > 0 {
      assert LevelParent(net, lvl, w);
      var u, i :| Positive(net, u, i) && net[u][i].to == w && 0 <= lvl[u] && lvl[w] == lvl[u] + 1;
      assert Admissible(net, lvl, u, i);
      LevelLive(net, s, lvl, u, t);
    }
  }

  /** Leaving capacities of net against those of net0 after flow units went
      from s to t. */
  ghost predicate Conserved(net0: Net, net: Net, s: int, t: int, flow: int)
    requires |net| == |net0|
  {
    forall v :: 0 <= v < |net| ==> Out(net, v) == Out(net0, v) - (if v == s then flow else 0) + (if v == t then flow else 0)
  }

  /** One phase's augmentation loop: repeated searches from s with fresh
      push bound Inf until one returns 0. The first search of the phase
      pushes something, since t was reached at the levels given. */
  method Augment(net0: Net, net: Net, lvl: seq<int>, s: int, t: int, flow: int) returns (net': Net, flow': int)
    requires Shaped(net0) && Shaped(net) && Residual(net0, net) && 0 <= s < |net| && 0 <= t < |net| && s != t
    requires Conserved(net0, net, s, t, flow)
    requires BfsLevels(net, s, lvl) && lvl[t] >= 0
    ensures Shaped(net') && Residual(net0, net') && Conserved(net0, net', s, t, flow') && flow' > flow
  {
    var n := |net|;
    var it := seq(n, _ => 0);
    LevelLive(net, s, lvl, t, t);
    ListCapNonneg(net[s]);
    net', flow' := net, flow;
    var done := false;
    while !done
      invariant Shaped(net') && Residual(net0, net') && Conserved(net0, net', s, t, flow') && flow' >= flow
      invariant Residual(net0, net') && |net'| == n && Cursors(net', it) && Dead(net', lvl, it, t)
      invariant flow' == flow ==> !done && Live(net', lvl, s, t)
      invariant Out(net', s) >= 0
      decreases Out(net', s), if done then 0 else 1
    {
      var net2, it2, p := Dfs(net', lvl, it, s, t, Inf);
      ResidualTrans(net0, net', net2);
      if p == 0 {
        done := true;
      } else {
        flow' := flow' + p;
      }
      net', it := net2, it2;
      ListCapNonneg(net'[s]);
    }
  }

  /** `maxflow`: phases of levels and augmentation while t is reached. The
      result is a residual network of the input in which t is no longer
      reachable from s, and flow units left s and arrived at t. */
  method MaxFlow(net0: Net, s: int, t: int) returns (net: Net, flow: int)
    requires Shaped(net0) && NonNeg(net0) && 0 <= s < |net0| && 0 <= t < |net0| && s != t
    ensures Shaped(net) && Residual(net0, net)
    ensures Conserved(net0, net, s, t, flow)
    ensures 0 <= flow <= Out(net0, s)
    ensures !Reachable(net, s, t)
  {
    net, flow := net0, 0;
    assert Residual(net0, net0);
    var lvl := Levels(net, s);
    ListCapNonneg(net[s]);
    while lvl[t] >= 0
      invariant Shaped(net) && Residual(net0, net) && Conserved(net0, net, s, t, flow) && flow >= 0
      invariant BfsLevels(net, s, lvl) && Out(net, s) >= 0
      decreases Out(net, s)
    {
      net, flow := Augment(net0, net, lvl, s, t, flow);
      lvl := Levels(net, s);
      ListCapNonneg(net[s]);
    }
  }

  // ---------------------------------------------------------------- the flow is the cut

  /** Where the construction puts the arc of entry k, in u's list, and its
      reverse, in v's list (right after the arc when u == v). */
  ghost function Fwd(n: nat, E: seq<Entry>, k: int): int
    requires EntriesOk(E, n) && 0 <= k < |E|
  {
    assert EntriesOk(E[..k], n);
    |NetOf(n, E[..k])[E[k].u]|
  }

  ghost function Bwd(n: nat, E: seq<Entry>, k: int): int
    requires EntriesOk(E, n) && 0 <= k < |E|
  {
    assert EntriesOk(E[..k], n);
    |NetOf(n, E[..k])[E[k].v]| + (if E[k].u == E[k].v then 1 else 0)
  }

  /** Later entries only append: the list of x built from a prefix of E is
      a prefix of the one built from E. */
  lemma {:induction false} NetOfPrefix(n: nat, E: seq<Entry>, j: nat, x: int)
    requires EntriesOk(E, n) && j <= |E| && 0 <= x < n
    ensures EntriesOk(E[..j], n)
    ensures |NetOf(n, E[..j])[x]| <= |NetOf(n, E)[x]|
    ensures NetOf(n, E)[x][..|NetOf(n, E[..j])[x]|] == NetOf(n, E[..j])[x]
    decreases |E|
  {
    assert EntriesOk(E[..j], n);
    if j == |E| {
      assert E[..j] == E;
    } else {
      var E' := E[..|E| - 1];
      assert E'[..j] == E[..j];
      NetOfPrefix(n, E', j, x);
      var a, b, c := NetOf(n, E[..j])[x], NetOf(n, E')[x], NetOf(n, E)[x];
      assert c[..|b|] == b;
      assert c[..|a|] == b[..|a|];
    }
  }

  /** Entry k's arc, to v with capacity c, sits at Fwd in u's list, and its
      reverse, to u with capacity 0 and naming the arc, at Bwd in v's list;
      for u != v the arc names its reverse. */
  lemma ArcsAt(n: nat, E: seq<Entry>, k: int)
    requires EntriesOk(E, n) && 0 <= k < |E|
    ensures Fwd(n, E, k) < |NetOf(n, E)[E[k].u]| && Bwd(n, E, k) < |NetOf(n, E)[E[k].v]|
    ensures NetOf(n, E)[E[k].u][Fwd(n, E, k)].to == E[k].v && NetOf(n, E)[E[k].u][Fwd(n, E, k)].cap == E[k].c
    ensures E[k].u != E[k].v ==> NetOf(n, E)[E[k].u][Fwd(n, E, k)].rev == Bwd(n, E, k)
    ensures NetOf(n, E)[E[k].v][Bwd(n, E, k)] == Arc(E[k].u, Fwd(n, E, k), 0)
  {
    var e := E[k];
    assert E[..k + 1][..k] == E[..k] && E[..k + 1][k] == e;
    NetOfPrefix(n, E, k, e.u);
    NetOfPrefix(n, E, k + 1, e.u);
    NetOfPrefix(n, E, k + 1, e.v);
    var before, after, all := NetOf(n, E[..k]), NetOf(n, E[..k + 1]), NetOf(n, E);
    assert after == AddEdge(before, e.u, e.v, e.c);
    assert all[e.u][..|after[e.u]|] == after[e.u];
    assert all[e.v][..|after[e.v]|] == after[e.v];
    assert all[e.u][Fwd(n, E, k)] == after[e.u][Fwd(n, E, k)];
    assert all[e.v][Bwd(n, E, k)] == after[e.v][Bwd(n, E, k)];
  }

  /** The capacity of arc i of x, or 0 when there is none. */
  ghost function CapAt(net: Net, x: int, i: int): int
  {
    if 0 <= x < |net| && 0 <= i < |net[x]| then net[x][i].cap else 0
  }

  /** The capacity, in net, of those arcs of entry k that leave x. */
  ghost function Contrib(n: nat, E: seq<Entry>, net: Net, k: int, x: int): int
    requires EntriesOk(E, n) && 0 <= k < |E|
  {
    (if E[k].u == x then CapAt(net, x, Fwd(n, E, k)) else 0) + (if E[k].v == x then CapAt(net, x, Bwd(n, E, k)) else 0)
  }

  /** The capacity of the arcs of the first m entries that leave x. */
  ghost function Decomp(n: nat, E: seq<Entry>, net: Net, m: nat, x: int): int
    requires EntriesOk(E, n) && m <= |E|
  {
    if m == 0 then 0 else Decomp(n, E, net, m - 1, x) + Contrib(n, E, net, m - 1, x)
  }

  /** In any network with the lists of NetOf(n, E), the arcs the first m
      entries put in x's list carry the capacity of those entries' arcs
      that leave x. */
  lemma {:induction false} Decompose(n: nat, E: seq<Entry>, net: Net, m: nat, x: int)
    requires EntriesOk(E, n) && m <= |E| && 0 <= x < n
    requires |net| == n && |net[x]| == |NetOf(n, E)[x]|
    ensures EntriesOk(E[..m], n) && |NetOf(n, E[..m])[x]| <= |net[x]|
    ensures ListCap(net[x][..|NetOf(n, E[..m])[x]|]) == Decomp(n, E, net, m, x)
  {
    NetOfPrefix(n, E, m, x);
    if m == 0 {
      assert E[..0] == [];
    } else {
      Decompose(n, E, net, m - 1, x);
      DecomposeStep(n, E, net, m, x);
    }
  }

  /** The arcs entry m - 1 appends to x's list add its contribution. */
  lemma DecomposeStep(n: nat, E: seq<Entry>, net: Net, m: nat, x: int)
    requires EntriesOk(E, n) && 0 < m <= |E| && 0 <= x < n
    requires |net| == n && |net[x]| == |NetOf(n, E)[x]|
    requires EntriesOk(E[..m - 1], n) && EntriesOk(E[..m], n)
    requires |NetOf(n, E[..m])[x]| <= |net[x]| && |NetOf(n, E[..m - 1])[x]| <= |net[x]|
    requires ListCap(net[x][..|NetOf(n, E[..m - 1])[x]|]) == Decomp(n, E, net, m - 1, x)
    ensures ListCap(net[x][..|NetOf(n, E[..m])[x]|]) == Decomp(n, E, net, m, x)
  {
    var k := m - 1;
    var e := E[k];
    NetStep(n, E, m, x);
    var L := |NetOf(n, E[..k])[x]|;
    var c := (if x == e.u then 1 else 0) + (if x == e.v then 1 else 0);
    assert Decomp(n, E, net, m, x) == Decomp(n, E, net, k, x) + Contrib(n, E, net, k, x);
    assert Contrib(n, E, net, k, x) == (if c >= 1 then net[x][L].cap else 0) + (if c == 2 then net[x][L + 1].cap else 0);
    RowSplit(net[x], L, c);
  }

  /** The capacity of a list prefix grown by c <= 2 arcs. */
  lemma RowSplit(row: seq<Arc>, L: int, c: int)
    requires 0 <= c <= 2 && 0 <= L && L + c <= |row|
    ensures ListCap(row[..L + c]) == ListCap(row[..L]) + (if c >= 1 then row[L].cap else 0) + (if c == 2 then row[L + 1].cap else 0)
  {
    if c >= 1 {
      assert row[..L + 1] == row[..L] + [row[L]];
      ListCapAppend(row[..L], row[L]);
    }
    if c == 2 {
      assert row[..L + 2] == row[..L + 1] + [row[L + 1]];
      ListCapAppend(row[..L + 1], row[L + 1]);
    }
  }

  /** Entry m - 1 appends one arc to x's list for each of its ends at x,
      at the positions Fwd and Bwd name. */
  lemma NetStep(n: nat, E: seq<Entry>, m: nat, x: int)
    requires EntriesOk(E, n) && 0 < m <= |E| && 0 <= x < n
    ensures EntriesOk(E[..m - 1], n) && EntriesOk(E[..m], n)
    ensures |NetOf(n, E[..m])[x]|
         == |NetOf(n, E[..m - 1])[x]| + (if x == E[m - 1].u then 1 else 0) + (if x == E[m - 1].v then 1 else 0)
    ensures x == E[m - 1].u ==> Fwd(n, E, m - 1) == |NetOf(n, E[..m - 1])[x]|
    ensures x == E[m - 1].v ==> Bwd(n, E, m - 1) == |NetOf(n, E[..m - 1])[x]| + (if E[m - 1].u == E[m - 1].v then 1 else 0)
  {
    var k := m - 1;
    var e := E[k];
    assert E[..m][..k] == E[..k] && E[..m][k] == e;
    assert EntriesOk(E[..k], n) && EntriesOk(E[..m], n);
    var before := NetOf(n, E[..k]);
    assert NetOf(n, E[..m]) == AddEdge(before, e.u, e.v, e.c);
  }

  /** The capacity of the entries' arcs that leave vertices labelled 0. */
  ghost function SideCap(n: nat, E: seq<Entry>, net: Net, part: seq<int>, m: nat): int
    requires EntriesOk(E, n) && m <= |E| && |part| == n
  {
    if m == 0 then 0
    else
      var e := E[m - 1];
      SideCap(n, E, net, part, m - 1)
        + (if part[e.u] == 0 then CapAt(net, e.u, Fwd(n, E, m - 1)) else 0)
        + (if part[e.v] == 0 then CapAt(net, e.v, Bwd(n, E, m - 1)) else 0)
  }

  /** Summing the per-vertex capacities over side 0 regroups them by entry. */
  lemma {:induction false} SideSum(n: nat, E: seq<Entry>, net: Net, part: seq<int>, m: nat)
    requires EntriesOk(E, n) && m <= |E| && |part| == n
    ensures Sum(n, x => if 0 <= x < n && part[x] == 0 then Decomp(n, E, net, m, x) else 0) == SideCap(n, E, net, part, m)
  {
    var f := x => if 0 <= x < n && part[x] == 0 then Decomp(n, E, net, m, x) else 0;
    if m == 0 {
      SumZero(n, f);
    } else {
      SideSum(n, E, net, part, m - 1);
      var e := E[m - 1];
      var f1 := x => if 0 <= x < n && part[x] == 0 then Decomp(n, E, net, m - 1, x) else 0;
      var a := x => if 0 <= x < n && part[x] == 0 && e.u == x then CapAt(net, x, Fwd(n, E, m - 1)) else 0;
      var b := x => if 0 <= x < n && part[x] == 0 && e.v == x then CapAt(net, x, Bwd(n, E, m - 1)) else 0;
      var ab := x => a(x) + b(x);
      SumAdd(n, a, b, ab);
      SumAdd(n, f1, ab, f);
      SumPoint(n, e.u, a);
      SumPoint(n, e.v, b);
    }
  }

  /** The capacity of the entries that go from a vertex labelled 0 to one
      labelled 1. */
  ghost function Leaving(E: seq<Entry>, part: seq<int>): int
  {
    if E == [] then 0
    else
      var e := E[|E| - 1];
      Leaving(E[..|E| - 1], part) + (if 0 <= e.u < |part| && 0 <= e.v < |part| && part[e.u] == 0 && part[e.v] == 1 then e.c else 0)
  }

  /** No arc with capacity left leads out of side 0. */
  ghost predicate ClosedSide(net: Net, part: seq<int>)
  {
    |part| == |net|
    && forall u, i :: 0 <= u < |net| && 0 <= i < |net[u]| && 0 <= net[u][i].to < |net| && part[u] == 0 && net[u][i].cap > 0
         ==> part[net[u][i].to] == 0
  }

  /** Entry by entry, what side 0 lost against the built network is the
      capacity of the entries from side 0 to side 1: such an arc is empty,
      its reverse full, and an entry inside one side moves nothing across. */
  lemma {:induction false} SideDrop(n: nat, E: seq<Entry>, net: Net, part: seq<int>, m: nat)
    requires EntriesOk(E, n) && m <= |E| && |part| == n
    requires Shaped(NetOf(n, E)) && Residual(NetOf(n, E), net) && ClosedSide(net, part)
    requires forall x :: 0 <= x < n ==> part[x] == 0 || part[x] == 1
    ensures SideCap(n, E, NetOf(n, E), part, m) - SideCap(n, E, net, part, m) == Leaving(E[..m], part)
  {
    if m > 0 {
      SideDrop(n, E, net, part, m - 1);
      var k := m - 1;
      assert E[..m][..k] == E[..k] && E[..m][k] == E[k];
      SideDropEntry(n, E, net, part, k);
    }
  }

  /** What side 0 loses through the two arcs of entry k is the entry's
      capacity when it runs from side 0 to side 1, and nothing otherwise. */
  lemma SideDropEntry(n: nat, E: seq<Entry>, net: Net, part: seq<int>, k: nat)
    requires EntriesOk(E, n) && k < |E| && |part| == n
    requires Shaped(NetOf(n, E)) && Residual(NetOf(n, E), net) && ClosedSide(net, part)
    requires forall x :: 0 <= x < n ==> part[x] == 0 || part[x] == 1
    ensures var e, net0 := E[k], NetOf(n, E);
      (if part[e.u] == 0 then CapAt(net0, e.u, Fwd(n, E, k)) else 0)
        + (if part[e.v] == 0 then CapAt(net0, e.v, Bwd(n, E, k)) else 0)
        - (if part[e.u] == 0 then CapAt(net, e.u, Fwd(n, E, k)) else 0)
        - (if part[e.v] == 0 then CapAt(net, e.v, Bwd(n, E, k)) else 0)
      == (if part[e.u] == 0 && part[e.v] == 1 then e.c else 0)
  {
    var e := E[k];
    var net0 := NetOf(n, E);
    ArcsAt(n, E, k);
    var f, b := Fwd(n, E, k), Bwd(n, E, k);
    assert KeptAt(net0, net, e.u, f) && KeptAt(net0, net, e.v, b);
    assert net[e.u][f].to == e.v && net[e.v][b].to == e.u;
    assert net[e.u][f].cap >= 0 && net[e.v][b].cap >= 0;
    if e.u != e.v {
      assert net[e.u][f].cap + net[e.v][b].cap == e.c;
    }
  }

  /** Leaving over two runs of entries adds up. */
  lemma {:induction false} LeavingAppend(A: seq<Entry>, B: seq<Entry>, part: seq<int>)
    ensures Leaving(A + B, part) == Leaving(A, part) + Leaving(B, part)
    decreases |B|
  {
    if B == [] {
      assert A + B == A;
    } else {
      assert (A + B)[..|A + B| - 1] == A + B[..|B| - 1];
      LeavingAppend(A, B[..|B| - 1], part);
    }
  }

  /** The entries of u's list leaving side 0 weigh what the list carries to
      side 1 when u is on side 0, and nothing otherwise. */
  lemma {:induction false} LeavingRow(u: int, es: seq<Edge>, part: seq<int>, c: int -> int)
    requires 0 <= u < |part|
    requires forall y :: c(y) == if 0 <= y < |part| && part[u] == 0 && part[y] == 1 then 1 else 0
    ensures Leaving(RowEntries(u, es), part) == WeightedListSum(es, c)
    decreases |es|
  {
    if es == [] {
    } else {
      var es', e := es[..|es| - 1], es[|es| - 1];
      assert RowEntries(u, es)[..|es| - 1] == RowEntries(u, es');
      LeavingRow(u, es', part, c);
      assert es == es' + [e];
      WeightedListSumAppend(es', e, c);
    }
  }

  /** The entries of u's list leaving side 0 carry row u of the one-way
      weights. */
  lemma LeavingOneRow(g: Graph, part: seq<int>, u: int)
    requires WellFormed(g) && |part| == g.n && 0 <= u < g.n
    ensures Leaving(RowEntries(u, g.adj[u]), part) == Row(g.n, OneWay(g, part), u)
  {
    var c := (y: int) => if 0 <= y < |part| && part[u] == 0 && part[y] == 1 then 1 else 0;
    LeavingRow(u, g.adj[u], part, c);
    var f := (y: int) => ListWeight(g.adj[u], y) * c(y);
    Regroup(g.adj[u], g.n, c, f);
    RowSum(g.n, OneWay(g, part), u, f);
  }

  /** The entries of the lists of 0..m-1 leaving side 0 carry the one-way
      weight of those rows. */
  lemma {:induction false} LeavingOneWay(g: Graph, part: seq<int>, m: nat)
    requires WellFormed(g) && |part| == g.n && m <= g.n
    ensures Leaving(Entries(g, m), part) == DSum(m, g.n, OneWay(g, part))
  {
    if m > 0 {
      LeavingOneWay(g, part, m - 1);
      LeavingAppend(Entries(g, m - 1), RowEntries(m - 1, g.adj[m - 1]), part);
      LeavingOneRow(g, part, m - 1);
    }
  }

  /** The flow is the one-way cut of the reachable side: with the network
      built from g left as a residual network in which no arc with capacity
      leaves side 0, the flow that left s (on side 0) and arrived at t (on
      side 1) is the weight the lists of side 0 carry to side 1. */
  lemma FlowIsCut(g: Graph, net: Net, part: seq<int>, s: int, t: int, flow: int)
    requires WellFormed(g) && 0 <= s < g.n && 0 <= t < g.n
    requires |part| == g.n && (forall x :: 0 <= x < g.n ==> part[x] == 0 || part[x] == 1) && part[s] == 0 && part[t] == 1
    requires Shaped(Built(g)) && Residual(Built(g), net) && ClosedSide(net, part)
    requires Conserved(Built(g), net, s, t, flow)
    ensures flow == DSum(g.n, g.n, OneWay(g, part))
  {
    var n, E, net0 := g.n, Entries(g, g.n), Built(g);
    forall x | 0 <= x < n
      ensures Out(net0, x) == Decomp(n, E, net0, |E|, x) && Out(net, x) == Decomp(n, E, net, |E|, x)
    {
      assert SameShape(net0, net);
      OutDecomp(n, E, net0, x);
      OutDecomp(n, E, net, x);
    }
    var side0 := x => if 0 <= x < n && part[x] == 0 then Decomp(n, E, net0, |E|, x) else 0;
    var side := x => if 0 <= x < n && part[x] == 0 then Decomp(n, E, net, |E|, x) else 0;
    var lost := x => if 0 <= x < n && part[x] == 0 then Out(net0, x) - Out(net, x) else 0;
    SideSum(n, E, net0, part, |E|);
    SideSum(n, E, net, part, |E|);
    SumAdd(n, side, lost, side0);
    SumPoint(n, s, lost);
    SideDrop(n, E, net, part, |E|);
    assert E[..|E|] == E;
    LeavingOneWay(g, part, n);
  }

  /** A vertex's leaving capacity, in any network with the lists of
      NetOf(n, E), is the capacity of the entries' arcs that leave it. */
  lemma OutDecomp(n: nat, E: seq<Entry>, net: Net, x: int)
    requires EntriesOk(E, n) && 0 <= x < n && |net| == n && |net[x]| == |NetOf(n, E)[x]|
    ensures Out(net, x) == Decomp(n, E, net, |E|, x)
  {
    Decompose(n, E, net, |E|, x);
    assert E[..|E|] == E;
    assert net[x][..|net[x]|] == net[x];
  }

  /** `solve`: an empty graph gives the empty result; terminals out of
      range or equal are an invalid argument. Otherwise the s-side is the
      set of vertices reachable from s in the final residual network, which
      holds s and not t, and the reported cut is the flow: what left s's
      leaving capacity and arrived at t's, at most the weight of s's list. */
  method Solve(g: Graph, s: int, t: int) returns (r: Result<PartitionResult>, residual: Net)
    requires WellFormed(g)
    ensures g.n == 0 ==> r == Ok(EmptyResult)
    ensures g.n > 0 && !(0 <= s < g.n && 0 <= t < g.n && s != t) ==> r == Err(InvalidArgument)
    ensures g.n > 0 && 0 <= s < g.n && 0 <= t < g.n && s != t ==>
      && r.Ok? && |r.value.part| == g.n && r.value.separator == [] && r.value.score == 0
      && |residual| == g.n && Shaped(residual) && NonNeg(residual)
      && Shaped(Built(g)) && Residual(Built(g), residual) && Conserved(Built(g), residual, s, t, r.value.cutWeight)
      && (forall v :: 0 <= v < g.n ==> r.value.part[v] == 0 || r.value.part[v] == 1)
      && (forall v :: 0 <= v < g.n ==> (r.value.part[v] == 0 <==> Reachable(residual, s, v)))
      && r.value.part[s] == 0 && r.value.part[t] == 1
      && 0 <= r.value.cutWeight <= ListTotal(g.adj[s])
      && (forall v :: 0 <= v < g.n ==>
            Out(residual, v) == ListTotal(g.adj[v]) - (if v == s then r.value.cutWeight else 0) + (if v == t then r.value.cutWeight else 0))
      && r.value.cutWeight == DSum(g.n, g.n, OneWay(g, r.value.part))
      && (Undirected(g) ==> r.value.cutWeight == CutWeight(g, r.value.part))
  {
    residual := [];
    if g.n == 0 {
      return Ok(EmptyResult), [];
    }
    if s < 0 || t < 0 || s >= g.n || t >= g.n || s == t {
      return Err(InvalidArgument), [];
    }
    var net0 := BuildNet(g);
    var flow;
    residual, flow := MaxFlow(net0, s, t);
    var reach := ReachableFrom(residual, s);
    assert ReachIn(residual, s, s, 0);
    var part := seq(g.n, i requires 0 <= i < g.n => if reach[i] then 0 else 1);
    forall u, i | 0 <= u < g.n && 0 <= i < |residual[u]| && 0 <= residual[u][i].to < g.n && part[u] == 0 && residual[u][i].cap > 0
      ensures part[residual[u][i].to] == 0
    {
      ReachStep(residual, s, u, i);
    }
    assert ClosedSide(residual, part);
    FlowIsCut(g, residual, part, s, t, flow);
    if Undirected(g) {
      CutOneWay(g, part);
    }
    r := Ok(PartitionResult(part, [], flow, 0));
  }
}

=== FILE: subsets.dfy ===
/** The view of a graph that `bisection_on_subset` (MinimumBisectionSolver.cpp)
    works with: only the edges between two vertices of the subset count. This
    module defines that restricted cut, the D values of the Kernighan-Lin
    passes, and proves the swap-gain identity the passes rely on. */
module Subsets {
  import opened Sums
  import opened Graphs
  import opened Cuts

  /** Every member of S is a vertex of a graph with n vertices. */
  ghost predicate SetIn(S: set<int>, n: int)
  {
    forall v :: v in S ==> 0 <= v < n
  }

  /** Undirected, without self-loops and without parallel edges: the graphs on
      which the swap gain of the passes is exact. */
  ghost predicate Simple(g: Graph)
    requires |g.adj| == g.n
  {
    Undirected(g) && NoSelfLoops(g) && NoParallelEdges(g)
  }

  /** The entries of es that point into S, in their order. */
  function Filter(es: seq<Edge>, S: set<int>): (r: seq<Edge>)
    ensures forall e :: e in r <==> e in es && e.to in S
    ensures |r| <= |es|
  {
    if es == [] then []
    else
      assert es == [es[0]] + es[1..];
      (if es[0].to in S then [es[0]] else []) + Filter(es[1..], S)
  }

  lemma {:induction false} FilterWeight(es: seq<Edge>, S: set<int>, y: int)
    ensures ListWeight(Filter(es, S), y) == if y in S then ListWeight(es, y) else 0
  {
    if es != [] {
      FilterWeight(es[1..], S, y);
      if es[0].to in S {
        assert Filter(es, S) == [es[0]] + Filter(es[1..], S);
        assert ([es[0]] + Filter(es[1..], S))[1..] == Filter(es[1..], S);
      } else {
        assert Filter(es, S) == Filter(es[1..], S);
      }
    }
  }

  lemma {:induction false} FilterKeepsAll(es: seq<Edge>, S: set<int>)
    requires forall i :: 0 <= i < |es| ==> es[i].to in S
    ensures Filter(es, S) == es
  {
    if es != [] {
      FilterKeepsAll(es[1..], S);
      assert es == [es[0]] + es[1..];
    }
  }

  /** The subgraph induced by S: a vertex outside S keeps no entries, a vertex
      inside keeps the entries pointing into S. */
  function Induced(g: Graph, S: set<int>): (h: Graph)
    requires WellFormed(g)
    ensures WellFormed(h) && h.n == g.n
    ensures forall x, y :: 0 <= x < g.n ==> Wt(h, x, y) == if x in S && y in S then Wt(g, x, y) else 0
  {
    var h := Graph(g.n, seq(g.n, u requires 0 <= u < g.n => if u in S then Filter(g.adj[u], S) else []));
    assert forall x, y :: 0 <= x < g.n ==> Wt(h, x, y) == if x in S && y in S then Wt(g, x, y) else 0 by {
      forall x, y | 0 <= x < g.n
        ensures Wt(h, x, y) == if x in S && y in S then Wt(g, x, y) else 0
      {
        if x in S {
          FilterWeight(g.adj[x], S, y);
        }
      }
    }
    assert WellFormed(h) by {
      forall u, i | 0 <= u < h.n && 0 <= i < |h.adj[u]|
        ensures 0 <= h.adj[u][i].to < h.n && h.adj[u][i].w >= 0
      {
        assert u in S;
        assert h.adj[u][i] in g.adj[u];
      }
    }
    h
  }

  /** Inducing on a set that every entry points into changes nothing. */
  lemma InducedAll(g: Graph, S: set<int>)
    requires WellFormed(g)
    requires forall v :: 0 <= v < g.n ==> v in S
    ensures Induced(g, S) == g
  {
    var h := Induced(g, S);
    forall u | 0 <= u < g.n
      ensures h.adj[u] == g.adj[u]
    {
      FilterKeepsAll(g.adj[u], S);
    }
  }

  /** The cut among the vertices of S: the cut of the subgraph S induces. */
  function RestrictedCut(g: Graph, S: set<int>, p: seq<int>): int
    requires WellFormed(g) && |p| == g.n
  {
    CutWeight(Induced(g, S), p)
  }

  /** Over the whole vertex set the restricted cut is the cut. */
  lemma RestrictedCutAll(g: Graph, S: set<int>, p: seq<int>)
    requires WellFormed(g) && |p| == g.n
    requires forall v :: 0 <= v < g.n ==> v in S
    ensures RestrictedCut(g, S, p) == CutWeight(g, p)
  {
    InducedAll(g, S);
  }

  // ---------------------------------------------------------------- pair form

  /** The weight between two distinct vertices of S, and 0 for any other pair. */
  ghost function SubWt(g: Graph, S: set<int>, x: int, y: int): int
    requires WellFormed(g)
  {
    if 0 <= x < g.n && 0 <= y < g.n && x in S && y in S && x != y then Wt(g, x, y) else 0
  }

  /** SubWt where the labels differ. */
  ghost function SubCrossing(g: Graph, S: set<int>, p: seq<int>): (int, int) -> int
    requires WellFormed(g) && |p| == g.n
  {
    (x, y) => if 0 <= x < g.n && 0 <= y < g.n && p[x] != p[y] then SubWt(g, S, x, y) else 0
  }

  /** Twice the restricted cut is the sum of the crossing subset weights over
      all ordered pairs. */
  lemma RestrictedCutAsPairs(g: Graph, S: set<int>, p: seq<int>)
    requires WellFormed(g) && |p| == g.n && Undirected(g)
    ensures 2 * RestrictedCut(g, S, p) == DSum(g.n, g.n, SubCrossing(g, S, p))
  {
    var h := Induced(g, S);
    CutAsPairs(h, p);
    forall x, y | 0 <= x < g.n && 0 <= y < g.n
      ensures Crossing(h, p)(x, y) == SubCrossing(g, S, p)(x, y)
    {
      InducedCrossingAt(g, S, p, x, y);
    }
    DSumExt(g.n, g.n, Crossing(h, p), SubCrossing(g, S, p));
  }

  lemma InducedCrossingAt(g: Graph, S: set<int>, p: seq<int>, x: int, y: int)
    requires WellFormed(g) && |p| == g.n && Undirected(g) && 0 <= x < g.n && 0 <= y < g.n
    ensures Crossing(Induced(g, S), p)(x, y) == SubCrossing(g, S, p)(x, y)
  {
    var h := Induced(g, S);
    var w := if x in S && y in S && x != y then Wt(g, x, y) else 0;
    assert Wt(g, x, y) == Wt(g, y, x);
    assert Wt(h, x, y) == if x in S && y in S then Wt(g, x, y) else 0;
    assert Wt(h, y, x) == if x in S && y in S then Wt(g, y, x) else 0;
    assert EdgeWeight(h, x, y) == w;
    assert SubWt(g, S, x, y) == w;
  }

  /** The restricted cut ignores the labels of vertices outside S. */
  lemma RestrictedCutOutside(g: Graph, S: set<int>, p: seq<int>, q: seq<int>)
    requires WellFormed(g) && |p| == g.n && |q| == g.n && Undirected(g)
    requires forall v :: 0 <= v < g.n && v in S ==> p[v] == q[v]
    ensures RestrictedCut(g, S, p) == RestrictedCut(g, S, q)
  {
    RestrictedCutAsPairs(g, S, p);
    RestrictedCutAsPairs(g, S, q);
    DSumExt(g.n, g.n, SubCrossing(g, S, p), SubCrossing(g, S, q));
  }

  // ---------------------------------------------------------------- D values

  /** Weight of u's entries towards S, each counted positive when the label
      differs from u's (external) and negative when it agrees (internal). */
  function SignedWeight(p: seq<int>, u: int, S: set<int>, es: seq<Edge>): int
    requires 0 <= u < |p| && EntriesIn(es, |p|)
  {
    if es == [] then 0
    else
      var e := es[0];
      (if e.to !in S then 0 else if p[u] == p[e.to] then -e.w else e.w) + SignedWeight(p, u, S, es[1..])
  }

  /** The sign with which the weight from u to y enters D[u]. */
  ghost function Side(p: seq<int>, S: set<int>, u: int, y: int): int
    requires 0 <= u < |p|
  {
    if 0 <= y < |p| && y in S then (if p[u] == p[y] then -1 else 1) else 0
  }

  /** `compute_D`: external minus internal weight towards S for each vertex of
      S, and 0 for the others. */
  function ComputeD(g: Graph, S: set<int>, p: seq<int>): (d: seq<int>)
    requires WellFormed(g) && |p| == g.n
    ensures |d| == g.n
    ensures forall u :: 0 <= u < g.n && u !in S ==> d[u] == 0
    ensures forall u :: 0 <= u < g.n && u in S ==> d[u] == Sum(g.n, y => Side(p, S, u, y) * Wt(g, u, y))
  {
    var d := seq(g.n, u requires 0 <= u < g.n => if u in S then SignedWeight(p, u, S, g.adj[u]) else 0);
    assert forall u :: 0 <= u < g.n && u in S ==> d[u] == Sum(g.n, y => Side(p, S, u, y) * Wt(g, u, y)) by {
      forall u | 0 <= u < g.n && u in S
        ensures d[u] == Sum(g.n, y => Side(p, S, u, y) * Wt(g, u, y))
      {
        DAsSum(g, S, p, u);
      }
    }
    d
  }

  lemma DAsSum(g: Graph, S: set<int>, p: seq<int>, u: int)
    requires WellFormed(g) && |p| == g.n && 0 <= u < g.n
    ensures SignedWeight(p, u, S, g.adj[u]) == Sum(g.n, y => Side(p, S, u, y) * Wt(g, u, y))
  {
    var c := (y: int) => Side(p, S, u, y);
    var f := (y: int) => ListWeight(g.adj[u], y) * c(y);
    assert EntriesIn(g.adj[u], |p|);
    SignedWeightIsWeighted(p, u, S, g.adj[u], c);
    Regroup(g.adj[u], g.n, c, f);
    SumExt(g.n, f, y => Side(p, S, u, y) * Wt(g, u, y));
  }

  lemma {:induction false} SignedWeightIsWeighted(p: seq<int>, u: int, S: set<int>, es: seq<Edge>, c: int -> int)
    requires 0 <= u < |p| && EntriesIn(es, |p|)
    requires forall y :: c(y) == Side(p, S, u, y)
    ensures SignedWeight(p, u, S, es) == WeightedListSum(es, c)
  {
    if es != [] {
      SignedWeightIsWeighted(p, u, S, es[1..], c);
    }
  }

  /** The weight of the first entry of es pointing at v, or 0 if there is none:
      the `wuv` lookup of the pair scan, which stops at the first match. */
  function FirstWeight(es: seq<Edge>, v: int): (r: int)
    ensures (forall i :: 0 <= i < |es| ==> es[i].to != v) ==> r == 0
    ensures forall i :: 0 <= i < |es| && es[i].to == v && (forall k :: 0 <= k < i ==> es[k].to != v) ==> r == es[i].w
  {
    if es == [] then 0
    else if es[0].to == v then es[0].w
    else
      var r := FirstWeight(es[1..], v);
      assert forall i :: 1 <= i < |es| ==> es[1..][i - 1] == es[i];
      r
  }

  /** Without parallel entries the first match is the only one. */
  lemma {:induction false} FirstWeightIsWeight(es: seq<Edge>, v: int)
    requires forall i, j :: 0 <= i < j < |es| ==> es[i].to != es[j].to
    ensures FirstWeight(es, v) == ListWeight(es, v)
  {
    if es != [] {
      FirstWeightIsWeight(es[1..], v);
      if es[0].to == v {
        NoEntryNoWeight(es[1..], v);
      }
    }
  }

  lemma {:induction false} NoEntryNoWeight(es: seq<Edge>, v: int)
    requires forall i :: 0 <= i < |es| ==> es[i].to != v
    ensures ListWeight(es, v) == 0
  {
    if es != [] {
      NoEntryNoWeight(es[1..], v);
    }
  }

  /** The gain `D[u] + D[v] - 2 * wuv` of exchanging u and v. */
  function Gain(g: Graph, d: seq<int>, u: int, v: int): int
    requires WellFormed(g) && |d| == g.n && 0 <= u < g.n && 0 <= v < g.n
  {
    d[u] + d[v] - 2 * FirstWeight(g.adj[u], v)
  }

  // ---------------------------------------------------------------- swap gain

  /** What the labels of a, b contribute to the change of the crossing weight
      on row (or column) c when a and b exchange labels. */
  ghost function SwapRow(g: Graph, S: set<int>, p: seq<int>, a: int, b: int, c: int, y: int): int
    requires WellFormed(g) && |p| == g.n && 0 <= c < g.n
  {
    if 0 <= y < g.n && y in S && y != a && y != b then Side(p, S, c, y) * Wt(g, c, y) else 0
  }

  lemma SwapDeltaAt(g: Graph, S: set<int>, p: seq<int>, a: int, b: int, x: int, y: int)
    requires WellFormed(g) && |p| == g.n && Undirected(g)
    requires 0 <= a < g.n && 0 <= b < g.n && a in S && b in S && p[a] == 0 && p[b] == 1
    requires forall v :: 0 <= v < g.n && v in S ==> p[v] == 0 || p[v] == 1
    requires 0 <= x < g.n && 0 <= y < g.n
    ensures SubCrossing(g, S, p)(x, y) - SubCrossing(g, S, p[a := 1][b := 0])(x, y)
         == (if x == a then SwapRow(g, S, p, a, b, a, y) else 0)
          + (if y == a then SwapRow(g, S, p, a, b, a, x) else 0)
          + (if x == b then SwapRow(g, S, p, a, b, b, y) else 0)
          + (if y == b then SwapRow(g, S, p, a, b, b, x) else 0)
  {
    var q := p[a := 1][b := 0];
    assert q[a] == 1 && q[b] == 0;
    assert Wt(g, x, y) == Wt(g, y, x);
    if x in S && y in S && x != y {
      if x == a || x == b || y == a || y == b {
      } else {
        assert q[x] == p[x] && q[y] == p[y];
      }
    }
  }

  /** The row sum of the change is D minus the weight to the partner. */
  lemma SwapRowSum(g: Graph, S: set<int>, p: seq<int>, a: int, b: int, c: int, o: int)
    requires WellFormed(g) && |p| == g.n && NoSelfLoops(g)
    requires 0 <= a < g.n && 0 <= b < g.n && a in S && b in S && p[a] != p[b]
    requires (c == a && o == b) || (c == b && o == a)
    ensures Sum(g.n, y => SwapRow(g, S, p, a, b, c, y)) == ComputeD(g, S, p)[c] - Wt(g, c, o)
  {
    var full := (y: int) => Side(p, S, c, y) * Wt(g, c, y);
    var row := (y: int) => SwapRow(g, S, p, a, b, c, y);
    var atO := (y: int) => if y == o then Wt(g, c, o) else 0;
    var rest := (y: int) => row(y) + atO(y);
    NoEntryNoWeight(g.adj[c], c);
    forall y | 0 <= y < g.n
      ensures full(y) == rest(y)
    {
    }
    SumExt(g.n, full, rest);
    SumAdd(g.n, row, atO, rest);
    SumPoint(g.n, o, atO);
  }

  /** The swap-gain identity: on a simple graph, exchanging the labels of a
      label-0 vertex a and a label-1 vertex b of S lowers the cut among S by
      exactly `D[a] + D[b] - 2 * wab`, with wab read as the scan reads it. */
  lemma SwapGain(g: Graph, S: set<int>, p: seq<int>, a: int, b: int)
    requires WellFormed(g) && |p| == g.n && Simple(g)
    requires 0 <= a < g.n && 0 <= b < g.n && a in S && b in S && p[a] == 0 && p[b] == 1
    requires forall v :: 0 <= v < g.n && v in S ==> p[v] == 0 || p[v] == 1
    ensures RestrictedCut(g, S, p[a := 1][b := 0])
         == RestrictedCut(g, S, p) - Gain(g, ComputeD(g, S, p), a, b)
  {
    var n := g.n;
    var q := p[a := 1][b := 0];
    var hp := SubCrossing(g, S, p);
    var hq := SubCrossing(g, S, q);
    RestrictedCutAsPairs(g, S, p);
    RestrictedCutAsPairs(g, S, q);
    var ra := (y: int) => SwapRow(g, S, p, a, b, a, y);
    var rb := (y: int) => SwapRow(g, S, p, a, b, b, y);
    var t1 := (x: int, y: int) => if x == a then ra(y) else 0;
    var t2 := (x: int, y: int) => if y == a then ra(x) else 0;
    var t3 := (x: int, y: int) => if x == b then rb(y) else 0;
    var t4 := (x: int, y: int) => if y == b then rb(x) else 0;
    var s12 := (x: int, y: int) => t1(x, y) + t2(x, y);
    var s34 := (x: int, y: int) => t3(x, y) + t4(x, y);
    var delta := (x: int, y: int) => s12(x, y) + s34(x, y);
    var back := (x: int, y: int) => delta(x, y) + hq(x, y);
    forall x, y | 0 <= x < n && 0 <= y < n
      ensures hp(x, y) == back(x, y)
    {
      SwapDeltaAt(g, S, p, a, b, x, y);
    }
    DSumExt(n, n, hp, back);
    DSumAdd(n, n, delta, hq, back);
    DSumAdd(n, n, s12, s34, delta);
    DSumAdd(n, n, t1, t2, s12);
    DSumAdd(n, n, t3, t4, s34);
    DSumRowPoint(n, n, a, t1);
    RowSum(n, t1, a, ra);
    DSumColPoint(n, n, a, t2);
    ColSum(n, t2, a, ra);
    DSumRowPoint(n, n, b, t3);
    RowSum(n, t3, b, rb);
    DSumColPoint(n, n, b, t4);
    ColSum(n, t4, b, rb);
    SwapRowSum(g, S, p, a, b, a, b);
    SwapRowSum(g, S, p, a, b, b, a);
    assert Wt(g, b, a) == Wt(g, a, b);
    FirstWeightIsWeight(g.adj[a], b);
  }
}

=== FILE: sums.dfy ===
/** Finite integer sums over index ranges, used to state every cut and
    weight identity of the model as a sum over vertices or vertex pairs. */
module Sums {

  /** The sum of f(i) for 0 <= i < n. */
  ghost function Sum(n: nat, f: int -> int): int
  {
    if n == 0 then 0 else Sum(n - 1, f) + f(n - 1)
  }

  /** The sum of h(x, y) for 0 <= y < n: row x of a double sum. */
  ghost function Row(n: nat, h: (int, int) -> int, x: int): int
  {
    if n == 0 then 0 else Row(n - 1, h, x) + h(x, n - 1)
  }

  /** The sum of h(x, y) for 0 <= x < m: column y of a double sum. */
  ghost function Col(m: nat, h: (int, int) -> int, y: int): int
  {
    if m == 0 then 0 else Col(m - 1, h, y) + h(m - 1, y)
  }

  /** The sum of h(x, y) for 0 <= x < m and 0 <= y < n. */
  ghost function DSum(m: nat, n: nat, h: (int, int) -> int): int
  {
    if m == 0 then 0 else DSum(m - 1, n, h) + Row(n, h, m - 1)
  }

  // ---------------------------------------------------------------- Sum

  lemma {:induction false} SumExt(n: nat, f: int -> int, g: int -> int)
    requires forall i :: 0 <= i < n ==> f(i) == g(i)
    ensures Sum(n, f) == Sum(n, g)
  {
    if n > 0 {
      SumExt(n - 1, f, g);
    }
  }

  lemma {:induction false} SumAdd(n: nat, f: int -> int, g: int -> int, h: int -> int)
    requires forall i :: 0 <= i < n ==> h(i) == f(i) + g(i)
    ensures Sum(n, h) == Sum(n, f) + Sum(n, g)
  {
    if n > 0 {
      SumAdd(n - 1, f, g, h);
    }
  }

  lemma {:induction false} SumZero(n: nat, f: int -> int)
    requires forall i :: 0 <= i < n ==> f(i) == 0
    ensures Sum(n, f) == 0
  {
    if n > 0 {
      SumZero(n - 1, f);
    }
  }

  lemma {:induction false} SumNonneg(n: nat, f: int -> int)
    requires forall i :: 0 <= i < n ==> f(i) >= 0
    ensures Sum(n, f) >= 0
  {
    if n > 0 {
      SumNonneg(n - 1, f);
    }
  }

  lemma {:induction false} SumMono(n: nat, f: int -> int, g: int -> int)
    requires forall i :: 0 <= i < n ==> f(i) <= g(i)
    ensures Sum(n, f) <= Sum(n, g)
  {
    if n > 0 {
      SumMono(n - 1, f, g);
    }
  }

  /** A sum whose terms all vanish except possibly at index a. */
  lemma {:induction false} SumPoint(n: nat, a: int, f: int -> int)
    requires forall i :: 0 <= i < n && i != a ==> f(i) == 0
    ensures Sum(n, f) == if 0 <= a < n then f(a) else 0
  {
    if n > 0 {
      SumPoint(n - 1, a, f);
    }
  }

  // ---------------------------------------------------------------- Row and Col

  /** A row is the sum of any f that agrees with it. */
  lemma {:induction false} RowSum(n: nat, h: (int, int) -> int, x: int, f: int -> int)
    requires forall y :: 0 <= y < n ==> f(y) == h(x, y)
    ensures Row(n, h, x) == Sum(n, f)
  {
    if n > 0 {
      RowSum(n - 1, h, x, f);
    }
  }

  /** A column is the sum of any f that agrees with it. */
  lemma {:induction false} ColSum(m: nat, h: (int, int) -> int, y: int, f: int -> int)
    requires forall x :: 0 <= x < m ==> f(x) == h(x, y)
    ensures Col(m, h, y) == Sum(m, f)
  {
    if m > 0 {
      ColSum(m - 1, h, y, f);
    }
  }

  lemma {:induction false} RowExt(n: nat, h: (int, int) -> int, x: int, k: (int, int) -> int, x': int)
    requires forall y :: 0 <= y < n ==> h(x, y) == k(x', y)
    ensures Row(n, h, x) == Row(n, k, x')
  {
    if n > 0 {
      RowExt(n - 1, h, x, k, x');
    }
  }

  lemma {:induction false} RowAdd(n: nat, h1: (int, int) -> int, h2: (int, int) -> int, h: (int, int) -> int, x: int)
    requires forall y :: 0 <= y < n ==> h(x, y) == h1(x, y) + h2(x, y)
    ensures Row(n, h, x) == Row(n, h1, x) + Row(n, h2, x)
  {
    if n > 0 {
      RowAdd(n - 1, h1, h2, h, x);
    }
  }

  lemma {:induction false} RowScale(n: nat, c: int, h: (int, int) -> int, k: (int, int) -> int, x: int)
    requires forall y :: 0 <= y < n ==> k(x, y) == c * h(x, y)
    ensures Row(n, k, x) == c * Row(n, h, x)
  {
    if n > 0 {
      RowScale(n - 1, c, h, k, x);
      assert Row(n, k, x) == c * Row(n - 1, h, x) + c * h(x, n - 1);
    }
  }

  lemma {:induction false} RowZero(n: nat, h: (int, int) -> int, x: int)
    requires forall y :: 0 <= y < n ==> h(x, y) == 0
    ensures Row(n, h, x) == 0
  {
    if n > 0 {
      RowZero(n - 1, h, x);
    }
  }

  lemma {:induction false} RowNonneg(n: nat, h: (int, int) -> int, x: int)
    requires forall y :: 0 <= y < n ==> h(x, y) >= 0
    ensures Row(n, h, x) >= 0
  {
    if n > 0 {
      RowNonneg(n - 1, h, x);
    }
  }

  lemma {:induction false} RowPoint(n: nat, h: (int, int) -> int, x: int, b: int)
    requires forall y :: 0 <= y < n && y != b ==> h(x, y) == 0
    ensures Row(n, h, x) == if 0 <= b < n then h(x, b) else 0
  {
    if n > 0 {
      RowPoint(n - 1, h, x, b);
    }
  }

  /** Row x of h is column x of its transpose k. */
  lemma {:induction false} RowCol(n: nat, h: (int, int) -> int, k: (int, int) -> int, x: int)
    requires forall y :: 0 <= y < n ==> k(y, x) == h(x, y)
    ensures Row(n, h, x) == Col(n, k, x)
  {
    if n > 0 {
      RowCol(n - 1, h, k, x);
    }
  }

  // ---------------------------------------------------------------- DSum

  lemma {:induction false} DSumExt(m: nat, n: nat, h: (int, int) -> int, k: (int, int) -> int)
    requires forall x, y :: 0 <= x < m && 0 <= y < n ==> h(x, y) == k(x, y)
    ensures DSum(m, n, h) == DSum(m, n, k)
  {
    if m > 0 {
      DSumExt(m - 1, n, h, k);
      RowExt(n, h, m - 1, k, m - 1);
    }
  }

  lemma {:induction false} DSumAdd(m: nat, n: nat, h1: (int, int) -> int, h2: (int, int) -> int, h: (int, int) -> int)
    requires forall x, y :: 0 <= x < m && 0 <= y < n ==> h(x, y) == h1(x, y) + h2(x, y)
    ensures DSum(m, n, h) == DSum(m, n, h1) + DSum(m, n, h2)
  {
    if m > 0 {
      DSumAdd(m - 1, n, h1, h2, h);
      RowAdd(n, h1, h2, h, m - 1);
    }
  }

  lemma {:induction false} DSumScale(m: nat, n: nat, c: int, h: (int, int) -> int, k: (int, int) -> int)
    requires forall x, y :: 0 <= x < m && 0 <= y < n ==> k(x, y) == c * h(x, y)
    ensures DSum(m, n, k) == c * DSum(m, n, h)
  {
    if m > 0 {
      DSumScale(m - 1, n, c, h, k);
      RowScale(n, c, h, k, m - 1);
      assert DSum(m, n, k) == c * DSum(m - 1, n, h) + c * Row(n, h, m - 1);
    }
  }

  lemma {:induction false} DSumZero(m: nat, n: nat, h: (int, int) -> int)
    requires forall x, y :: 0 <= x < m && 0 <= y < n ==> h(x, y) == 0
    ensures DSum(m, n, h) == 0
  {
    if m > 0 {
      DSumZero(m - 1, n, h);
      RowZero(n, h, m - 1);
    }
  }

  lemma {:induction false} DSumNonneg(m: nat, n: nat, h: (int, int) -> int)
    requires forall x, y :: 0 <= x < m && 0 <= y < n ==> h(x, y) >= 0
    ensures DSum(m, n, h) >= 0
  {
    if m > 0 {
      DSumNonneg(m - 1, n, h);
      RowNonneg(n, h, m - 1);
    }
  }

  /** A double sum whose terms vanish outside row a is that row's sum. */
  lemma {:induction false} DSumRowPoint(m: nat, n: nat, a: int, h: (int, int) -> int)
    requires 0 <= a < m
    requires forall x, y :: 0 <= x < m && 0 <= y < n && x != a ==> h(x, y) == 0
    ensures DSum(m, n, h) == Row(n, h, a)
  {
    if m - 1 == a {
      DSumZero(m - 1, n, h);
    } else {
      DSumRowPoint(m - 1, n, a, h);
      RowZero(n, h, m - 1);
    }
  }

  /** Splitting off the last column. */
  lemma {:induction false} DSumLastCol(m: nat, n: nat, h: (int, int) -> int)
    requires n > 0
    ensures DSum(m, n, h) == DSum(m, n - 1, h) + Col(m, h, n - 1)
  {
    if m > 0 {
      DSumLastCol(m - 1, n, h);
    }
  }

  /** A double sum whose terms vanish outside column b is that column's sum. */
  lemma {:induction false} DSumColPoint(m: nat, n: nat, b: int, h: (int, int) -> int)
    requires 0 <= b < n
    requires forall x, y :: 0 <= x < m && 0 <= y < n && y != b ==> h(x, y) == 0
    ensures DSum(m, n, h) == Col(m, h, b)
  {
    if m > 0 {
      DSumColPoint(m - 1, n, b, h);
      RowPoint(n, h, m - 1, b);
    }
  }

  /** Exchanging the order of summation. */
  lemma {:induction false} DSumTranspose(m: nat, n: nat, h: (int, int) -> int, k: (int, int) -> int)
    requires forall x, y :: 0 <= x < m && 0 <= y < n ==> k(y, x) == h(x, y)
    ensures DSum(m, n, h) == DSum(n, m, k)
  {
    if m > 0 {
      DSumTranspose(m - 1, n, h, k);
      DSumLastCol(n, m, k);
      RowCol(n, h, k, m - 1);
    } else {
      DSumZero(n, 0, k);
    }
  }

  /** For a symmetric h with zero diagonal the full double sum is twice
      the sum over the pairs x < y. */
  lemma DSumTriangle(n: nat, h: (int, int) -> int, u: (int, int) -> int)
    requires forall x, y :: 0 <= x < n && 0 <= y < n ==> h(x, y) == h(y, x)
    requires forall x :: 0 <= x < n ==> h(x, x) == 0
    requires forall x, y :: 0 <= x < n && 0 <= y < n ==> u(x, y) == if x < y then h(x, y) else 0
    ensures DSum(n, n, h) == 2 * DSum(n, n, u)
  {
    var l := (x, y) => if y < x then h(x, y) else 0;
    DSumAdd(n, n, u, l, h);
    DSumTranspose(n, n, l, u);
  }
}
